=== FILE: README.md ===
# manageprojects core in Dafny

`manageprojects` keeps projects that were generated from a Cookiecutter
template in step with later revisions of that template. This project
models its core as pure Dafny functions and methods over an abstract file
system, and proves properties of that model:

- **Reverse templating** (`CookiecutterGenerator`). The flattening of a
  Cookiecutter context into `(value, "{{ key }}")` pairs, the table sorted
  by placeholder length, and the substitution of values by placeholders in
  path parts and file contents. `create_cookiecutter_template` becomes a
  method that returns the directories and files it would write.
- **The `[manageprojects]` record** in `pyproject.toml`
  (`PyProjectToml`, `DataClasses`). It covers the initial revision and
  date, the template and directory, the stored context, the applied
  migrations, and the "last git hash" that the next update starts from.
- **Update orchestration** (`CookiecutterTemplates`, `Overwrite`,
  `Patching`). The start, update, clone and reverse flows; the overwrite
  mode's copy loop over the rendered tree; the patch mode's patch file
  path and the rewriting of the diff's path prefixes.
- **Helpers**:
  - the git root search and the current-hash read (`Git`);
  - the upward `pyproject.toml` search (`PyProjectToml`);
  - `argv2str` with a POSIX-shell lexer as its partner (`SubprocessUtils`);
  - `format_file`'s configuration and tool plan (`FormatFile`);
  - the maximal-line-length checks of the project setup (`ProjectSetup`).

Shared modules:

- `Wrappers` holds `Option`, `Result` and the `Failure` kinds. Each
  `Failure` stands for a Python exception: `AssertionFailed`,
  `KeyNotFound`, `NotADirectory`, `SystemExit(code)` and so on.
- `PyStr` holds Python `str` semantics: `replace` (including an empty
  pattern), `split`/`join`, `strip`, and integer rendering and parsing.
- `Paths` models absolute paths as component sequences (`/` is `[]`) and a
  file system as a map from path to node.
- `Context` holds the recursive dictionary value of a Cookiecutter
  context.

Subprocesses, git, Cookiecutter rendering, `diff`, version specifiers and
EditorConfig lookups are function parameters (oracles). The contracts
relate results to those parameters.

## Model

| member | source | states |
|---|---|---|
| Context.Lookup | manageprojects/utilities/pyproject_toml.py:121 | `d[key]` is absent exactly when no entry has the key; a found value belongs to an entry with that key |
| Context.DictGet | manageprojects/format_file.py:108-112 | an empty key path yields the data itself; a key path into a non-dictionary yields nothing |
| DataClasses.LastGitHash | manageprojects/data_classes.py:37-43 | the last hash is the initial revision when no migration was applied, otherwise one of the applied migrations |
| DataClasses.LastGitHashAfterMigration | manageprojects/data_classes.py:37-43 | after appending a revision to the applied migrations, that revision is the last git hash |
| Git.GetGitRoot | manageprojects/git.py:26-33 | the result is the deepest ancestor-or-self directory that holds a `.git` directory, below the root; nothing exactly when there is none |
| Git.NoRootBelowNonDir | manageprojects/git.py:27-28 | a path that is the root or not a directory has no git root at all |
| Git.GitRootStep | manageprojects/git.py:30-33 | the parent's answer is the answer for a directory without `.git` |
| Git.GitInit | manageprojects/git.py:37-47 | root detection fails with `NoGitRepoError` before the missing binary is reported; on success the working directory is the given one, or the detected ancestor with a `.git` directory |
| Git.CurrentHash | manageprojects/git.py:57-62 | all-whitespace output raises an assertion; otherwise the hash is the output with only whitespace cut from both ends, non-empty and starting and ending in a non-space |
| PyStr.Strip | manageprojects/git.py:59 | the result is a slice of the text with only whitespace around it, begins and ends with a non-space, and is empty exactly when the text is all whitespace |
| Git.CurrentHashOfLine | manageprojects/git.py:57-62 | a stripped hash followed by a newline reads back as that hash |
| Git.RStripNewline | manageprojects/git.py:59 | a trailing newline is removed by stripping and nothing else is |
| PyProjectToml.Open | manageprojects/utilities/pyproject_toml.py:87-106 | a missing file gives an empty store with an empty table; an existing file keeps its other tables and its `[manageprojects]` table, or gets an empty one |
| PyProjectToml.Save | manageprojects/utilities/pyproject_toml.py:145-147 | reading back a saved store gives the same store |
| PyProjectToml.Init | manageprojects/utilities/pyproject_toml.py:108-118 | an assertion fails exactly when a revision, date or template is already recorded; otherwise adding a truthy directory to a table that has one is refused, and in every other case the three fields are set, the directory only when truthy, and nothing else changes |
| PyProjectToml.InitOnlyOnce | manageprojects/utilities/pyproject_toml.py:111-113 | a second `init` on an initialised record fails its assertion |
| PyProjectToml.DropExcluded | manageprojects/utilities/pyproject_toml.py:122-123 | the kept entries are exactly those whose key is not `_output_dir`, `_repo_dir` or `_checkout` |
| PyProjectToml.DropExcludedIdempotent | manageprojects/utilities/pyproject_toml.py:122-123 | dropping the excluded keys twice is the same as once |
| PyProjectToml.SetContext | manageprojects/utilities/pyproject_toml.py:120-128 | a missing `cookiecutter` key raises `KeyError` and a non-dictionary raises `AttributeError`; otherwise only the stored context changes, to `{'cookiecutter': <filtered>}` |
| PyProjectToml.SetContextContents | manageprojects/utilities/pyproject_toml.py:122-126 | an entry is stored exactly when it was in `context['cookiecutter']` and its key is not excluded |
| PyProjectToml.SetContextReplaces | manageprojects/utilities/pyproject_toml.py:126 | a second context update replaces the first one completely |
| PyProjectToml.SetStoredContextAgain | manageprojects/utilities/pyproject_toml.py:120-128 | storing an already stored context again leaves it as it is |
| PyProjectToml.AddMigration | manageprojects/utilities/pyproject_toml.py:130-138 | the hash is appended to the migrations (created when missing) and nothing else changes; an existing empty array is re-added and rejected |
| PyProjectToml.AddMigrationAppends | manageprojects/utilities/pyproject_toml.py:130-138 | the applied migrations grow by one, keep their prefix and end with the hash |
| PyProjectToml.GetMeta | manageprojects/utilities/pyproject_toml.py:151-163 | every meta field is the table's value, and missing migrations read as an empty list |
| PyProjectToml.FreshRecordHasNoRevision | manageprojects/utilities/pyproject_toml.py:151-163 | a project without `pyproject.toml` has no last git hash and no migrations |
| PyProjectToml.RevisionLifecycle | manageprojects/utilities/pyproject_toml.py:108-138 | after `init` the last git hash is the initial revision, and after one migration it is that migration |
| PyProjectToml.FindPyProjectToml | manageprojects/utilities/pyproject_toml.py:49-64 | the result is `pyproject.toml` in the deepest ancestor-or-self directory that has one; nothing exactly when none has one |
| PyProjectToml.FindStep | manageprojects/utilities/pyproject_toml.py:56-62 | without a `pyproject.toml` here, the parent's answer is the answer |
| PyProjectToml.GetPyProjectToml | manageprojects/utilities/pyproject_toml.py:67-79 | the search starts at the given path or the cwd; it raises `NoPyProjectTomlFound` exactly when the search fails, and a found path is a file |
| CookiecutterGenerator.IterContext | manageprojects/cookiecutter_generator.py:11-19 | no yielded value is a dictionary |
| CookiecutterGenerator.IterContextConcat | manageprojects/cookiecutter_generator.py:12 | iterating a concatenation of entries yields the concatenation of the yields |
| CookiecutterGenerator.PrivateKeysIgnored | manageprojects/cookiecutter_generator.py:13-14 | removing the `_`-prefixed keys beforehand changes nothing |
| CookiecutterGenerator.IterContextYields | manageprojects/cookiecutter_generator.py:11-19 | a pair is yielded exactly when a non-private leaf (at any depth, through non-private dictionaries) has it, under its immediate parent's key as prefix |
| CookiecutterGenerator.ImmediateParentPrefixOnly | manageprojects/cookiecutter_generator.py:17 | a leaf two levels down carries only its parent's key as prefix (`b.c`, not `a.b.c`) |
| CookiecutterGenerator.InsertByLength | manageprojects/cookiecutter_generator.py:26 | inserting into a sorted table keeps it sorted, and each length class gets the new item at its end |
| CookiecutterGenerator.SortByPlaceholderLength | manageprojects/cookiecutter_generator.py:26 | the result is sorted by placeholder length and each length class keeps its input order (a stable sort) |
| CookiecutterGenerator.GenerateReverseInfo | manageprojects/cookiecutter_generator.py:22-27 | the table is sorted by placeholder length and stably holds the context's substitutions |
| CookiecutterGenerator.StableSortUnique | manageprojects/cookiecutter_generator.py:26 | two sorted tables with the same length classes are equal, so the stable sort's result is determined |
| CookiecutterGenerator.ApplyTable | manageprojects/cookiecutter_generator.py:52-53 | the replacements succeed exactly when every value is a string, and fail with `TypeError` otherwise |
| CookiecutterGenerator.ApplyTableConcat | manageprojects/cookiecutter_generator.py:52-53 | applying a table is applying its first part, then its second |
| CookiecutterGenerator.ApplyTableUntouched | manageprojects/cookiecutter_generator.py:52-53 | a text that contains none of the values comes through unchanged |
| CookiecutterGenerator.PlaceholderBorderFree | manageprojects/cookiecutter_generator.py:24 | a placeholder of a key without `{` cannot overlap itself |
| CookiecutterGenerator.RenderUndoesSubstitution | manageprojects/cookiecutter_generator.py:52-53 | for text that does not already contain the placeholder, replacing the value by the placeholder and rendering the placeholder back restores the text |
| CookiecutterGenerator.ReplacePath | manageprojects/cookiecutter_generator.py:30-36 | each path part is replaced by the table independently; an empty path never fails |
| CookiecutterGenerator.ReplacePathUntouched | manageprojects/cookiecutter_generator.py:30-36 | a path whose names contain none of the values is not rewritten |
| CookiecutterGenerator.BuildDstPath | manageprojects/cookiecutter_generator.py:39-43 | an item outside the source raises `ValueError`; otherwise the result lies under the destination and each relative part is the substituted source part |
| CookiecutterGenerator.BuildDstPathOfRelative | manageprojects/cookiecutter_generator.py:39-43 | the destination of `source / rel` is the destination joined with the rewritten `rel`, and it fails exactly when rewriting `rel` fails |
| CookiecutterGenerator.Step | manageprojects/cookiecutter_generator.py:79-91 | a directory gives a mkdir at the destination path, a file gives a write of its substituted content, and anything else gives no action |
| CookiecutterGenerator.CreateCookiecutterTemplate | manageprojects/cookiecutter_generator.py:58-91 | a non-directory source raises `NotADirectoryError` and an existing destination fails its assertion; otherwise the result is the in-order plan of the non-ignored items' steps, ending at the first failing step, so success is exactly every such step succeeding, with one action per non-ignored directory or file |
| Overwrite.Merge | manageprojects/overwrite.py:68-86 | the merge fails exactly when some rendered file cannot be copied (`NotADirectoryError` below a non-directory, `IsADirectoryError` onto a directory), with the first such failure; otherwise every rendered file holds its rendered content, the missing parents become directories, every other entry is unchanged, the tree stays a tree, and the count is the number of missing or differing files |
| Overwrite.FirstFailureIff | manageprojects/overwrite.py:68-86 | there is a failure exactly when some rendered file cannot be copied into the project |
| Overwrite.MergeIdempotent | manageprojects/overwrite.py:68-86 | a second overwrite with the same rendering copies nothing and changes nothing |
| Overwrite.OverwriteProject | manageprojects/overwrite.py:20-91 | an unclean working tree exits with 1; a rendered repository that is not a directory raises `NotADirectoryError`; git errors propagate; after that the update fails exactly as the merge does, and a result exists exactly when at least one file was copied, carrying the template's current hash |
| Patching.PatchFilePath | manageprojects/patching.py:74 | the patch file lies three levels below the template repository |
| Patching.PatchFileNameInjective | manageprojects/patching.py:74 | distinct revision pairs give distinct patch files (when the first revision has no `_`) |
| Patching.RewritePrefixes | manageprojects/patching.py:105-111 | each compiled-path prefix must occur, else an assertion fails; all occurrences become `a/` and `b/` |
| Patching.GenerateTemplatePatch | manageprojects/patching.py:48-125 | git errors propagate; equal revisions and an empty diff give `None`; a non-empty diff of distinct revisions gives a patch exactly when both prefixes occur (an assertion fails otherwise), recording both revisions and paths, and the patch is the rewritten diff |
| Patching.SameRenderingNoPatch | manageprojects/patching.py:100-103 | when both revisions render to the same tree, no patch is produced |
| CookiecutterTemplates.UpdateManagedProject | manageprojects/cookiecutter_templates.py:87-177 | a missing revision, context or template fails an assertion; the chosen step's failure is the update's failure and its `None` ends the update unsaved; a step result is saved exactly when the migration can be added, as the record with the result's revision appended (re-read after a patch) |
| CookiecutterTemplates.OverwriteUpdateUnclean | manageprojects/cookiecutter_templates.py:114-128 | an overwrite-mode update whose step is `Overwrite.OverwriteProject` exits with 1 when the work tree is not clean |
| CookiecutterTemplates.OverwriteUpdateRecords | manageprojects/cookiecutter_templates.py:114-175 | an overwrite-mode update that copies some file yields the template's current hash and commit date, and saves the record with that hash appended |
| CookiecutterTemplates.OverwriteUpdateTwice | manageprojects/cookiecutter_templates.py:114-133 | a second overwrite-mode update from the same rendering into the merged tree reports `None` and saves nothing |
| CookiecutterTemplates.UpdateMovesRevision | manageprojects/cookiecutter_templates.py:168-175 | after an update with a result, the saved record's last git hash is the result's `to_rev` |
| CookiecutterTemplates.StartManagedProject | manageprojects/cookiecutter_templates.py:27-84 | the start succeeds exactly when git, the hash, the project directory, an uninitialised record and a `cookiecutter` dictionary are all there; the record then holds the current hash, commit date, template, the truthy directory and the filtered context, with the other tables kept |
| CookiecutterTemplates.CloneManagedProject | manageprojects/cookiecutter_templates.py:180-251 | an existing destination exits with 1, a source that is not a directory raises `NotADirectoryError`, a missing context or template fails an assertion; it succeeds exactly when these pass, git finds the rendered repository, the hash is read, the clone's record is not yet initialised (no directory clash) and `context['cookiecutter']` is a dictionary; the result carries the rendered path, the git root, the hash, the commit date and the source context, and the clone's record holds that hash and date, the source's template, its directory when truthy (else the clone's own), and the filtered source context, with its other tables kept |
| CookiecutterTemplates.CloneKeepsStoredContext | manageprojects/cookiecutter_templates.py:233-241 | cloning a project keeps its stored context unchanged |
| CookiecutterTemplates.ReverseManagedProject | manageprojects/cookiecutter_templates.py:254-281 | an existing destination exits with 1 (without overwrite) or fails; a non-directory project raises `NotADirectoryError`; a missing context fails an assertion; otherwise the result is the template-creation plan under the stored context |
| SubprocessUtils.ShlexQuote | manageprojects/utilities/subprocess_utils.py:28-29 | a non-empty safe string is returned as is; every result is non-empty and does not start with a blank |
| SubprocessUtils.RenderAgreesWithoutNewline | manageprojects/utilities/subprocess_utils.py:26 | without a trailing newline the two renderings agree |
| SubprocessUtils.LexRenderAll | manageprojects/utilities/subprocess_utils.py:31 | a POSIX shell splits the space-joined rendering back into exactly the items |
| SubprocessUtils.Argv2StrRoundTrip | manageprojects/utilities/subprocess_utils.py:16-31 | a shell reads `argv2str(argv)` back as the argument strings (paths as their `str`) |
| SubprocessUtils.Argv2StrAsWrittenBreaksLine | manageprojects/utilities/subprocess_utils.py:26 | as written, `["a\n"]` is emitted unquoted and a shell does not read it back; the corrected rendering does |
| SubprocessUtils.Argv2StrExample | manageprojects/utilities/subprocess_utils.py:17-19 | `['foo', '--bar=123']` renders as `foo --bar=123` |
| FormatFile.GetPyMinVersion | manageprojects/format_file.py:79-90 | an unparsable specifier raises `ValueError`; otherwise the result is the smallest `3.m` with `m < 15` that the specifier accepts, and nothing exactly when none is accepted |
| FormatFile.Requirement | manageprojects/format_file.py:108-115 | the requirement is a truthy `project.requires-python` or `tool.poetry.dependencies.python`; nothing exactly when neither is truthy |
| FormatFile.RequiresPythonTakesPrecedence | manageprojects/format_file.py:108-111 | a truthy `requires-python` wins over the Poetry entry |
| FormatFile.GetPyprojectInfo | manageprojects/format_file.py:93-121 | raises exactly as `InfoError` says: `AttributeError` for a non-string requirement and `ValueError` for an unparsable one, nothing without `pyproject.toml`; otherwise the info fits (`InfoFits`): the found path, the requirement read from it, and the least accepted `3.m` as minimal version, else the default |
| FormatFile.InfoFitsUnique | manageprojects/format_file.py:93-121 | at most one info fits, so the found file, the requirement and the least accepted minor version determine the result |
| FormatFile.PyVerStr | manageprojects/format_file.py:42-44 | the version tag starts with `py` and has at least two digits |
| FormatFile.PyVerStrInjective | manageprojects/format_file.py:42-44 | distinct Python 3 versions give distinct tags |
| FormatFile.ProjectRootPath | manageprojects/format_file.py:47-53 | the git root wins; otherwise the `pyproject.toml` directory, which lies above that file |
| FormatFile.GetGitInfo | manageprojects/format_file.py:61-76 | no git repository gives nothing and a missing binary fails; otherwise the result is the git root of the file's directory with the main branch name, or nothing when that name cannot be read |
| FormatFile.GetEditorconfigMaxLineLength | manageprojects/format_file.py:124-136 | an EditorConfig error or a missing or empty value gives nothing; otherwise the value is parsed as an integer, and `int()` failing raises `ValueError` |
| FormatFile.GetConfig | manageprojects/format_file.py:139-150 | fails exactly with the first error of `get_git_info`, `get_pyproject_info` and `get_editorconfig_max_line_length`, in that order; otherwise the configuration holds the git information, the `pyproject.toml` information as `get_pyproject_info` computes it (minimal version included), a non-zero EditorConfig length or else the default, and its project root lies above the file |
| FormatFile.RootAboveFile | manageprojects/format_file.py:47-53 | the project root derived from git or from `pyproject.toml` lies above the file |
| FormatFile.PythonSuffixIff | manageprojects/format_file.py:254 | the lower-cased suffix is `.py` exactly when the name is longer than `.py` and ends in `.py` in any case |
| FormatFile.Tools | manageprojects/format_file.py:274-290 | the plan is 7 or 8 tools: pyupgrade and autoflake first, flake8, pyflakes, codespell and mypy last |
| FormatFile.ToolsRunDarker | manageprojects/format_file.py:282-283 | darker runs exactly when there is a non-empty main branch name, with the revision `<branch>...`, the line length and the version tag |
| FormatFile.ToolsRunAutopep8 | manageprojects/format_file.py:284-285 | plain autopep8 runs exactly when there is no main branch name |
| FormatFile.ToolsRunAutopep8Select | manageprojects/format_file.py:172-186 | the selective autopep8 runs exactly when darker runs and prefixes are given |
| FormatFile.FormatOneFile | manageprojects/format_file.py:244-298 | a non-Python file is skipped and a Python file is never skipped; a Python file fails exactly with `get_config`'s error; the planned run's configuration is the one `get_config` builds, so the tools get its line length and minimal Python version; the run targets the path relative to the project root, or the absolute path when there is no root |
| ProjectSetup.LengthsAgreeUnfold | manageprojects/test_utils/project_setup.py:19-28 | all `line_length`/`max_line_length` keys in a dictionary and its sub-dictionaries equal the length |
| ProjectSetup.DeepCheckMaxLineLength | manageprojects/test_utils/project_setup.py:19-28 | the deep check passes exactly when the data is a dictionary and every length key at any depth equals the length |
| ProjectSetup.CheckProjectMaxLineLength | manageprojects/test_utils/project_setup.py:31-49 | the root must be a directory and `70 < n < 200`; a `pyproject.toml` passes exactly when its lengths agree; the only failures are these |
| ProjectSetup.GetPyMaxLineLength | manageprojects/test_utils/project_setup.py:62-68 | a missing `max_line_length` raises `KeyError`; otherwise the value must parse as an integer |
| ProjectSetup.EditorconfigReadersAgree | manageprojects/test_utils/project_setup.py:62-68 | on a non-empty value this reader and `get_editorconfig_max_line_length` of `format_file.py` read the same length and fail alike; a missing key is an error here and no length there |
| ProjectSetup.CheckFlake8MaxLineLength | manageprojects/test_utils/project_setup.py:71-87 | no `.flake8` passes; a missing section or key raises `KeyError`; otherwise it passes exactly when the value is the length's decimal text |
| ProjectSetup.Flake8ValueDeterminesLength | manageprojects/test_utils/project_setup.py:84-87 | a passing `.flake8` value parses to the length, so at most one length passes |
| ProjectSetup.OptionWarnings | manageprojects/test_utils/project_setup.py:108-125 | a warning is given for that file exactly for each default key that is missing, or whose value differs (naming expected and current value) |
| ProjectSetup.EditorConfigWarnings | manageprojects/test_utils/project_setup.py:106-125 | the warnings are exactly the per-file warnings of the example files |
| ProjectSetup.CheckEditorConfig | manageprojects/test_utils/project_setup.py:90-129 | the root must be a directory holding `.editorconfig`; the check passes exactly when the Python line length reads, is in range and agrees with `pyproject.toml` and `.flake8`, and then returns the warnings; a read failure or out-of-range length is the error |
| PyStr.ReplaceIsJoinOfSplit | manageprojects/patching.py:107 | `s.replace(p, r)` equals `r.join(s.split(p))` for a non-empty pattern |
| PyStr.ParseIntToString | manageprojects/test_utils/project_setup.py:84 | `str(n)` parses back to `n` |
| PyStr.IntToStringInjective | manageprojects/test_utils/project_setup.py:84 | distinct integers have distinct decimal texts |

## Left out

- I/O is left out: reading and writing files, `rglob` enumeration order, `mkdir`, `shutil.copyfile`, `TemporaryDirectory` and logging. The enumerated items and the read documents are parameters.
- Git and tool subprocesses are oracles: `fetch`, `reset`, `cp_git_rev`, `get_commit_date`, `get_main_branch_name`, `git diff`, `git apply`, and the formatters that `format_one_file` runs.
- Cookiecutter rendering (`execute_cookiecutter`, `cookiecutter_generate_files`) is a parameter that returns a rendered tree and context.
- `bx_py_utils` is not part of this model. `assert_is_dir` and `assert_is_file` are assumed to fail with `NotADirectory` and `FileNotFound`, and `dict_get` is assumed to follow dictionary keys.
- The `Git` class that `overwrite.py`, `format_file.py` (line 6, with `GitError` and `NoGitRepoError`) and `cookiecutter_templates.py` (line 8) import from `cli_base` is not part of this model. It is assumed to behave like `manageprojects/git.py`. `GetGitInfo`, `OverwriteProject`, `StartManagedProject`, `UpdateManagedProject` and `CloneManagedProject` rest on this assumption.
- `.gitignore` matching (`get_gitignore`, `PathSpec`) is a parameter: the set of ignored items.
- `packaging`'s `SpecifierSet.contains`, `editorconfig.get_properties`, `configparser`, `int()` on strings and the TOML parsers are parameters or are given as already parsed values.
- TOML arrays and floats, and tomlkit's layout and comments, are not modelled. An empty `[manageprojects]` table is treated like a missing one, as the falsy check in `__init__` does.
- `patching.py:100` calls `git.diff(...)`, but the `Git` class in `manageprojects/git.py` has no `diff` method; its only diff is `get_patch` (`git.py:74`). The diff of `generate_template_patch` is therefore an oracle with no definition in this model to agree with.
- `update_managed_project` calls `generate_template_patch` with keywords that the function in `patching.py` does not accept. It also checks the result against the result class of `data_classes.py`, while `patching.py` defines its own. The patch step of an update is therefore a parameter returning the common `to_rev`/`to_commit_date` result.
- `CookiecutterTemplates.UpdateManagedProject`: both steps are parameters of the update. The overwrite step is instantiated with `Overwrite.OverwriteProject` through `CookiecutterTemplates.OverwriteStep`, and the lemmas `OverwriteUpdateUnclean`, `OverwriteUpdateRecords` and `OverwriteUpdateTwice` state the composed behaviour. Because rendering is left out, that step ignores its arguments (revision, context, template, directory) and takes the rendered tree as given.
- `reverse_managed_project` passes `overwrite` and verbosity arguments that `create_cookiecutter_template` does not take. The model calls it without them, so with `overwrite` and an existing destination it fails in the destination check.
- `Overwrite.Merge`: files copied before a failure stay written in the source; the model returns only the error.
- `Overwrite.Merge`: requires that no rendered file lies below another rendered file and that every ancestor of a project entry is a directory, as on a real file system. Nodes that are neither file nor directory count as non-directories; copying onto one is not modelled as an error.
- The reverse table is sometimes described as sorted by descending length of the concrete value, with full dotted key paths. The code does something else, and the model follows the code. It sorts ascending by the length of the placeholder text (`cookiecutter_generator.py:26`), and prefixes a nested key with its immediate parent's key only (`cookiecutter_generator.py:17`).
- `CookiecutterGenerator.CreateCookiecutterTemplate`: file contents are text, so the `UnicodeDecodeError` that `read_text` raises on a file that is not UTF-8 is not modelled.
- `FormatFile.GetPyprojectInfo`: which strings `SpecifierSet` parses, and how it rejects a non-string, depend on the `packaging` version. The model takes a parse oracle and the `AttributeError` of calling `split` on a non-string.
- `PyStr.LowerAscii`: lower-cases ASCII letters only, not all of Unicode.
- `SubprocessUtils.LexRenderAll`: the shell lexer covers blanks, single quotes and ordinary characters. Text with other shell metacharacters outside quotes lexes to `None`, so the round trip is stated for the quoting that `argv2str` produces.
- `ProjectSetup.CheckEditorConfig`: the EditorConfig options are looked up for the default file names and for `foobar.py`, as in the source. The `ImportError` fallbacks are left out.
- `Context.DictGet`: states only the empty key path and a key path into a non-dictionary, not each lookup step.
- `PyProjectToml.FindPyProjectToml`: requires that the root is not a file, which holds for every real file system.
- `format_file` prints the resulting configuration and reports whether the file changed. That report compares file bytes before and after the tools run, and is left out with the tools.

## Findings

| source | as written | input that shows it | evidently intended | confidence | as-written member | corrected member |
|---|---|---|---|---|---|---|
| manageprojects/utilities/subprocess_utils.py:26 | `re.match(r'^[-0-9a-zA-Z_.=]+$', item)` also accepts an item that ends in a newline, because `$` matches before a trailing `\n`; the item is emitted unquoted | `argv2str(['a\n'])` gives `a` followed by a newline, which a shell reads as the word `a` and a command end | only items made entirely of the plain characters are left unquoted, so the command line reads back as the same argv | not executed | SubprocessUtils.Argv2StrAsWrittenBreaksLine | SubprocessUtils.Argv2StrRoundTrip |

=== FILE: context.dfy ===
/** The dynamic values of a cookiecutter context and of parsed TOML tables:
    strings, integers, booleans and (insertion-ordered) dictionaries. */
module Context {
  import opened Wrappers

  datatype Value =
    | Str(s: string)
    | Int(i: int)
    | Bool(b: bool)
    | Dict(entries: seq<Entry>)

  /** One `key: value` item of a dictionary, in insertion order. */
  datatype Entry = Entry(key: string, value: Value)

  /** Python dictionaries never hold a key twice. */
  predicate UniqueKeys(entries: seq<Entry>) {
    forall i, j | 0 <= i < j < |entries| :: entries[i].key != entries[j].key
  }

  predicate HasKey(entries: seq<Entry>, key: string) {
    exists i | 0 <= i < |entries| :: entries[i].key == key
  }

  /** `d.get(key)`: the value stored under `key`, if any. */
  function Lookup(entries: seq<Entry>, key: string): (r: Option<Value>)
    ensures r.None? <==> !HasKey(entries, key)
    ensures r.Some? ==> exists i | 0 <= i < |entries| :: entries[i] == Entry(key, r.value)
  {
    if |entries| == 0 then None
    else if entries[0].key == key then Some(entries[0].value)
    else
      var r := Lookup(entries[1..], key);
      assert forall i | 0 <= i < |entries| - 1 :: entries[1..][i] == entries[i + 1];
      r
  }

  /** Python truthiness: empty strings and dictionaries, zero and `False`
      are false. */
  predicate Truthy(v: Value) {
    match v
    case Str(s) => |s| > 0
    case Int(i) => i != 0
    case Bool(b) => b
    case Dict(es) => |es| > 0
  }

  /** `bx_py_utils.dict_utils.dict_get(data, *keys)`: follows the keys
      through nested dictionaries; `None` once a key is missing or an
      intermediate value is not a dictionary. */
  function DictGet(data: Value, keys: seq<string>): (r: Option<Value>)
    ensures |keys| == 0 ==> r == Some(data)
    ensures |keys| > 0 && !data.Dict? ==> r.None?
    decreases |keys|
  {
    if |keys| == 0 then Some(data)
    else if !data.Dict? then None
    else match Lookup(data.entries, keys[0])
      case None => None
      case Some(v) => DictGet(v, keys[1..])
  }
}

=== FILE: cookiecutter_generator.dfy ===
/** Reverse templating: turning a rendered project back into a cookiecutter
    template by substituting the concrete context values with their
    `{{ key }}` placeholders, in file paths and in file contents. */
module CookiecutterGenerator {
  import opened Wrappers
  import opened PyStr
  import opened Paths
  import opened Context

  /** Keys starting with `_` (such as `_template`) are private to
      cookiecutter and never substituted. */
  predicate Private(key: string) {
    StartsWith(key, "_")
  }

  /** A flattened context item: dotted key and leaf (non-dictionary) value. */
  datatype Pair = Pair(key: string, value: Value)

  // ---------------------------------------------------------------------------
  // iter_context

  /** `iter_context(context=ctx, prefix=prefix)`: the leaves of the context
      in insertion order. A nested dictionary is walked with the prefix
      `"<its key>."`: only the immediate parent key, outer prefixes are
      dropped. */
  function IterContext(ctx: seq<Entry>, prefix: string): (r: seq<Pair>)
    ensures forall i | 0 <= i < |r| :: !r[i].value.Dict?
    decreases ctx
  {
    if |ctx| == 0 then []
    else
      var e := ctx[0];
      var head :=
        if Private(e.key) then []
        else if e.value.Dict? then IterContext(e.value.entries, e.key + ".")
        else [Pair(prefix + e.key, e.value)];
      head + IterContext(ctx[1..], prefix)
  }

  /** Walking a context piecewise gives the same items in the same order. */
  lemma {:induction false} IterContextConcat(a: seq<Entry>, b: seq<Entry>, prefix: string)
    ensures IterContext(a + b, prefix) == IterContext(a, prefix) + IterContext(b, prefix)
    decreases |a|
  {
    if |a| == 0 {
      assert a + b == b;
    } else {
      var e := a[0];
      var head :=
        if Private(e.key) then []
        else if e.value.Dict? then IterContext(e.value.entries, e.key + ".")
        else [Pair(prefix + e.key, e.value)];
      assert (a + b)[0] == e;
      TailOfConcat(a, b);
      assert IterContext(a + b, prefix) == head + IterContext(a[1..] + b, prefix);
      assert IterContext(a, prefix) == head + IterContext(a[1..], prefix);
      IterContextConcat(a[1..], b, prefix);
      ConcatAssoc(head, IterContext(a[1..], prefix), IterContext(b, prefix));
    }
  }

  /** The context with every private entry removed, at every depth. */
  function DropPrivate(ctx: seq<Entry>): (r: seq<Entry>)
    ensures forall i | 0 <= i < |r| :: !Private(r[i].key)
    decreases ctx
  {
    if |ctx| == 0 then []
    else
      var e := ctx[0];
      var head :=
        if Private(e.key) then []
        else if e.value.Dict? then [Entry(e.key, Dict(DropPrivate(e.value.entries)))]
        else [e];
      head + DropPrivate(ctx[1..])
  }

  /** Private keys contribute nothing, at any nesting level: flattening the
      context with all of them removed gives exactly the same pairs. */
  lemma {:induction false} PrivateKeysIgnored(ctx: seq<Entry>, prefix: string)
    ensures IterContext(DropPrivate(ctx), prefix) == IterContext(ctx, prefix)
    decreases ctx
  {
    if |ctx| > 0 {
      var e := ctx[0];
      var head :=
        if Private(e.key) then []
        else if e.value.Dict? then [Entry(e.key, Dict(DropPrivate(e.value.entries)))]
        else [e];
      PrivateKeysIgnored(ctx[1..], prefix);
      IterContextConcat(head, DropPrivate(ctx[1..]), prefix);
      if !Private(e.key) && e.value.Dict? {
        PrivateKeysIgnored(e.value.entries, e.key + ".");
        assert head[1..] == [];
      } else if !Private(e.key) {
        assert head[1..] == [];
      }
    }
  }

  /** Which pairs the walk produces, as a relation: a pair comes from a
      non-private entry, either directly (leaf, key `prefix + key`) or from
      the nested dictionary walked with prefix `key + "."`. */
  ghost predicate Yields(ctx: seq<Entry>, prefix: string, p: Pair)
    decreases ctx
  {
    exists i | 0 <= i < |ctx| ::
      && !Private(ctx[i].key)
      && (if ctx[i].value.Dict?
          then Yields(ctx[i].value.entries, ctx[i].key + ".", p)
          else p == Pair(prefix + ctx[i].key, ctx[i].value))
  }

  /** `iter_context` yields exactly the pairs of the relation above. */
  lemma {:induction false} IterContextYields(ctx: seq<Entry>, prefix: string, p: Pair)
    ensures p in IterContext(ctx, prefix) <==> Yields(ctx, prefix, p)
    decreases ctx
  {
    if |ctx| > 0 {
      var e := ctx[0];
      IterContextYields(ctx[1..], prefix, p);
      if !Private(e.key) && e.value.Dict? {
        IterContextYields(e.value.entries, e.key + ".", p);
      }
      if Yields(ctx, prefix, p) {
        var i :| 0 <= i < |ctx| && !Private(ctx[i].key)
          && (if ctx[i].value.Dict?
              then Yields(ctx[i].value.entries, ctx[i].key + ".", p)
              else p == Pair(prefix + ctx[i].key, ctx[i].value));
        if i > 0 {
          assert ctx[1..][i - 1] == ctx[i];
        }
      }
      if Yields(ctx[1..], prefix, p) {
        var i :| 0 <= i < |ctx[1..]| && !Private(ctx[1..][i].key)
          && (if ctx[1..][i].value.Dict?
              then Yields(ctx[1..][i].value.entries, ctx[1..][i].key + ".", p)
              else p == Pair(prefix + ctx[1..][i].key, ctx[1..][i].value));
        assert ctx[i + 1] == ctx[1..][i];
      }
    }
  }

  /** Only the immediate parent key is kept as prefix:
      `{'a': {'b': {'c': 'x'}}}` flattens to `('b.c', 'x')`, not `a.b.c`. */
  lemma ImmediateParentPrefixOnly()
    ensures IterContext([Entry("a", Dict([Entry("b", Dict([Entry("c", Str("x"))]))]))], "")
         == [Pair("b.c", Str("x"))]
  {
    NotPrivate("a");
    NotPrivate("b");
    NotPrivate("c");
    var inner := [Entry("c", Str("x"))];
    assert inner[1..] == [];
    assert IterContext(inner, "b.") == [Pair("b." + "c", Str("x"))] + IterContext([], "b.");
    assert "b." + "c" == "b.c";
    var mid := [Entry("b", Dict(inner))];
    assert mid[1..] == [];
    assert IterContext(mid, "a.") == IterContext(inner, "b" + ".") + IterContext([], "a.");
    assert "b" + "." == "b.";
    var outer := [Entry("a", Dict(mid))];
    assert outer[1..] == [];
    assert IterContext(outer, "") == IterContext(mid, "a" + ".") + IterContext([], "");
    assert "a" + "." == "a.";
  }

  lemma NotPrivate(key: string)
    requires |key| > 0 && key[0] != '_'
    ensures !Private(key)
  {
    assert key[..1][0] == key[0];
    assert "_"[0] == '_';
  }

  // ---------------------------------------------------------------------------
  // generate_reverse_info

  /** One entry of the reverse table: a concrete value and the placeholder
      that replaces it. */
  datatype Substitution = Substitution(value: Value, placeholder: string)

  function Placeholder(key: string): string {
    "{{ " + key + " }}"
  }

  function ToSubstitutions(pairs: seq<Pair>): (r: seq<Substitution>)
    ensures |r| == |pairs|
    ensures forall i | 0 <= i < |pairs| ::
      r[i] == Substitution(pairs[i].value, Placeholder(pairs[i].key))
  {
    seq(|pairs|, i requires 0 <= i < |pairs| =>
      Substitution(pairs[i].value, Placeholder(pairs[i].key)))
  }

  /** The sort key of the table: the length of the placeholder string. */
  function Len(s: Substitution): nat {
    |s.placeholder|
  }

  predicate SortedByLength(t: seq<Substitution>) {
    forall i, j | 0 <= i < j < |t| :: Len(t[i]) <= Len(t[j])
  }

  /** The entries of `t` whose placeholder has length `n`, in order. */
  function WithLength(t: seq<Substitution>, n: nat): seq<Substitution>
    decreases |t|
  {
    if |t| == 0 then []
    else (if Len(t[0]) == n then [t[0]] else []) + WithLength(t[1..], n)
  }

  lemma {:induction false} WithLengthConcat(a: seq<Substitution>, b: seq<Substitution>, n: nat)
    ensures WithLength(a + b, n) == WithLength(a, n) + WithLength(b, n)
    decreases |a|
  {
    if |a| == 0 {
      assert a + b == b;
    } else {
      var head := if Len(a[0]) == n then [a[0]] else [];
      assert (a + b)[0] == a[0];
      assert (a + b)[1..] == a[1..] + b;
      assert WithLength(a + b, n) == head + WithLength(a[1..] + b, n);
      WithLengthConcat(a[1..], b, n);
    }
  }

  lemma {:induction false} WithLengthOfLonger(t: seq<Substitution>, n: nat)
    requires forall i | 0 <= i < |t| :: Len(t[i]) > n
    ensures WithLength(t, n) == []
    decreases |t|
  {
    if |t| > 0 {
      WithLengthOfLonger(t[1..], n);
    }
  }

  /** Inserts `x` behind every entry whose placeholder is not longer, which
      keeps equal-length entries in arrival order. */
  function InsertByLength(x: Substitution, t: seq<Substitution>): (r: seq<Substitution>)
    requires SortedByLength(t)
    ensures SortedByLength(r)
    ensures |r| == |t| + 1
    ensures forall n: nat :: WithLength(r, n) == WithLength(t, n) + (if Len(x) == n then [x] else [])
    decreases |t|
  {
    if |t| == 0 then [x]
    else if Len(x) < Len(t[0]) then
      InsertFront(x, t);
      [x] + t
    else
      var rest := InsertByLength(x, t[1..]);
      InsertBehind(x, t, rest);
      [t[0]] + rest
  }

  /** `x` goes in front of entries with longer placeholders. */
  lemma InsertFront(x: Substitution, t: seq<Substitution>)
    requires |t| > 0 && SortedByLength(t) && Len(x) < Len(t[0])
    ensures SortedByLength([x] + t)
    ensures forall n: nat :: WithLength([x] + t, n) == WithLength(t, n) + (if Len(x) == n then [x] else [])
  {
    var r := [x] + t;
    assert r[0] == x && r[1..] == t;
    PrependSorted(x, t);
    forall n: nat
      ensures WithLength(r, n) == WithLength(t, n) + (if Len(x) == n then [x] else [])
    {
      if Len(x) == n {
        ShorterThanHead(t, n);
        assert WithLength(r, n) == [x] + WithLength(t, n);
      } else {
        assert WithLength(r, n) == [] + WithLength(t, n);
      }
    }
  }

  /** A sorted table has no entry shorter than its first one. */
  lemma ShorterThanHead(t: seq<Substitution>, n: nat)
    requires |t| > 0 && SortedByLength(t) && n < Len(t[0])
    ensures WithLength(t, n) == []
  {
    forall i | 0 <= i < |t| ensures Len(t[i]) > n {
      if i > 0 {
        assert Len(t[0]) <= Len(t[i]);
      }
    }
    WithLengthOfLonger(t, n);
  }

  /** Putting an entry no longer than the head in front keeps the order. */
  lemma PrependSorted(x: Substitution, t: seq<Substitution>)
    requires SortedByLength(t) && (|t| == 0 || Len(x) <= Len(t[0]))
    ensures SortedByLength([x] + t)
  {
    var r := [x] + t;
    forall i, j | 0 <= i < j < |r| ensures Len(r[i]) <= Len(r[j]) {
      assert r[j] == t[j - 1];
      if i == 0 {
        if j > 1 {
          assert Len(t[0]) <= Len(t[j - 1]);
        }
      } else {
        assert r[i] == t[i - 1];
      }
    }
  }

  /** `x` goes behind the first entry when that entry's placeholder is not
      longer. */
  lemma InsertBehind(x: Substitution, t: seq<Substitution>, rest: seq<Substitution>)
    requires |t| > 0 && SortedByLength(t) && Len(t[0]) <= Len(x)
    requires SortedByLength(rest) && |rest| == |t|
    requires forall n: nat :: WithLength(rest, n) == WithLength(t[1..], n) + (if Len(x) == n then [x] else [])
    ensures SortedByLength([t[0]] + rest)
    ensures forall n: nat :: WithLength([t[0]] + rest, n) == WithLength(t, n) + (if Len(x) == n then [x] else [])
  {
    InsertBehindSorted(x, t, rest);
    forall n: nat
      ensures WithLength([t[0]] + rest, n) == WithLength(t, n) + (if Len(x) == n then [x] else [])
    {
      InsertBehindLength(x, t, rest, n);
    }
  }

  lemma InsertBehindSorted(x: Substitution, t: seq<Substitution>, rest: seq<Substitution>)
    requires |t| > 0 && SortedByLength(t) && Len(t[0]) <= Len(x)
    requires SortedByLength(rest) && |rest| == |t|
    requires forall n: nat :: WithLength(rest, n) == WithLength(t[1..], n) + (if Len(x) == n then [x] else [])
    ensures SortedByLength([t[0]] + rest)
  {
    assert rest[0] in rest;
    MemberOfInsert(x, t[1..], rest, rest[0]);
    if rest[0] != x {
      var i :| 0 <= i < |t[1..]| && t[1..][i] == rest[0];
      assert t[i + 1] == rest[0];
    }
    PrependSorted(t[0], rest);
  }

  lemma InsertBehindLength(x: Substitution, t: seq<Substitution>, rest: seq<Substitution>, n: nat)
    requires |t| > 0
    requires WithLength(rest, n) == WithLength(t[1..], n) + (if Len(x) == n then [x] else [])
    ensures WithLength([t[0]] + rest, n) == WithLength(t, n) + (if Len(x) == n then [x] else [])
  {
    var r := [t[0]] + rest;
    assert r[0] == t[0] && r[1..] == rest;
    var head := if Len(t[0]) == n then [t[0]] else [];
    var extra := if Len(x) == n then [x] else [];
    var w := WithLength(t[1..], n);
    assert WithLength(r, n) == head + (w + extra);
    assert WithLength(t, n) == head + w;
    ConcatAssoc(head, w, extra);
  }

  lemma MemberOfInsert(x: Substitution, t: seq<Substitution>, r: seq<Substitution>, y: Substitution)
    requires forall n: nat :: WithLength(r, n) == WithLength(t, n) + (if Len(x) == n then [x] else [])
    requires y in r
    ensures y == x || y in t
  {
    WithLengthMember(r, y);
    assert y in WithLength(t, Len(y)) + (if Len(x) == Len(y) then [x] else []);
    if y in WithLength(t, Len(y)) {
      WithLengthMember(t, y);
    }
  }

  lemma {:induction false} WithLengthMember(t: seq<Substitution>, y: Substitution)
    ensures y in t <==> y in WithLength(t, Len(y))
    decreases |t|
  {
    if |t| > 0 {
      WithLengthMember(t[1..], y);
      assert t == [t[0]] + t[1..];
    }
  }

  /** A stable sort of the table by ascending placeholder length. */
  function SortByPlaceholderLength(t: seq<Substitution>): (r: seq<Substitution>)
    ensures SortedByLength(r)
    ensures forall n: nat :: WithLength(r, n) == WithLength(t, n)
    decreases |t|
  {
    if |t| == 0 then []
    else
      var init := t[..|t| - 1];
      var x := t[|t| - 1];
      var r := InsertByLength(x, SortByPlaceholderLength(init));
      assert forall n: nat :: WithLength(r, n) == WithLength(t, n) by {
        forall n: nat ensures WithLength(r, n) == WithLength(t, n) {
          assert t == init + [x];
          WithLengthConcat(init, [x], n);
        }
      }
      r
  }

  /** `generate_reverse_info(cookiecutter_context=ctx)`: one substitution
      `(value, "{{ key }}")` per flattened pair, sorted by the length of the
      PLACEHOLDER (shortest first), equal lengths in context order. */
  function GenerateReverseInfo(ctx: seq<Entry>): (r: seq<Substitution>)
    ensures SortedByLength(r)
    ensures forall n: nat :: WithLength(r, n) == WithLength(ToSubstitutions(IterContext(ctx, "")), n)
  {
    SortByPlaceholderLength(ToSubstitutions(IterContext(ctx, "")))
  }

  /** Sortedness and the per-length subsequences pin a table down
      completely: the reverse table is THE stable sort of the pairs. */
  lemma {:induction false} StableSortUnique(a: seq<Substitution>, b: seq<Substitution>)
    requires SortedByLength(a) && SortedByLength(b)
    requires forall n: nat :: WithLength(a, n) == WithLength(b, n)
    ensures a == b
    decreases |a|
  {
    if |a| == 0 {
      if |b| > 0 {
        NonEmptyWithLength(b);
      }
    } else if |b| == 0 {
      NonEmptyWithLength(a);
    } else {
      assert WithLength(a, Len(a[0])) == WithLength(b, Len(a[0]));
      assert WithLength(a, Len(b[0])) == WithLength(b, Len(b[0]));
      HeadLengthBound(a, b);
      HeadLengthBound(b, a);
      SameHeadTails(a, b);
      StableSortUnique(a[1..], b[1..]);
      assert a == [a[0]] + a[1..] && b == [b[0]] + b[1..];
    }
  }

  lemma NonEmptyWithLength(t: seq<Substitution>)
    requires |t| > 0
    ensures WithLength(t, Len(t[0])) != []
  {
    assert WithLength(t, Len(t[0])) == [t[0]] + WithLength(t[1..], Len(t[0]));
  }

  /** The first entry of a sorted table has the least placeholder length. */
  lemma HeadLengthBound(a: seq<Substitution>, b: seq<Substitution>)
    requires |a| > 0 && |b| > 0 && SortedByLength(b)
    requires WithLength(a, Len(a[0])) == WithLength(b, Len(a[0]))
    ensures Len(b[0]) <= Len(a[0])
  {
    NonEmptyWithLength(a);
    var w := WithLength(b, Len(a[0]));
    InWithLength(b, Len(a[0]), w[0]);
    var i :| 0 <= i < |b| && b[i] == w[0];
    if i > 0 {
      assert Len(b[0]) <= Len(b[i]);
    }
  }

  lemma {:induction false} InWithLength(t: seq<Substitution>, n: nat, y: Substitution)
    requires y in WithLength(t, n)
    ensures y in t && Len(y) == n
    decreases |t|
  {
    assert |t| > 0;
    var head := if Len(t[0]) == n then [t[0]] else [];
    assert WithLength(t, n) == head + WithLength(t[1..], n);
    if y !in head {
      InWithLength(t[1..], n, y);
      assert t == [t[0]] + t[1..];
    }
  }

  lemma SameHeadTails(a: seq<Substitution>, b: seq<Substitution>)
    requires |a| > 0 && |b| > 0 && Len(a[0]) == Len(b[0])
    requires forall n: nat :: WithLength(a, n) == WithLength(b, n)
    ensures a[0] == b[0]
    ensures forall n: nat :: WithLength(a[1..], n) == WithLength(b[1..], n)
  {
    var la := Len(a[0]);
    var wa, wb := WithLength(a, la), WithLength(b, la);
    assert wa == [a[0]] + WithLength(a[1..], la);
    assert wb == [b[0]] + WithLength(b[1..], la);
    assert wa == wb;
    assert a[0] == wa[0] == wb[0] == b[0];
    forall n: nat ensures WithLength(a[1..], n) == WithLength(b[1..], n) {
      if n == la {
        assert WithLength(a[1..], n) == wa[1..];
        assert WithLength(b[1..], n) == wb[1..];
      } else {
        assert WithLength(a, n) == WithLength(a[1..], n);
        assert WithLength(b, n) == WithLength(b[1..], n);
      }
    }
  }

  // ---------------------------------------------------------------------------
  // Applying the table

  predicate AllStr(table: seq<Substitution>) {
    forall i | 0 <= i < |table| :: table[i].value.Str?
  }

  /** `for src, dst in table: text = text.replace(src, dst)`. A value that is
      not a `str` makes `str.replace` raise `TypeError`. */
  function ApplyTable(text: string, table: seq<Substitution>): (r: Result<string>)
    ensures r.Ok? <==> AllStr(table)
    ensures r.Err? ==> r.error == TypeMismatch
    decreases |table|
  {
    if |table| == 0 then Ok(text)
    else match table[0].value
      case Str(v) =>
        var r := ApplyTable(Replace(text, v, table[0].placeholder), table[1..]);
        assert AllStr(table) <==> AllStr(table[1..]) by {
          assert forall i | 0 < i < |table| :: table[i] == table[1..][i - 1];
        }
        r
      case _ => Err(TypeMismatch)
  }

  /** A text in which no value of the table occurs comes through unchanged. */
  lemma {:induction false} ApplyTableUntouched(text: string, table: seq<Substitution>)
    requires AllStr(table)
    requires forall i | 0 <= i < |table| :: !Contains(text, table[i].value.s)
    ensures ApplyTable(text, table) == Ok(text)
    decreases |table|
  {
    if |table| > 0 {
      ReplaceAbsent(text, table[0].value.s, table[0].placeholder);
      assert forall i | 0 <= i < |table| - 1 :: table[1..][i] == table[i + 1];
      ApplyTableUntouched(text, table[1..]);
    }
  }

  /** Applying a table in two pieces is applying it in one. */
  lemma {:induction false} ApplyTableConcat(text: string, t1: seq<Substitution>, t2: seq<Substitution>)
    requires AllStr(t1)
    ensures ApplyTable(text, t1 + t2) == ApplyTable(ApplyTable(text, t1).value, t2)
    decreases |t1|
  {
    if |t1| == 0 {
      assert t1 + t2 == t2;
    } else {
      assert t1[0].value.Str?;
      var next := Replace(text, t1[0].value.s, t1[0].placeholder);
      assert (t1 + t2)[0] == t1[0];
      assert (t1 + t2)[1..] == t1[1..] + t2;
      assert ApplyTable(text, t1 + t2) == ApplyTable(next, t1[1..] + t2);
      assert AllStr(t1[1..]) by {
        assert forall i | 0 <= i < |t1[1..]| :: t1[1..][i] == t1[i + 1];
      }
      assert ApplyTable(text, t1) == ApplyTable(next, t1[1..]);
      ApplyTableConcat(next, t1[1..], t2);
    }
  }

  // ---------------------------------------------------------------------------
  // Undoing one substitution

  /** No proper prefix of `s` is also a suffix of it. */
  predicate BorderFree(s: string) {
    forall k | 0 < k < |s| :: s[..k] != s[|s| - k..]
  }

  /** A placeholder whose key has no `{` cannot overlap itself. */
  lemma PlaceholderBorderFree(key: string)
    requires forall i | 0 <= i < |key| :: key[i] != '{'
    ensures BorderFree(Placeholder(key))
  {
    var ph := Placeholder(key);
    assert |ph| == |key| + 6;
    assert forall i | 3 <= i < 3 + |key| :: ph[i] == key[i - 3];
    forall k | 0 < k < |ph| ensures ph[..k] != ph[|ph| - k..] {
      var start := |ph| - k;
      if k == |ph| - 1 {
        assert ph[..k][1] == '{';
        assert ph[|ph| - k..][1] == ' ';
      } else {
        assert ph[..k][0] == '{';
        assert ph[|ph| - k..][0] == ph[start];
        assert ph[start] != '{';
      }
    }
  }

  /** Scanning past text that holds no occurrence and cannot form one with
      the following `pat`. */
  lemma {:induction false} ReplaceAfterFree(t: string, pat: string, u: string, v: string)
    requires |pat| > 0 && BorderFree(pat) && !Contains(t, pat)
    ensures Replace(t + pat + u, pat, v) == t + v + Replace(u, pat, v)
    decreases |t|
  {
    if |t| == 0 {
      ReplaceAtPattern(pat, u, v);
    } else {
      assert !Contains(t[1..], pat);
      ReplaceAfterFree(t[1..], pat, u, v);
      ReplaceSkipHead(t, pat, u, v);
    }
  }

  lemma ReplaceAtPattern(pat: string, u: string, v: string)
    requires |pat| > 0
    ensures Replace([] + pat + u, pat, v) == [] + v + Replace(u, pat, v)
  {
    var x := pat + u;
    assert [] + pat + u == x && [] + v + Replace(u, pat, v) == v + Replace(u, pat, v);
    assert x[..|pat|] == pat && x[|pat|..] == u;
    ReplaceAtMatch(x, pat, v);
  }

  /** One step of `ReplaceAfterFree`: the first character of `t` is copied. */
  lemma ReplaceSkipHead(t: string, pat: string, u: string, v: string)
    requires |t| > 0 && |pat| > 0 && BorderFree(pat) && !Contains(t, pat)
    requires Replace(t[1..] + pat + u, pat, v) == t[1..] + v + Replace(u, pat, v)
    ensures Replace(t + pat + u, pat, v) == t + v + Replace(u, pat, v)
  {
    var x := t + pat + u;
    NoMatchBeforePattern(t, pat, u);
    TailOfConcat(t, pat);
    TailOfConcat(t + pat, u);
    ReplaceNoMatch(x, pat, v);
    var rest := Replace(u, pat, v);
    ConcatAssoc([t[0]], t[1..] + v, rest);
    ConcatAssoc([t[0]], t[1..], v);
    assert [t[0]] + t[1..] == t;
  }

  lemma ReplaceNoMatch(s: string, pat: string, v: string)
    requires 0 < |pat| <= |s| && s[..|pat|] != pat
    ensures Replace(s, pat, v) == [s[0]] + Replace(s[1..], pat, v)
  {
  }

  /** With `t` free of `pat` and `pat` border-free, the scan over
      `t + pat + u` finds no occurrence starting inside `t`. */
  lemma NoMatchBeforePattern(t: string, pat: string, u: string)
    requires |t| > 0 && |pat| > 0 && BorderFree(pat) && !Contains(t, pat)
    ensures (t + pat + u)[..|pat|] != pat
  {
    var x := t + pat + u;
    var w := x[..|pat|];
    if |t| >= |pat| {
      assert w == t[..|pat|];
      assert !StartsWith(t, pat);
    } else {
      var m := |pat| - |t|;
      assert w == t + pat[..m];
      assert w[|t|..] == pat[..m];
      assert pat[..m] != pat[|pat| - m..];
      assert w[|t|..] != pat[|t|..];
    }
  }

  lemma {:induction false} RestoreAfter(t: string, s: string, v: string, ph: string)
    requires |v| > 0 && |ph| > 0 && BorderFree(ph) && !Contains(t + s, ph)
    ensures Replace(t + Replace(s, v, ph), ph, v) == t + s
    decreases |s|, 1
  {
    if |s| < |v| {
      ReplaceAbsent(t + s, ph, v);
    } else if s[..|v|] == v {
      RestoreAtMatch(t, s, v, ph);
    } else {
      var t' := t + [s[0]];
      ConcatAssoc(t, [s[0]], s[1..]);
      assert [s[0]] + s[1..] == s;
      RestoreAfter(t', s[1..], v, ph);
      ReplaceNoMatch(s, v, ph);
      ConcatAssoc(t, [s[0]], Replace(s[1..], v, ph));
    }
  }

  /** The step of `RestoreAfter` where `s` starts with the replaced value. */
  lemma {:induction false} RestoreAtMatch(t: string, s: string, v: string, ph: string)
    requires |v| > 0 && |ph| > 0 && BorderFree(ph) && !Contains(t + s, ph)
    requires |v| <= |s| && s[..|v|] == v
    ensures Replace(t + Replace(s, v, ph), ph, v) == t + s
    decreases |s|, 0
  {
    var rest := s[|v|..];
    assert t + s == (t + v) + rest;
    NotContainsPrefix(t, s, ph);
    NotContainsSuffix(t + v, rest, ph);
    ReplaceAtMatch(s, v, ph);
    assert t + Replace(s, v, ph) == t + ph + Replace(rest, v, ph);
    ReplaceAfterFree(t, ph, Replace(rest, v, ph), v);
    assert [] + rest == rest;
    RestoreAfter([], rest, v, ph);
    assert [] + Replace(rest, v, ph) == Replace(rest, v, ph);
    assert t + v + rest == t + s;
  }

  lemma ReplaceAtMatch(s: string, v: string, ph: string)
    requires 0 < |v| <= |s| && s[..|v|] == v
    ensures Replace(s, v, ph) == ph + Replace(s[|v|..], v, ph)
  {
  }

  lemma {:induction false} NotContainsSuffix(a: string, b: string, pat: string)
    requires !Contains(a + b, pat)
    ensures !Contains(b, pat)
    decreases |a|
  {
    if |a| == 0 {
      assert a + b == b;
    } else {
      assert (a + b)[1..] == a[1..] + b;
      NotContainsSuffix(a[1..], b, pat);
    }
  }

  lemma NotContainsPrefix(a: string, b: string, pat: string)
    requires !Contains(a + b, pat)
    ensures !Contains(a, pat)
  {
    if Contains(a, pat) {
      var i := ContainsIndex(a, pat);
      assert (a + b)[i..i + |pat|] == a[i..i + |pat|];
      ContainsAt(a + b, pat, i);
    }
  }

  lemma {:induction false} ContainsIndex(s: string, pat: string) returns (i: nat)
    requires Contains(s, pat)
    ensures i + |pat| <= |s| && s[i..i + |pat|] == pat
    decreases |s|
  {
    if StartsWith(s, pat) {
      i := 0;
    } else {
      var j := ContainsIndex(s[1..], pat);
      assert s[1..][j..j + |pat|] == s[j + 1..j + 1 + |pat|];
      i := j + 1;
    }
  }

  /** Reverse-then-render consistency for one substitution: replacing a
      value by its placeholder and then the placeholder by the value gives
      back the original text, provided the text does not already contain
      the placeholder and the placeholder cannot overlap itself. */
  lemma RenderUndoesSubstitution(s: string, v: string, key: string)
    requires |v| > 0
    requires forall i | 0 <= i < |key| :: key[i] != '{'
    requires !Contains(s, Placeholder(key))
    ensures Replace(Replace(s, v, Placeholder(key)), Placeholder(key), v) == s
  {
    PlaceholderBorderFree(key);
    assert [] + s == s;
    RestoreAfter([], s, v, Placeholder(key));
    assert [] + Replace(s, v, Placeholder(key)) == Replace(s, v, Placeholder(key));
  }

  // ---------------------------------------------------------------------------
  // Paths

  /** `replace_path(path=rel, reverse_info=table)`: every component is
      rewritten on its own by the whole table. */
  function ReplacePath(rel: Path, table: seq<Substitution>): (r: Result<Path>)
    ensures r.Ok? <==> |rel| == 0 || AllStr(table)
    ensures r.Ok? ==> |r.value| == |rel|
    ensures r.Ok? ==> forall i | 0 <= i < |rel| :: ApplyTable(rel[i], table) == Ok(r.value[i])
    decreases |rel|
  {
    if |rel| == 0 then Ok([])
    else match ApplyTable(rel[0], table)
      case Err(e) => Err(e)
      case Ok(head) =>
        var tail := ReplacePath(rel[1..], table).value;
        var r := [head] + tail;
        assert forall i | 0 < i < |rel| :: rel[i] == rel[1..][i - 1] && r[i] == tail[i - 1];
        Ok(r)
  }

  /** A path none of whose names holds a value of the table is not rewritten. */
  lemma ReplacePathUntouched(rel: Path, table: seq<Substitution>)
    requires AllStr(table)
    requires forall k, i | 0 <= k < |rel| && 0 <= i < |table| :: !Contains(rel[k], table[i].value.s)
    ensures ReplacePath(rel, table) == Ok(rel)
  {
    forall k | 0 <= k < |rel| ensures ApplyTable(rel[k], table) == Ok(rel[k]) {
      ApplyTableUntouched(rel[k], table);
    }
    var r := ReplacePath(rel, table);
    assert r.Ok?;
    assert r.value == rel;
  }

  /** `build_dst_path(...)`: the destination joined with the rewritten path
      of `item` relative to `source`; `relative_to` raises `ValueError` for
      an item outside `source`. The destination itself is not rewritten. */
  function BuildDstPath(source: Path, item: Path, destination: Path, table: seq<Substitution>): (r: Result<Path>)
    ensures r.Err? <==> !IsAncestorOrSelf(source, item) || (|item| > |source| && !AllStr(table))
    ensures r.Ok? ==> |r.value| == |destination| + |item| - |source|
    ensures r.Ok? ==> r.value[..|destination|] == destination
    ensures r.Ok? ==> forall i | |source| <= i < |item| ::
      ApplyTable(item[i], table) == Ok(r.value[|destination| + i - |source|])
  {
    if !IsAncestorOrSelf(source, item) then Err(ValueRejected)
    else
      var rel := item[|source|..];
      var newRel :- ReplacePath(rel, table);
      var r := destination + newRel;
      assert forall i | |source| <= i < |item| :: item[i] == rel[i - |source|];
      Ok(r)
  }

  /** Building the destination of an item below `source` is rewriting its
      relative path and joining it to `destination`. */
  lemma BuildDstPathOfRelative(source: Path, rel: Path, destination: Path, table: seq<Substitution>)
    ensures ReplacePath(rel, table).Ok? ==>
      BuildDstPath(source, source + rel, destination, table) == Ok(destination + ReplacePath(rel, table).value)
    ensures ReplacePath(rel, table).Err? ==> BuildDstPath(source, source + rel, destination, table).Err?
  {
    assert (source + rel)[..|source|] == source;
    assert (source + rel)[|source|..] == rel;
  }

  // ---------------------------------------------------------------------------
  // create_cookiecutter_template

  /** What creating the template does for one source item. */
  datatype Action = MakeDir(dst: Path) | WriteFile(dst: Path, text: string)

  /** The items the loop acts on: not ignored, and a directory or file. */
  ghost predicate Acted(fs: FileSystem<string>, ignored: set<Path>, item: Path) {
    item !in ignored && (IsDir(fs, item) || IsFile(fs, item))
  }

  /** The step for one item that is not ignored (`None` for neither
      directory nor file). */
  function Step(fs: FileSystem<string>, source: Path, destination: Path,
                table: seq<Substitution>, item: Path): (r: Result<Option<Action>>)
    ensures r.Ok? ==> (r.value.Some? <==> IsDir(fs, item) || IsFile(fs, item))
    ensures BuildDstPath(source, item, destination, table).Err? ==> r.Err?
    ensures r.Ok? && r.value.Some? && r.value.value.MakeDir? ==>
      IsDir(fs, item) && BuildDstPath(source, item, destination, table) == Ok(r.value.value.dst)
    ensures r.Ok? && r.value.Some? && r.value.value.WriteFile? ==>
      && IsFile(fs, item)
      && BuildDstPath(source, item, destination, table) == Ok(r.value.value.dst)
      && ApplyTable(fs[item].content, table) == Ok(r.value.value.text)
  {
    var dst :- BuildDstPath(source, item, destination, table);
    if IsDir(fs, item) then Ok(Some(MakeDir(dst)))
    else if IsFile(fs, item) then
      var text :- ApplyTable(fs[item].content, table);
      Ok(Some(WriteFile(dst, text)))
    else Ok(None)
  }

  /** One more item adds one to the count of acted items exactly when it
      is acted on. */
  lemma ActedCount(fs: FileSystem<string>, ignored: set<Path>, items: seq<Path>, k: nat)
    requires k < |items|
    ensures |set i | 0 <= i < k + 1 && Acted(fs, ignored, items[i])| ==
            |set i | 0 <= i < k && Acted(fs, ignored, items[i])| + (if Acted(fs, ignored, items[k]) then 1 else 0)
  {
    var before := set i | 0 <= i < k && Acted(fs, ignored, items[i]);
    var after := set i | 0 <= i < k + 1 && Acted(fs, ignored, items[i]);
    if Acted(fs, ignored, items[k]) {
      assert after == before + {k};
    } else {
      assert after == before;
    }
  }

  /** The actions for `items` in order: ignored items and items that are
      neither directory nor file are passed over, and the first item whose
      step fails ends the plan with that step's failure. */
  function Plan(fs: FileSystem<string>, source: Path, destination: Path, table: seq<Substitution>,
                items: seq<Path>, ignored: set<Path>): Result<seq<Action>>
    decreases |items|
  {
    if |items| == 0 then Ok([])
    else
      var prev :- Plan(fs, source, destination, table, items[..|items| - 1], ignored);
      var item := items[|items| - 1];
      if item in ignored then Ok(prev)
      else
        var step :- Step(fs, source, destination, table, item);
        if step.Some? then Ok(prev + [step.value]) else Ok(prev)
  }

  /** A failure in a prefix of the items is the failure of the whole plan. */
  lemma {:induction false} PlanErrKept(fs: FileSystem<string>, source: Path, destination: Path,
                                       table: seq<Substitution>, items: seq<Path>, ignored: set<Path>, j: nat)
    requires j <= |items| && Plan(fs, source, destination, table, items[..j], ignored).Err?
    ensures Plan(fs, source, destination, table, items, ignored) == Plan(fs, source, destination, table, items[..j], ignored)
    decreases |items|
  {
    if j == |items| {
      assert items[..j] == items;
    } else {
      var init := items[..|items| - 1];
      assert init[..j] == items[..j];
      PlanErrKept(fs, source, destination, table, init, ignored, j);
    }
  }

  /** `create_cookiecutter_template(...)`, as the ordered list of directory
      creations and file writes it performs. `items` is the order in which
      `rglob('*')` lists the source tree and `ignored` the items matched by
      the source's `.gitignore`. */
  method CreateCookiecutterTemplate(
    fs: FileSystem<string>, source: Path, destination: Path, ctx: seq<Entry>,
    items: seq<Path>, ignored: set<Path>)
    returns (r: Result<seq<Action>>)
    ensures !IsDir(fs, source) ==> r == Err(NotADirectory)
    ensures IsDir(fs, source) && Exists(fs, destination) ==> r == Err(AssertionFailed)
    ensures IsDir(fs, source) && !Exists(fs, destination) ==>
      r == Plan(fs, source, destination, GenerateReverseInfo(ctx), items, ignored)
    ensures IsDir(fs, source) && !Exists(fs, destination) ==>
      (r.Ok? <==> forall i | 0 <= i < |items| && items[i] !in ignored ::
                    Step(fs, source, destination, GenerateReverseInfo(ctx), items[i]).Ok?)
    ensures r.Ok? ==> |r.value| == |set i | 0 <= i < |items| && Acted(fs, ignored, items[i])|
    ensures r.Ok? ==> forall a | a in r.value ::
      exists i | 0 <= i < |items| && items[i] !in ignored ::
        Step(fs, source, destination, GenerateReverseInfo(ctx), items[i]) == Ok(Some(a))
  {
    if !IsDir(fs, source) {
      return Err(NotADirectory);
    }
    if Exists(fs, destination) {
      return Err(AssertionFailed);
    }
    var table := GenerateReverseInfo(ctx);
    var plan: seq<Action> := [];
    var k := 0;
    while k < |items|
      invariant 0 <= k <= |items|
      invariant Plan(fs, source, destination, table, items[..k], ignored) == Ok(plan)
      invariant forall i | 0 <= i < k && items[i] !in ignored ::
        Step(fs, source, destination, table, items[i]).Ok?
      invariant |plan| == |set i | 0 <= i < k && Acted(fs, ignored, items[i])|
      invariant forall a | a in plan ::
        exists i | 0 <= i < k && items[i] !in ignored ::
          Step(fs, source, destination, table, items[i]) == Ok(Some(a))
    {
      var item := items[k];
      assert items[..k + 1][..k] == items[..k];
      ActedCount(fs, ignored, items, k);
      if item !in ignored {
        var step := Step(fs, source, destination, table, item);
        if step.Err? {
          PlanErrKept(fs, source, destination, table, items, ignored, k + 1);
          return Err(step.error);
        }
        if step.value.Some? {
          plan := plan + [step.value.value];
        }
      }
      k := k + 1;
    }
    assert items[..k] == items;
    return Ok(plan);
  }
}

=== FILE: cookiecutter_templates.dfy ===
/** The managed-project operations: starting a project from a template,
    updating it (by patch or by overwriting), cloning it and reversing it
    into a template. Rendering, diffing and applying patches are left out:
    their outcomes are parameters. The `pyproject.toml` files involved are
    given already parsed (`None` when the file does not exist). */
module CookiecutterTemplates {
  import opened Wrappers
  import opened Paths
  import opened Context
  import opened DataClasses
  import opened PyProjectToml
  import opened Git
  import opened CookiecutterGenerator
  import Overwrite

  /** What `execute_cookiecutter` hands back: the context it used, the
      rendered project's path and the template repository's path. */
  datatype Rendering = Rendering(context: seq<Entry>, destinationPath: Path, repoPath: Path)

  /** The outcome of an update: its result, and the document saved to the
      project's `pyproject.toml` (`None` when nothing was saved). */
  datatype Update = Update(result: Option<SyncResult>, saved: Option<Doc>)

  /** Python truthiness of an optional string or dictionary. */
  predicate TruthyStr(s: Option<string>) {
    s.Some? && |s.value| > 0
  }

  predicate TruthyDict(d: Option<seq<Entry>>) {
    d.Some? && |d.value| > 0
  }

  /** The record with one more migration, as saved. */
  function Recorded(base: Store, rev: string): Result<Doc> {
    var s :- AddMigration(base, rev);
    Ok(Save(s))
  }

  // ---------------------------------------------------------------------------
  // update_managed_project

  /** `update_managed_project(project_path, overwrite)`. The git root is
      detected first; then the record is read, and the current revision,
      the context and the template must all be truthy. The chosen step
      (`overwriteStep` or `patchStep`, called with the revision, context,
      template and directory) either reports nothing, and the update ends
      with `None` without saving, or yields a result whose `to_rev` is
      appended to the migrations and saved. After a patch, the apply's
      failure is only reported, and the record is read again
      (`fileAfterApply`) before the migration is appended. */
  function UpdateManagedProject(
    fs: FileSystem<string>, projectPath: Path, gitBinFound: bool, file: Option<Doc>, overwrite: bool,
    overwriteStep: (string, seq<Entry>, string, Option<string>) -> Result<Option<SyncResult>>,
    patchStep: (string, seq<Entry>, string, Option<string>) -> Result<Option<SyncResult>>,
    fileAfterApply: Option<Doc>)
    : (r: Result<Update>)
    ensures GitInit(fs, projectPath, true, gitBinFound).Err? ==>
      r == Err(GitInit(fs, projectPath, true, gitBinFound).error)
    ensures GitInit(fs, projectPath, true, gitBinFound).Ok? ==>
      var m := GetMeta(Open(file));
      !(TruthyStr(LastGitHash(m)) && TruthyDict(m.context) && TruthyStr(m.template)) ==>
      r == Err(AssertionFailed)
    ensures r.Ok? ==> (r.value.result.None? <==> r.value.saved.None?)
    ensures r.Ok? && r.value.result.Some? ==>
      var base := if overwrite then Open(file) else Open(fileAfterApply);
      var saved := Open(r.value.saved);
      && saved.others == base.others
      && GetMeta(saved).appliedMigrations == GetMeta(base).appliedMigrations + [r.value.result.value.toRev]
      && saved.mp == base.mp.(migrations := saved.mp.migrations)
    ensures GitInit(fs, projectPath, true, gitBinFound).Ok? ==>
      var m := GetMeta(Open(file));
      var fromRev := LastGitHash(m);
      TruthyStr(fromRev) && TruthyDict(m.context) && TruthyStr(m.template) ==>
      var step := if overwrite then overwriteStep(fromRev.value, m.context.value, m.template.value, m.directory)
                  else patchStep(fromRev.value, m.context.value, m.template.value, m.directory);
      var base := if overwrite then Open(file) else Open(fileAfterApply);
      && (step.Err? ==> r == Err(step.error))
      && (step == Ok(None) ==> r == Ok(Update(None, None)))
      && (step.Ok? && step.value.Some? ==>
            && (r.Ok? <==> Recorded(base, step.value.value.toRev).Ok?)
            && (r.Ok? ==> r.value.result == step.value))
  {
    var _ :- GitInit(fs, projectPath, true, gitBinFound);
    // The root search passed through `projectPath`, so it is a directory
    // and the directory check of `PyProjectToml` holds here and below.
    var store := Open(file);
    var meta := GetMeta(store);
    var fromRev := LastGitHash(meta);
    if !TruthyStr(fromRev) || !TruthyDict(meta.context) || !TruthyStr(meta.template) then
      Err(AssertionFailed)
    else if overwrite then
      var result :- overwriteStep(fromRev.value, meta.context.value, meta.template.value, meta.directory);
      match result
      case None => Ok(Update(None, None))
      case Some(res) =>
        var saved :- Recorded(store, res.toRev);
        Ok(Update(Some(res), Some(saved)))
    else
      var result :- patchStep(fromRev.value, meta.context.value, meta.template.value, meta.directory);
      match result
      case None => Ok(Update(None, None))
      case Some(res) =>
        var reread := Open(fileAfterApply);
        var saved :- Recorded(reread, res.toRev);
        Ok(Update(Some(res), Some(saved)))
  }

  /** After a successful update the project's current revision is the
      result's `to_rev`, so the next update starts from there. */
  lemma UpdateMovesRevision(
    fs: FileSystem<string>, projectPath: Path, gitBinFound: bool, file: Option<Doc>, overwrite: bool,
    overwriteStep: (string, seq<Entry>, string, Option<string>) -> Result<Option<SyncResult>>,
    patchStep: (string, seq<Entry>, string, Option<string>) -> Result<Option<SyncResult>>,
    fileAfterApply: Option<Doc>)
    requires var r := UpdateManagedProject(fs, projectPath, gitBinFound, file, overwrite,
                                           overwriteStep, patchStep, fileAfterApply);
      r.Ok? && r.value.result.Some?
    ensures var u := UpdateManagedProject(fs, projectPath, gitBinFound, file, overwrite,
                                          overwriteStep, patchStep, fileAfterApply).value;
      LastGitHash(GetMeta(Open(u.saved))) == Some(u.result.value.toRev)
  {
    var u := UpdateManagedProject(fs, projectPath, gitBinFound, file, overwrite,
                                  overwriteStep, patchStep, fileAfterApply).value;
    var ms := GetMeta(Open(u.saved)).appliedMigrations;
    assert ms[|ms| - 1] == u.result.value.toRev;
  }

  /** `overwrite_project` as the update's overwrite step. Rendering is
      left out, so the rendered tree, the template repository and its
      `git` answers are given; the step's arguments only feed the
      rendering. */
  function OverwriteStep(
    status: seq<Overwrite.StatusEntry>, repoFs: FileSystem<Overwrite.Bytes>, repoPath: Path, repoGitBinFound: bool,
    rendered: seq<Overwrite.Rendered>, project: Overwrite.Project, hashOutput: string, toCommitDate: DateTime)
    : (string, seq<Entry>, string, Option<string>) -> Result<Option<SyncResult>>
    requires Overwrite.DistinctPaths(rendered) && Overwrite.TreeShaped(rendered) && Overwrite.Consistent(project)
  {
    var o := Overwrite.OverwriteProject(status, repoFs, repoPath, repoGitBinFound, rendered, project, hashOutput, toCommitDate);
    (fromRev: string, context: seq<Entry>, template: string, directory: Option<string>) =>
      if o.Ok? then Ok(o.value.0) else Err(o.error)
  }

  /** The record `update_managed_project` asserts on: a last revision, a
      context and a template, all truthy. */
  predicate Updatable(file: Option<Doc>) {
    var m := GetMeta(Open(file));
    TruthyStr(LastGitHash(m)) && TruthyDict(m.context) && TruthyStr(m.template)
  }

  /** Updating by overwriting a project whose work tree is not clean exits
      with status 1 before anything is rendered or saved. */
  lemma OverwriteUpdateUnclean(
    fs: FileSystem<string>, projectPath: Path, gitBinFound: bool, file: Option<Doc>,
    status: seq<Overwrite.StatusEntry>, repoFs: FileSystem<Overwrite.Bytes>, repoPath: Path, repoGitBinFound: bool,
    rendered: seq<Overwrite.Rendered>, project: Overwrite.Project, hashOutput: string, toCommitDate: DateTime,
    patchStep: (string, seq<Entry>, string, Option<string>) -> Result<Option<SyncResult>>, fileAfterApply: Option<Doc>)
    requires Overwrite.DistinctPaths(rendered) && Overwrite.TreeShaped(rendered) && Overwrite.Consistent(project)
    requires GitInit(fs, projectPath, true, gitBinFound).Ok? && Updatable(file)
    requires |status| > 0
    ensures UpdateManagedProject(fs, projectPath, gitBinFound, file, true,
              OverwriteStep(status, repoFs, repoPath, repoGitBinFound, rendered, project, hashOutput, toCommitDate),
              patchStep, fileAfterApply)
            == Err(SystemExit(1))
  {
  }

  /** An overwrite that changes some file records the template's current
      revision: the result is that revision with its commit date, and it
      is appended to the saved migrations. */
  lemma OverwriteUpdateRecords(
    fs: FileSystem<string>, projectPath: Path, gitBinFound: bool, file: Option<Doc>,
    status: seq<Overwrite.StatusEntry>, repoFs: FileSystem<Overwrite.Bytes>, repoPath: Path, repoGitBinFound: bool,
    rendered: seq<Overwrite.Rendered>, project: Overwrite.Project, hashOutput: string, toCommitDate: DateTime,
    patchStep: (string, seq<Entry>, string, Option<string>) -> Result<Option<SyncResult>>, fileAfterApply: Option<Doc>)
    requires Overwrite.DistinctPaths(rendered) && Overwrite.TreeShaped(rendered) && Overwrite.Consistent(project)
    requires GitInit(fs, projectPath, true, gitBinFound).Ok? && Updatable(file)
    requires |status| == 0 && IsDir(repoFs, repoPath) && GitInit(repoFs, repoPath, true, repoGitBinFound).Ok?
    requires CurrentHash(hashOutput).Ok? && Overwrite.FirstFailure(rendered, project).None?
    requires |Overwrite.Changed(rendered, project)| > 0
    requires Recorded(Open(file), CurrentHash(hashOutput).value).Ok?
    ensures UpdateManagedProject(fs, projectPath, gitBinFound, file, true,
              OverwriteStep(status, repoFs, repoPath, repoGitBinFound, rendered, project, hashOutput, toCommitDate),
              patchStep, fileAfterApply)
            == Ok(Update(Some(OverwriteResult(CurrentHash(hashOutput).value, toCommitDate)),
                         Some(Recorded(Open(file), CurrentHash(hashOutput).value).value)))
  {
  }

  /** Updating by overwriting twice from the same rendering: the second
      update finds the project up to date, reports nothing and saves
      nothing. */
  lemma OverwriteUpdateTwice(
    fs: FileSystem<string>, projectPath: Path, gitBinFound: bool, file: Option<Doc>,
    status: seq<Overwrite.StatusEntry>, repoFs: FileSystem<Overwrite.Bytes>, repoPath: Path, repoGitBinFound: bool,
    rendered: seq<Overwrite.Rendered>, project: Overwrite.Project, hashOutput: string, toCommitDate: DateTime,
    patchStep: (string, seq<Entry>, string, Option<string>) -> Result<Option<SyncResult>>, fileAfterApply: Option<Doc>)
    requires Overwrite.DistinctPaths(rendered) && Overwrite.TreeShaped(rendered) && Overwrite.Consistent(project)
    requires GitInit(fs, projectPath, true, gitBinFound).Ok? && Updatable(file)
    requires |status| == 0 && IsDir(repoFs, repoPath) && GitInit(repoFs, repoPath, true, repoGitBinFound).Ok?
    requires CurrentHash(hashOutput).Ok? && Overwrite.Merge(rendered, project).Ok?
    ensures var merged := Overwrite.Merge(rendered, project).value.0;
      && Overwrite.Consistent(merged)
      && UpdateManagedProject(fs, projectPath, gitBinFound, file, true,
           OverwriteStep(status, repoFs, repoPath, repoGitBinFound, rendered, merged, hashOutput, toCommitDate),
           patchStep, fileAfterApply)
         == Ok(Update(None, None))
  {
    var merged := Overwrite.Merge(rendered, project).value.0;
    Overwrite.MergeIdempotent(rendered, project);
    assert Overwrite.Merge(rendered, merged).value.1 == 0;
  }

  // ---------------------------------------------------------------------------
  // start_managed_project

  /** `start_managed_project(template, output_dir, directory, ...)`, from the
      point where cookiecutter has rendered the project: the template
      repository's revision and date are read, the new project's record is
      initialised with them, the template and the directory, and the
      rendered context is stored. `file` is the rendered project's
      `pyproject.toml`, if it has one. */
  function StartManagedProject(
    fs: FileSystem<string>, rendering: Rendering, gitBinFound: bool, hashOutput: string,
    commitDate: DateTime, template: string, directory: Option<string>, file: Option<Doc>)
    : (r: Result<(CookiecutterResult, Doc)>)
    ensures r.Ok? ==> GitInit(fs, rendering.repoPath, true, gitBinFound).Ok? && CurrentHash(hashOutput).Ok?
    ensures r.Ok? ==>
      Lookup(rendering.context, "cookiecutter").Some? && Lookup(rendering.context, "cookiecutter").value.Dict?
    ensures r.Ok? ==>
      var m := GetMeta(Open(Some(r.value.1)));
      && m.initialRevision == Some(CurrentHash(hashOutput).value)
      && m.initialDate == Some(commitDate)
      && m.template == Some(template)
      && m.context == Some(StoredContext(Lookup(rendering.context, "cookiecutter").value.entries))
      && r.value.0 == CookiecutterResult(rendering.destinationPath,
                                         GitInit(fs, rendering.repoPath, true, gitBinFound).value,
                                         CurrentHash(hashOutput).value, Some(commitDate), rendering.context)
    ensures r.Ok? && Open(file).mp.migrations.None? ==>
      LastGitHash(GetMeta(Open(Some(r.value.1)))) == Some(CurrentHash(hashOutput).value)
    ensures var s := Open(file).mp;
      (&& GitInit(fs, rendering.repoPath, true, gitBinFound).Ok? && CurrentHash(hashOutput).Ok?
       && IsDir(fs, rendering.destinationPath)
       && (s.initialRevision.Some? || s.initialDate.Some? || s.template.Some?))
      ==> r == Err(AssertionFailed)
    ensures r.Ok? && directory.Some? && |directory.value| > 0 ==>
      GetMeta(Open(Some(r.value.1))).directory == directory
    ensures r.Ok? && (directory.None? || |directory.value| == 0) ==>
      GetMeta(Open(Some(r.value.1))).directory == GetMeta(Open(file)).directory
    ensures r.Ok? ==> Open(Some(r.value.1)).others == Open(file).others
    ensures var s := Open(file).mp;
      var cc := Lookup(rendering.context, "cookiecutter");
      r.Ok? <==>
        && GitInit(fs, rendering.repoPath, true, gitBinFound).Ok? && CurrentHash(hashOutput).Ok?
        && IsDir(fs, rendering.destinationPath)
        && s.initialRevision.None? && s.initialDate.None? && s.template.None?
        && !(directory.Some? && |directory.value| > 0 && s.directory.Some?)
        && cc.Some? && cc.value.Dict?
  {
    var gitCwd :- GitInit(fs, rendering.repoPath, true, gitBinFound);
    var hash :- CurrentHash(hashOutput);
    var store :- OpenAt(fs, rendering.destinationPath, file);
    var s1 :- Init(store, hash, commitDate, template, directory);
    var s2 :- SetContext(s1, rendering.context);
    Ok((CookiecutterResult(rendering.destinationPath, gitCwd, hash, Some(commitDate), rendering.context),
        Save(s2)))
  }

  // ---------------------------------------------------------------------------
  // clone_managed_project

  /** `clone_managed_project(project_path, destination)`: an existing
      destination exits with code 1; the source record must hold a context
      and a template; the template is rendered again into `destination`
      with `context['cookiecutter']` as extra context (`render` is
      `execute_cookiecutter`, given template, directory, output directory
      and extra context); the clone's record is initialised like a new
      project's but stores the SOURCE project's context. */
  function CloneManagedProject(
    fs: FileSystem<string>, projectPath: Path, destination: Path, file: Option<Doc>,
    render: (string, Option<string>, Path, Option<Value>) -> Rendering,
    gitBinFound: bool, hashOutput: string, commitDate: DateTime, cloneFile: Option<Doc>)
    : (r: Result<(CookiecutterResult, Doc)>)
    ensures Exists(fs, destination) ==> r == Err(SystemExit(1))
    ensures var m := GetMeta(Open(file));
      (&& !Exists(fs, destination) && IsDir(fs, projectPath)
       && (!TruthyDict(m.context) || !TruthyStr(m.template)))
      ==> r == Err(AssertionFailed)
    ensures r.Ok? ==>
      var m := GetMeta(Open(file));
      && TruthyDict(m.context) && TruthyStr(m.template)
      && Lookup(m.context.value, "cookiecutter").Some? && Lookup(m.context.value, "cookiecutter").value.Dict?
      && var rendering := render(m.template.value, m.directory, destination,
                                 Lookup(m.context.value, "cookiecutter"));
      && r.value.0.destinationPath == rendering.destinationPath
      && r.value.0.context == m.context.value
      && var cm := GetMeta(Open(Some(r.value.1)));
      && cm.template == m.template
      && cm.initialRevision == Some(r.value.0.gitHash)
      && cm.context == Some(StoredContext(Lookup(m.context.value, "cookiecutter").value.entries))
    ensures !Exists(fs, destination) && !IsDir(fs, projectPath) ==> r == Err(NotADirectory)
    ensures r.Ok? ==>
      var m := GetMeta(Open(file));
      var rendering := render(m.template.value, m.directory, destination, Lookup(m.context.value, "cookiecutter"));
      && GitInit(fs, rendering.repoPath, true, gitBinFound).Ok? && CurrentHash(hashOutput).Ok?
      && r.value.0 == CookiecutterResult(rendering.destinationPath,
                                         GitInit(fs, rendering.repoPath, true, gitBinFound).value,
                                         CurrentHash(hashOutput).value, Some(commitDate), m.context.value)
      && var cm := GetMeta(Open(Some(r.value.1)));
      && cm.initialRevision == Some(CurrentHash(hashOutput).value)
      && cm.initialDate == Some(commitDate)
      && (TruthyStr(m.directory) ==> cm.directory == m.directory)
      && (!TruthyStr(m.directory) ==> cm.directory == GetMeta(Open(cloneFile)).directory)
      && Open(Some(r.value.1)).others == Open(cloneFile).others
    ensures var m := GetMeta(Open(file));
      var cs := Open(cloneFile).mp;
      r.Ok? <==>
        && !Exists(fs, destination) && IsDir(fs, projectPath)
        && TruthyDict(m.context) && TruthyStr(m.template)
        && (var rendering := render(m.template.value, m.directory, destination, Lookup(m.context.value, "cookiecutter"));
            GitInit(fs, rendering.repoPath, true, gitBinFound).Ok?)
        && CurrentHash(hashOutput).Ok?
        && cs.initialRevision.None? && cs.initialDate.None? && cs.template.None?
        && !(TruthyStr(m.directory) && cs.directory.Some?)
        && Lookup(m.context.value, "cookiecutter").Some? && Lookup(m.context.value, "cookiecutter").value.Dict?
  {
    if Exists(fs, destination) then Err(SystemExit(1))
    else
      var store :- OpenAt(fs, projectPath, file);
      var meta := GetMeta(store);
      if !TruthyDict(meta.context) || !TruthyStr(meta.template) then Err(AssertionFailed)
      else
        var context := meta.context.value;
        var extra := Lookup(context, "cookiecutter");
        var rendering := render(meta.template.value, meta.directory, destination, extra);
        var gitCwd :- GitInit(fs, rendering.repoPath, true, gitBinFound);
        var hash :- CurrentHash(hashOutput);
        var s1 :- Init(Open(cloneFile), hash, commitDate, meta.template.value, meta.directory);
        var s2 :- SetContext(s1, context);
        Ok((CookiecutterResult(rendering.destinationPath, gitCwd, hash, Some(commitDate), context),
            Save(s2)))
  }

  /** A context stored by this program is copied to the clone unchanged. */
  lemma CloneKeepsStoredContext(
    fs: FileSystem<string>, projectPath: Path, destination: Path, file: Option<Doc>,
    render: (string, Option<string>, Path, Option<Value>) -> Rendering,
    gitBinFound: bool, hashOutput: string, commitDate: DateTime, cloneFile: Option<Doc>, cc: seq<Entry>)
    requires GetMeta(Open(file)).context == Some(StoredContext(cc))
    requires CloneManagedProject(fs, projectPath, destination, file, render, gitBinFound,
                                 hashOutput, commitDate, cloneFile).Ok?
    ensures var r := CloneManagedProject(fs, projectPath, destination, file, render, gitBinFound,
                                         hashOutput, commitDate, cloneFile);
      GetMeta(Open(Some(r.value.1))).context == GetMeta(Open(file)).context
  {
    DropExcludedIdempotent(cc);
  }

  // ---------------------------------------------------------------------------
  // reverse_managed_project

  /** `reverse_managed_project(project_path, destination, overwrite)`: an
      existing destination exits with code 1 unless `overwrite`; the record
      must hold a context, which (the whole `{'cookiecutter': ...}`
      dictionary) drives the template creation. */
  method ReverseManagedProject(
    fs: FileSystem<string>, projectPath: Path, destination: Path, overwrite: bool, file: Option<Doc>,
    items: seq<Path>, ignored: set<Path>)
    returns (r: Result<seq<Action>>)
    ensures !overwrite && Exists(fs, destination) ==> r == Err(SystemExit(1))
    ensures overwrite && Exists(fs, destination) ==> r.Err?
    ensures !Exists(fs, destination) && IsDir(fs, projectPath) && !TruthyDict(GetMeta(Open(file)).context) ==>
      r == Err(AssertionFailed)
    ensures !Exists(fs, destination) && !IsDir(fs, projectPath) ==> r == Err(NotADirectory)
    ensures r.Ok? ==> TruthyDict(GetMeta(Open(file)).context)
    ensures !Exists(fs, destination) && IsDir(fs, projectPath) && TruthyDict(GetMeta(Open(file)).context) ==>
      r == Plan(fs, projectPath, destination, GenerateReverseInfo(GetMeta(Open(file)).context.value), items, ignored)
    ensures r.Ok? ==> forall a | a in r.value ::
      exists i | 0 <= i < |items| && items[i] !in ignored ::
        Step(fs, projectPath, destination, GenerateReverseInfo(GetMeta(Open(file)).context.value), items[i])
          == Ok(Some(a))
  {
    if !overwrite && Exists(fs, destination) {
      return Err(SystemExit(1));
    }
    var store := OpenAt(fs, projectPath, file);
    if store.Err? {
      return Err(store.error);
    }
    var context := GetMeta(store.value).context;
    if !TruthyDict(context) {
      return Err(AssertionFailed);
    }
    r := CreateCookiecutterTemplate(fs, projectPath, destination, context.value, items, ignored);
  }
}

=== FILE: data_classes.dfy ===
/** The records exchanged between the modelled operations: the provenance
    metadata read back from `pyproject.toml` and the results of creating,
    overwriting and patching a project. */
module DataClasses {
  import opened Wrappers
  import opened Paths
  import opened Context

  /** A commit timestamp, kept opaque as its ISO 8601 text. */
  datatype DateTime = DateTime(iso: string)

  /** `CookiecutterResult`: what starting or cloning a project produced. */
  datatype CookiecutterResult = CookiecutterResult(
    destinationPath: Path,
    gitPath: Path,
    gitHash: string,
    commitDate: Option<DateTime>,
    context: seq<Entry>)

  /** `CookiecutterResult.get_comment()`: the commit date in ISO form, or the
      empty string when there is none (a `datetime` is always truthy). */
  function GetComment(r: CookiecutterResult): (c: string)
    ensures r.commitDate.Some? ==> c == r.commitDate.value.iso
    ensures r.commitDate.None? ==> c == ""
  {
    match r.commitDate
    case Some(d) => d.iso
    case None => ""
  }

  /** `ManageProjectsMeta`: the `[manageprojects]` table as read back. A
      field absent from the table is `None`; absent migrations are `[]`. */
  datatype Meta = Meta(
    initialRevision: Option<string>,
    initialDate: Option<DateTime>,
    appliedMigrations: seq<string>,
    template: Option<string>,
    directory: Option<string>,
    context: Option<seq<Entry>>)

  /** `get_last_git_hash()`: the revision the project is currently at. */
  function LastGitHash(m: Meta): (r: Option<string>)
    ensures r == m.initialRevision || (r.Some? && r.value in m.appliedMigrations)
    ensures |m.appliedMigrations| == 0 ==> r == m.initialRevision
    ensures |m.appliedMigrations| > 0 ==> r.Some? && r.value in m.appliedMigrations
  {
    if |m.appliedMigrations| > 0 then Some(m.appliedMigrations[|m.appliedMigrations| - 1])
    else m.initialRevision
  }

  /** Recording a migration moves the current revision to it, whatever was
      recorded before. */
  lemma LastGitHashAfterMigration(m: Meta, rev: string)
    ensures LastGitHash(m.(appliedMigrations := m.appliedMigrations + [rev])) == Some(rev)
  {
    var ms := m.appliedMigrations + [rev];
    assert ms[|ms| - 1] == rev;
  }

  /** The result of an update. Both kinds carry `to_rev` and
      `to_commit_date` (the shared `ResultBase` fields). */
  datatype SyncResult =
    | OverwriteResult(toRev: string, toCommitDate: DateTime)
    | GenerateTemplatePatchResult(
        toRev: string,
        toCommitDate: DateTime,
        repoPath: Path,
        patchFilePath: Path,
        fromRev: string,
        compiledFromPath: Path,
        compiledToPath: Path)
}

=== FILE: format_file.dfy ===
/** How `format_file` configures the formatters for one Python file: the
    minimal Python version from `pyproject.toml`, the maximal line length
    from EditorConfig, the project root from git or `pyproject.toml`, and
    which tools run. Version specifiers, EditorConfig parsing, `int()` and
    `git` are parameters; the tools themselves are not run, the model
    computes the list of invocations. */
module FormatFile {
  import opened Wrappers
  import opened PyStr
  import opened Paths
  import opened Context
  import opened Git
  import opened PyProjectToml

  /** Minor versions `3.0` up to `3.14` are tried. */
  const MaxPy3Ver: nat := 15

  /** A `packaging` version, reduced to major and minor. */
  datatype Version = Version(major: nat, minor: nat)

  datatype GitInfo = GitInfo(cwd: Path, mainBranchName: string)

  datatype PyProjectInfo = PyProjectInfo(
    pyMinVer: Version,
    pyprojectTomlPath: Option<Path>,
    rawPyVerReq: Option<string>)

  datatype Config = Config(gitInfo: Option<GitInfo>, pyprojectInfo: PyProjectInfo, maxLineLength: int)

  // ---------------------------------------------------------------------------
  // get_py_min_version

  /** The version string `3.<minor>` the specifier is asked about. */
  function MinorSpec(minor: nat): string {
    "3." + NatToString(minor)
  }

  /** `get_py_min_version(raw)`: `SpecifierSet(raw)` refuses a string it
      cannot parse (`InvalidSpecifier`, a `ValueError`; `parses` says which
      strings it accepts); otherwise the result is the first minor version
      `3.m`, for `m` from 0 to 14, that `contains(raw, "3.m")` accepts, and
      `None` when none is accepted. */
  method GetPyMinVersion(raw: string, parses: string -> bool, contains: (string, string) -> bool)
    returns (r: Result<Option<Version>>)
    ensures r.Err? <==> !parses(raw)
    ensures r.Err? ==> r.error == ValueRejected
    ensures r.Ok? && r.value.Some? ==>
      && r.value.value.major == 3 && r.value.value.minor < MaxPy3Ver
      && contains(raw, MinorSpec(r.value.value.minor))
      && forall m: nat | m < r.value.value.minor :: !contains(raw, MinorSpec(m))
    ensures r.Ok? ==> (r.value.None? <==> forall m: nat | m < MaxPy3Ver :: !contains(raw, MinorSpec(m)))
  {
    if !parses(raw) {
      return Err(ValueRejected);
    }
    var minor: nat := 0;
    while minor < MaxPy3Ver
      invariant minor <= MaxPy3Ver
      invariant forall m: nat | m < minor :: !contains(raw, MinorSpec(m))
    {
      if contains(raw, MinorSpec(minor)) {
        return Ok(Some(Version(3, minor)));
      }
      minor := minor + 1;
    }
    return Ok(None);
  }

  // ---------------------------------------------------------------------------
  // get_pyproject_info

  const RequiresPython := ["project", "requires-python"]
  const PoetryPython := ["tool", "poetry", "dependencies", "python"]

  /** The requirement `get_pyproject_info` uses: `project.requires-python`
      when it is truthy, else `tool.poetry.dependencies.python` when that
      is truthy, else nothing. */
  function Requirement(data: Value): (r: Option<Value>)
    ensures r.Some? ==> Truthy(r.value)
    ensures r.Some? ==> r == DictGet(data, RequiresPython) || r == DictGet(data, PoetryPython)
    ensures r.None? <==>
      (DictGet(data, RequiresPython).None? || !Truthy(DictGet(data, RequiresPython).value))
      && (DictGet(data, PoetryPython).None? || !Truthy(DictGet(data, PoetryPython).value))
  {
    var project := DictGet(data, RequiresPython);
    var poetry := DictGet(data, PoetryPython);
    if project.Some? && Truthy(project.value) then project
    else if poetry.Some? && Truthy(poetry.value) then poetry
    else None
  }

  /** `project.requires-python`, when truthy, wins over the poetry entry. */
  lemma RequiresPythonTakesPrecedence(data: Value)
    requires DictGet(data, RequiresPython).Some? && Truthy(DictGet(data, RequiresPython).value)
    ensures Requirement(data) == DictGet(data, RequiresPython)
  {
  }

  /** The error `get_pyproject_info` raises, if any: none without a
      `pyproject.toml`; otherwise the specifier parser's refusal of the
      requirement found in the document. */
  function InfoError(fs: FileSystem<string>, filePath: Path, data: Value, parses: string -> bool): Option<Failure>
    requires !IsFile(fs, [])
  {
    if FindPyProjectToml(fs, filePath).None? then None
    else match Requirement(data)
      case None => None
      case Some(v) =>
        if !v.Str? then Some(AttributeMissing)
        else if !parses(v.s) then Some(ValueRejected)
        else None
  }

  /** `info` is what `get_pyproject_info` returns when it does not raise:
      the `pyproject.toml` found above the file, the requirement read from
      it, and as minimal version the least `3.m` (`m` below 15) the
      requirement accepts, or the default when there is no requirement or
      it accepts none. */
  predicate InfoFits(
    fs: FileSystem<string>, filePath: Path, defaultMinPyVersion: Version, data: Value,
    contains: (string, string) -> bool, info: PyProjectInfo)
    requires !IsFile(fs, [])
  {
    var found := FindPyProjectToml(fs, filePath);
    var req := Requirement(data);
    && info.pyprojectTomlPath == found
    && info.rawPyVerReq == (if found.Some? && req.Some? && req.value.Str? then Some(req.value.s) else None)
    && (info.rawPyVerReq.None? ==> info.pyMinVer == defaultMinPyVersion)
    && (info.rawPyVerReq.Some? ==>
          var raw := info.rawPyVerReq.value;
          && ((forall m: nat | m < MaxPy3Ver :: !contains(raw, MinorSpec(m))) ==> info.pyMinVer == defaultMinPyVersion)
          && ((exists m: nat | m < MaxPy3Ver :: contains(raw, MinorSpec(m))) ==>
                && info.pyMinVer.major == 3 && contains(raw, MinorSpec(info.pyMinVer.minor))
                && forall m: nat | m < info.pyMinVer.minor :: !contains(raw, MinorSpec(m))))
  }

  /** At most one result fits: the found file, the requirement and the
      least accepted minor version leave no choice. */
  lemma {:induction false} InfoFitsUnique(
    fs: FileSystem<string>, filePath: Path, defaultMinPyVersion: Version, data: Value,
    contains: (string, string) -> bool, a: PyProjectInfo, b: PyProjectInfo)
    requires !IsFile(fs, [])
    requires InfoFits(fs, filePath, defaultMinPyVersion, data, contains, a)
    requires InfoFits(fs, filePath, defaultMinPyVersion, data, contains, b)
    ensures a == b
  {
    if a.rawPyVerReq.Some? {
      var raw := a.rawPyVerReq.value;
      if exists m: nat | m < MaxPy3Ver :: contains(raw, MinorSpec(m)) {
        var x, y := a.pyMinVer.minor, b.pyMinVer.minor;
        assert contains(raw, MinorSpec(x)) && contains(raw, MinorSpec(y));
        assert x == y;
      }
    }
  }

  /** `get_pyproject_info(file_path, default_min_py_version)`: with no
      `pyproject.toml` above the file the default is kept; otherwise the
      file's path is recorded, and a requirement found in the parsed
      document `data` is recorded and, when some minor version matches it,
      gives the minimal version. The specifier parser refuses a requirement
      that is not a string (it has no `split`, an `AttributeError`) and a
      string it cannot parse (`ValueError`). */
  method GetPyprojectInfo(
    fs: FileSystem<string>, filePath: Path, defaultMinPyVersion: Version, data: Value,
    parses: string -> bool, contains: (string, string) -> bool)
    returns (r: Result<PyProjectInfo>)
    requires !IsFile(fs, [])
    ensures r.Err? <==> InfoError(fs, filePath, data, parses).Some?
    ensures r.Err? ==> r.error == InfoError(fs, filePath, data, parses).value
    ensures r.Ok? ==> InfoFits(fs, filePath, defaultMinPyVersion, data, contains, r.value)
  {
    var found := GetPyProjectToml(fs, Some(filePath), filePath);
    if found.Err? {
      return Ok(PyProjectInfo(defaultMinPyVersion, None, None));
    }
    var req := Requirement(data);
    if req.None? {
      return Ok(PyProjectInfo(defaultMinPyVersion, Some(found.value), None));
    }
    if !req.value.Str? {
      return Err(AttributeMissing);
    }
    var raw := req.value.s;
    var minVer := GetPyMinVersion(raw, parses, contains);
    if minVer.Err? {
      return Err(minVer.error);
    }
    return Ok(PyProjectInfo(minVer.value.GetOr(defaultMinPyVersion), Some(found.value), Some(raw)));
  }

  // ---------------------------------------------------------------------------
  // Config properties

  /** `Config.py_ver_str`: `py<major><minor>`. */
  function PyVerStr(c: Config): (r: string)
    ensures |r| >= 4 && r[..2] == "py"
  {
    "py" + NatToString(c.pyprojectInfo.pyMinVer.major) + NatToString(c.pyprojectInfo.pyMinVer.minor)
  }

  /** For Python 3 the string names the minor version unambiguously. */
  lemma PyVerStrInjective(c1: Config, c2: Config)
    requires c1.pyprojectInfo.pyMinVer.major == 3 && c2.pyprojectInfo.pyMinVer.major == 3
    requires PyVerStr(c1) == PyVerStr(c2)
    ensures c1.pyprojectInfo.pyMinVer == c2.pyprojectInfo.pyMinVer
  {
    var m1 := NatToString(c1.pyprojectInfo.pyMinVer.minor);
    var m2 := NatToString(c2.pyprojectInfo.pyMinVer.minor);
    assert NatToString(3) == "3";
    assert PyVerStr(c1) == "py3" + m1 && PyVerStr(c2) == "py3" + m2;
    assert m1 == PyVerStr(c1)[3..] == m2;
    ParseNatToString(c1.pyprojectInfo.pyMinVer.minor);
    ParseNatToString(c2.pyprojectInfo.pyMinVer.minor);
  }

  /** `Config.project_root_path`: the git work tree when known, else the
      directory of `pyproject.toml` when known, else `None`. */
  function ProjectRootPath(c: Config): (r: Option<Path>)
    ensures r.Some? <==> c.gitInfo.Some? || c.pyprojectInfo.pyprojectTomlPath.Some?
    ensures c.gitInfo.Some? ==> r == Some(c.gitInfo.value.cwd)
    ensures c.gitInfo.None? && c.pyprojectInfo.pyprojectTomlPath.Some? ==>
      r == Some(Parent(c.pyprojectInfo.pyprojectTomlPath.value))
      && IsAncestorOrSelf(r.value, c.pyprojectInfo.pyprojectTomlPath.value)
  {
    match c.gitInfo
    case Some(g) => Some(g.cwd)
    case None =>
      match c.pyprojectInfo.pyprojectTomlPath
      case Some(p) => Some(Parent(p))
      case None => None
  }

  /** `Config.main_branch_name`. */
  function MainBranchName(c: Config): (r: Option<string>)
    ensures r.Some? <==> c.gitInfo.Some?
    ensures r.Some? ==> r.value == c.gitInfo.value.mainBranchName
  {
    match c.gitInfo
    case Some(g) => Some(g.mainBranchName)
    case None => None
  }

  // ---------------------------------------------------------------------------
  // get_git_info, get_editorconfig_max_line_length, get_config

  /** `get_git_info(file_path)`: `None` outside a work tree or when the main
      branch name cannot be read (`mainBranch` is `None`); a missing `git`
      binary is not caught. */
  function GetGitInfo(fs: FileSystem<string>, filePath: Path, gitBinFound: bool, mainBranch: Option<string>)
    : (r: Result<Option<GitInfo>>)
    ensures GetGitRoot(fs, Parent(filePath)).None? ==> r == Ok(None)
    ensures GetGitRoot(fs, Parent(filePath)).Some? && !gitBinFound ==> r == Err(GitBinNotFound)
    ensures r.Ok? && r.value.Some? ==>
      && mainBranch == Some(r.value.value.mainBranchName)
      && IsAncestorOrSelf(r.value.value.cwd, Parent(filePath))
      && IsDir(fs, r.value.value.cwd + [".git"])
    ensures GetGitRoot(fs, Parent(filePath)).Some? && gitBinFound ==>
      r == Ok(if mainBranch.Some? then Some(GitInfo(GetGitRoot(fs, Parent(filePath)).value, mainBranch.value)) else None)
  {
    match GitInit(fs, Parent(filePath), true, gitBinFound)
    case Err(NoGitRepo) => Ok(None)
    case Err(e) => Err(e)
    case Ok(cwd) =>
      match mainBranch
      case None => Ok(None)
      case Some(name) => Ok(Some(GitInfo(cwd, name)))
  }

  const MaxLineLengthKey := "max_line_length"

  /** `get_editorconfig_max_line_length(file_path)`: `None` when EditorConfig
      fails (`properties` is `None`) or has no truthy `max_line_length`;
      otherwise `int()` of the value (`toInt`), whose failure is not
      caught. */
  function GetEditorconfigMaxLineLength(properties: Option<map<string, string>>, toInt: string -> Option<int>)
    : (r: Result<Option<int>>)
    ensures properties.None? ==> r == Ok(None)
    ensures properties.Some? && (MaxLineLengthKey !in properties.value || properties.value[MaxLineLengthKey] == "") ==>
      r == Ok(None)
    ensures properties.Some? && MaxLineLengthKey in properties.value && properties.value[MaxLineLengthKey] != "" ==>
      var v := properties.value[MaxLineLengthKey];
      (toInt(v).None? ==> r == Err(ValueRejected)) && (toInt(v).Some? ==> r == Ok(toInt(v)))
  {
    match properties
    case None => Ok(None)
    case Some(options) =>
      if MaxLineLengthKey !in options || options[MaxLineLengthKey] == "" then Ok(None)
      else
        match toInt(options[MaxLineLengthKey])
        case None => Err(ValueRejected)
        case Some(n) => Ok(Some(n))
  }

  /** `editorconfig or default`: the EditorConfig value unless it is missing
      or zero. */
  function ResolveMaxLineLength(editorconfig: Option<int>, default: int): (r: int)
    ensures editorconfig.Some? && editorconfig.value != 0 ==> r == editorconfig.value
    ensures editorconfig.None? || editorconfig.value == 0 ==> r == default
  {
    if editorconfig.Some? && editorconfig.value != 0 then editorconfig.value else default
  }

  /** The error `get_config` raises, if any: the first of the errors of
      `get_git_info`, `get_pyproject_info` and
      `get_editorconfig_max_line_length`, which it calls in this order. */
  function ConfigError(
    fs: FileSystem<string>, filePath: Path, gitBinFound: bool, mainBranch: Option<string>, data: Value,
    parses: string -> bool, properties: Option<map<string, string>>, toInt: string -> Option<int>)
    : Option<Failure>
    requires !IsFile(fs, [])
  {
    var git := GetGitInfo(fs, filePath, gitBinFound, mainBranch);
    var length := GetEditorconfigMaxLineLength(properties, toInt);
    if git.Err? then Some(git.error)
    else if InfoError(fs, filePath, data, parses).Some? then InfoError(fs, filePath, data, parses)
    else if length.Err? then Some(length.error)
    else None
  }

  /** `c` is the configuration `get_config` builds: the file's git
      information, the `pyproject.toml` information (see `InfoFits`), and
      the EditorConfig line length unless it is missing or zero, else the
      default. */
  predicate ConfigFits(
    fs: FileSystem<string>, filePath: Path, defaultMinPyVersion: Version, defaultMaxLineLength: int,
    gitBinFound: bool, mainBranch: Option<string>, data: Value,
    contains: (string, string) -> bool, properties: Option<map<string, string>>, toInt: string -> Option<int>,
    c: Config)
    requires !IsFile(fs, [])
  {
    var length := GetEditorconfigMaxLineLength(properties, toInt);
    && Ok(c.gitInfo) == GetGitInfo(fs, filePath, gitBinFound, mainBranch)
    && InfoFits(fs, filePath, defaultMinPyVersion, data, contains, c.pyprojectInfo)
    && length.Ok?
    && (length.value.Some? && length.value.value != 0 ==> c.maxLineLength == length.value.value)
    && (length.value.None? || length.value.value == 0 ==> c.maxLineLength == defaultMaxLineLength)
  }

  /** `get_config(file_path, ...)`. */
  method GetConfig(
    fs: FileSystem<string>, filePath: Path, defaultMinPyVersion: Version, defaultMaxLineLength: int,
    gitBinFound: bool, mainBranch: Option<string>, data: Value,
    parses: string -> bool, contains: (string, string) -> bool, properties: Option<map<string, string>>, toInt: string -> Option<int>)
    returns (r: Result<Config>)
    requires !IsFile(fs, [])
    ensures r.Err? <==> ConfigError(fs, filePath, gitBinFound, mainBranch, data, parses, properties, toInt).Some?
    ensures r.Err? ==> r.error == ConfigError(fs, filePath, gitBinFound, mainBranch, data, parses, properties, toInt).value
    ensures r.Ok? ==> ConfigFits(fs, filePath, defaultMinPyVersion, defaultMaxLineLength,
                                 gitBinFound, mainBranch, data, contains, properties, toInt, r.value)
    ensures r.Ok? ==> match ProjectRootPath(r.value)
      case Some(root) => IsAncestorOrSelf(root, filePath)
      case None => true
  {
    var gitInfo := GetGitInfo(fs, filePath, gitBinFound, mainBranch);
    if gitInfo.Err? {
      return Err(gitInfo.error);
    }
    var info := GetPyprojectInfo(fs, filePath, defaultMinPyVersion, data, parses, contains);
    if info.Err? {
      return Err(info.error);
    }
    var editorconfig := GetEditorconfigMaxLineLength(properties, toInt);
    if editorconfig.Err? {
      return Err(editorconfig.error);
    }
    var config := Config(gitInfo.value, info.value, ResolveMaxLineLength(editorconfig.value, defaultMaxLineLength));
    RootAboveFile(fs, filePath, config);
    return Ok(config);
  }

  /** The project root lies above the file, so making the file's path
      relative to it cannot fail. */
  lemma RootAboveFile(fs: FileSystem<string>, filePath: Path, c: Config)
    requires !IsFile(fs, [])
    requires c.gitInfo.Some? ==> IsAncestorOrSelf(c.gitInfo.value.cwd, Parent(filePath))
    requires c.pyprojectInfo.pyprojectTomlPath == FindPyProjectToml(fs, filePath)
      || c.pyprojectInfo.pyprojectTomlPath.None?
    ensures ProjectRootPath(c).Some? ==> IsAncestorOrSelf(ProjectRootPath(c).value, filePath)
  {
    if c.gitInfo.Some? {
      var q := c.gitInfo.value.cwd;
      assert Parent(filePath) == filePath[..|Parent(filePath)|];
      assert q == filePath[..|q|];
    } else if c.pyprojectInfo.pyprojectTomlPath.Some? {
      var p := c.pyprojectInfo.pyprojectTomlPath.value;
      var k :| 0 <= k <= |filePath| && p == filePath[..k] + [PyProjectName] && HasPyProject(fs, filePath[..k]);
      assert ProjectRootPath(c).value == filePath[..k];
    }
  }

  // ---------------------------------------------------------------------------
  // format_one_file

  /** `name.rfind('.')`. */
  function LastDot(s: string): (r: int)
    ensures -1 <= r < |s|
    ensures r >= 0 ==> s[r] == '.' && forall k | r < k < |s| :: s[k] != '.'
    ensures r == -1 ==> forall k | 0 <= k < |s| :: s[k] != '.'
    decreases |s|
  {
    if |s| == 0 then -1
    else if s[|s| - 1] == '.' then |s| - 1
    else LastDot(s[..|s| - 1])
  }

  /** `PurePath.suffix` of a file name: from the last dot on, unless that
      dot starts the name or ends it. */
  function Suffix(name: string): (r: string)
    ensures r == "" || (2 <= |r| < |name| && r == name[|name| - |r|..] && r[0] == '.')
  {
    var i := LastDot(name);
    if 0 < i < |name| - 1 then name[i..] else ""
  }

  /** The file is formatted: `file_path.suffix.lower() == '.py'`. */
  predicate IsPythonFile(filePath: Path) {
    filePath != [] && LowerAscii(Suffix(filePath[|filePath| - 1])) == ".py"
  }

  /** A name has the suffix `.py` (in any case) exactly when it ends with
      `.py` and has something before that; `.py` alone is a hidden file
      without a suffix. */
  lemma PythonSuffixIff(name: string)
    ensures LowerAscii(Suffix(name)) == ".py" <==> |name| >= 4 && LowerAscii(name[|name| - 3..]) == ".py"
  {
    var n := |name|;
    if |name| >= 4 && LowerAscii(name[n - 3..]) == ".py" {
      var t := name[n - 3..];
      assert LowerChar(t[0]) == '.' && LowerChar(t[1]) == 'p' && LowerChar(t[2]) == 'y';
      assert name[n - 3] == '.' && name[n - 2] != '.' && name[n - 1] != '.';
      assert LastDot(name) == n - 3 by {
        assert LastDot(name) == LastDot(name[..n - 1]);
        assert name[..n - 1][..n - 2] == name[..n - 2];
        assert LastDot(name[..n - 1]) == LastDot(name[..n - 2]);
      }
    }
  }

  /** One formatter invocation, with the arguments taken from the
      configuration. */
  datatype Tool =
    | PyUpgrade(pyVerArg: string)
    | Autoflake(removeAllUnusedImports: bool)
    | Autopep8Select(prefixes: string, maxLineLength: int)
    | Darker(revision: string, lineLength: int, targetVersion: string)
    | Autopep8(maxLineLength: int)
    | Flake8(maxLineLength: int)
    | Pyflakes
    | Codespell
    | Mypy

  /** The tools `format_one_file` runs, in order: pyupgrade and autoflake;
      then darker when a main branch is known (preceded by an autopep8 run
      restricted to `darker_prefixes` when those are non-empty), else
      autopep8; then flake8, pyflakes, codespell and mypy. */
  function Tools(c: Config, darkerPrefixes: string, removeAllUnusedImports: bool): (r: seq<Tool>)
    ensures 7 <= |r| <= 8
    ensures r[..2] == [PyUpgrade("--" + PyVerStr(c) + "-plus"), Autoflake(removeAllUnusedImports)]
    ensures r[|r| - 4..] == [Flake8(c.maxLineLength), Pyflakes, Codespell, Mypy]
  {
    var r := ToolsHead(c, removeAllUnusedImports) + Middle(MainBranchName(c), darkerPrefixes, c) + ToolsTail(c);
    assert r[..2] == ToolsHead(c, removeAllUnusedImports);
    assert r[|r| - 4..] == ToolsTail(c);
    r
  }

  function ToolsHead(c: Config, removeAllUnusedImports: bool): seq<Tool> {
    [PyUpgrade("--" + PyVerStr(c) + "-plus"), Autoflake(removeAllUnusedImports)]
  }

  function ToolsTail(c: Config): seq<Tool> {
    [Flake8(c.maxLineLength), Pyflakes, Codespell, Mypy]
  }

  /** A tool of the plan is one of the fixed head and tail tools or one of
      the middle ones. */
  lemma ToolsMember(c: Config, darkerPrefixes: string, removeAllUnusedImports: bool, t: Tool)
    requires t in Tools(c, darkerPrefixes, removeAllUnusedImports)
    ensures t.PyUpgrade? || t.Autoflake? || t.Flake8? || t.Pyflakes? || t.Codespell? || t.Mypy?
         || t in Middle(MainBranchName(c), darkerPrefixes, c)
  {
    var head, middle, tail := ToolsHead(c, removeAllUnusedImports), Middle(MainBranchName(c), darkerPrefixes, c), ToolsTail(c);
    assert t in head || t in middle || t in tail;
  }

  /** darker runs exactly when a main branch is known, and then against
      `<branch>...` with the configured line length and Python version. */
  lemma ToolsRunDarker(c: Config, darkerPrefixes: string, removeAllUnusedImports: bool)
    ensures var r := Tools(c, darkerPrefixes, removeAllUnusedImports);
      && ((exists t | t in r :: t.Darker?) <==> HasMainBranch(c))
      && (forall t | t in r && t.Darker? ::
            t == Darker(MainBranchName(c).value + "...", c.maxLineLength, PyVerStr(c)))
  {
    var r := Tools(c, darkerPrefixes, removeAllUnusedImports);
    var middle := Middle(MainBranchName(c), darkerPrefixes, c);
    forall t | t in r ensures t.Darker? ==> HasMainBranch(c) && t in middle {
      ToolsMember(c, darkerPrefixes, removeAllUnusedImports, t);
    }
    if HasMainBranch(c) {
      var d :| d in middle && d.Darker?;
      assert d in r;
    }
  }

  /** Plain autopep8 runs exactly when no main branch is known. */
  lemma ToolsRunAutopep8(c: Config, darkerPrefixes: string, removeAllUnusedImports: bool)
    ensures var r := Tools(c, darkerPrefixes, removeAllUnusedImports);
      (exists t | t in r :: t.Autopep8?) <==> !HasMainBranch(c)
  {
    var r := Tools(c, darkerPrefixes, removeAllUnusedImports);
    var middle := Middle(MainBranchName(c), darkerPrefixes, c);
    forall t | t in r ensures t.Autopep8? ==> !HasMainBranch(c) {
      ToolsMember(c, darkerPrefixes, removeAllUnusedImports, t);
    }
    if !HasMainBranch(c) {
      assert middle[0] in r;
    }
  }

  /** The autopep8 run restricted to `darker_prefixes` happens exactly when
      darker runs and prefixes are given. */
  lemma ToolsRunAutopep8Select(c: Config, darkerPrefixes: string, removeAllUnusedImports: bool)
    ensures var r := Tools(c, darkerPrefixes, removeAllUnusedImports);
      (exists t | t in r :: t.Autopep8Select?) <==> HasMainBranch(c) && |darkerPrefixes| > 0
  {
    var r := Tools(c, darkerPrefixes, removeAllUnusedImports);
    var middle := Middle(MainBranchName(c), darkerPrefixes, c);
    forall t | t in r ensures t.Autopep8Select? ==> HasMainBranch(c) && |darkerPrefixes| > 0 {
      ToolsMember(c, darkerPrefixes, removeAllUnusedImports, t);
    }
    if HasMainBranch(c) && |darkerPrefixes| > 0 {
      var a :| a in middle && a.Autopep8Select?;
      assert a in r;
    }
  }

  /** A main branch name is known and non-empty: darker can diff against it. */
  predicate HasMainBranch(c: Config) {
    MainBranchName(c).Some? && |MainBranchName(c).value| > 0
  }

  /** The tools between autoflake and flake8. */
  function Middle(branch: Option<string>, darkerPrefixes: string, c: Config): (m: seq<Tool>)
    ensures 1 <= |m| <= 2
    ensures branch.Some? && |branch.value| > 0 ==>
      && (exists t | t in m :: t.Darker?)
      && (forall t | t in m :: t.Darker? || t.Autopep8Select?)
      && (forall t | t in m && t.Darker? :: t == Darker(branch.value + "...", c.maxLineLength, PyVerStr(c)))
      && ((exists t | t in m :: t.Autopep8Select?) <==> |darkerPrefixes| > 0)
    ensures !(branch.Some? && |branch.value| > 0) ==> m == [Autopep8(c.maxLineLength)]
  {
    if branch.Some? && |branch.value| > 0 then
      var darker := Darker(branch.value + "...", c.maxLineLength, PyVerStr(c));
      if |darkerPrefixes| > 0 then
        var m := [Autopep8Select(darkerPrefixes, c.maxLineLength), darker];
        assert m[0] in m && m[1] in m;
        m
      else
        var m := [darker];
        assert m[0] in m;
        m
    else [Autopep8(c.maxLineLength)]
  }

  /** A formatting run: the configuration, the file path handed to the
      tools (relative to the project root when one is known) and the tools
      in order. */
  datatype Run = Run(config: Config, target: Path, tools: seq<Tool>)

  /** `format_one_file(...)` for the resolved `filePath`: a file whose
      suffix is not `.py` is skipped (`None`); otherwise the configuration
      is resolved and the tools are planned. */
  method FormatOneFile(
    fs: FileSystem<string>, filePath: Path, defaultMinPyVersion: Version, defaultMaxLineLength: int,
    darkerPrefixes: string, removeAllUnusedImports: bool,
    gitBinFound: bool, mainBranch: Option<string>, data: Value,
    parses: string -> bool, contains: (string, string) -> bool, properties: Option<map<string, string>>, toInt: string -> Option<int>)
    returns (r: Result<Option<Run>>)
    requires !IsFile(fs, [])
    ensures !IsPythonFile(filePath) ==> r == Ok(None)
    ensures IsPythonFile(filePath) ==> r.Err? || r.value.Some?
    ensures IsPythonFile(filePath) ==>
      (r.Err? <==> ConfigError(fs, filePath, gitBinFound, mainBranch, data, parses, properties, toInt).Some?)
    ensures r.Err? ==> r.error == ConfigError(fs, filePath, gitBinFound, mainBranch, data, parses, properties, toInt).value
    ensures r.Ok? && r.value.Some? ==>
      ConfigFits(fs, filePath, defaultMinPyVersion, defaultMaxLineLength,
                 gitBinFound, mainBranch, data, contains, properties, toInt, r.value.value.config)
    ensures r.Ok? && r.value.Some? ==>
      var run := r.value.value;
      && IsPythonFile(filePath)
      && run.tools == Tools(run.config, darkerPrefixes, removeAllUnusedImports)
      && (ProjectRootPath(run.config).None? ==> run.target == filePath)
      && (ProjectRootPath(run.config).Some? ==> ProjectRootPath(run.config).value + run.target == filePath)
  {
    if !IsPythonFile(filePath) {
      return Ok(None);
    }
    var config := GetConfig(fs, filePath, defaultMinPyVersion, defaultMaxLineLength,
                            gitBinFound, mainBranch, data, parses, contains, properties, toInt);
    if config.Err? {
      return Err(config.error);
    }
    var target := filePath;
    match ProjectRootPath(config.value) {
      case Some(root) =>
        target := filePath[|root|..];
        assert root + target == filePath;
      case None =>
    }
    return Ok(Some(Run(config.value, target, Tools(config.value, darkerPrefixes, removeAllUnusedImports))));
  }
}

=== FILE: git.dfy ===
/** Locating a git work tree and reading the current revision, with the
    `git` subprocess left out: its output is a parameter. */
module Git {
  import opened Wrappers
  import opened PyStr
  import opened Paths

  /** Every path from `p[..k]` down to `p` itself is a directory. */
  ghost predicate DirsFrom<C>(fs: FileSystem<C>, p: Path, k: nat)
    requires k <= |p|
  {
    forall j | k <= j <= |p| :: IsDir(fs, p[..j])
  }

  /** `p[..k]` is a work tree the search can stop at: it is not the root, it
      and everything below it on the way to `p` are directories, and it
      holds a `.git` directory. */
  ghost predicate RootAt<C>(fs: FileSystem<C>, p: Path, k: nat)
    requires k <= |p|
  {
    k >= 1 && DirsFrom(fs, p, k) && IsDir(fs, p[..k] + [".git"])
  }

  /** `get_git_root(path)`: `None` at the root (a path with a single part)
      or at a non-directory; the path itself when it holds a `.git`
      directory; otherwise the answer for the parent. The result is the
      nearest such ancestor-or-self; the root itself is never returned. */
  function GetGitRoot<C>(fs: FileSystem<C>, p: Path): (r: Option<Path>)
    ensures r.Some? ==> exists k | 1 <= k <= |p| ::
      r.value == p[..k] && RootAt(fs, p, k) && forall j | k < j <= |p| :: !RootAt(fs, p, j)
    ensures r.None? <==> forall k | 0 <= k <= |p| :: !RootAt(fs, p, k)
    decreases |p|
  {
    if |p| == 0 || !IsDir(fs, p) then
      NoRootBelowNonDir(fs, p);
      None
    else if IsDir(fs, p + [".git"]) then
      assert p[..|p|] == p;
      assert RootAt(fs, p, |p|);
      Some(p)
    else
      var r := GetGitRoot(fs, Parent(p));
      GitRootStep(fs, p, r);
      r
  }

  /** Without a directory at `p` (or at the root) no candidate exists. */
  lemma NoRootBelowNonDir<C>(fs: FileSystem<C>, p: Path)
    requires |p| == 0 || !IsDir(fs, p)
    ensures forall k | 0 <= k <= |p| :: !RootAt(fs, p, k)
  {
    assert p[..|p|] == p;
  }

  lemma GitRootStep<C>(fs: FileSystem<C>, p: Path, r: Option<Path>)
    requires |p| > 0 && IsDir(fs, p) && !IsDir(fs, p + [".git"])
    requires var q := p[..|p| - 1];
      && (r.Some? ==> exists k | 1 <= k <= |q| ::
            r.value == q[..k] && RootAt(fs, q, k) && forall j | k < j <= |q| :: !RootAt(fs, q, j))
      && (r.None? <==> forall k | 0 <= k <= |q| :: !RootAt(fs, q, k))
    ensures r.Some? ==> exists k | 1 <= k <= |p| ::
      r.value == p[..k] && RootAt(fs, p, k) && forall j | k < j <= |p| :: !RootAt(fs, p, j)
    ensures r.None? <==> forall k | 0 <= k <= |p| :: !RootAt(fs, p, k)
  {
    var q := p[..|p| - 1];
    assert p[..|p|] == p;
    assert !RootAt(fs, p, |p|);
    forall k | 0 <= k <= |q| ensures RootAt(fs, q, k) <==> RootAt(fs, p, k) {
      assert forall j | 0 <= j <= |q| :: q[..j] == p[..j];
    }
    if r.Some? {
      var k :| 1 <= k <= |q| && r.value == q[..k] && RootAt(fs, q, k)
        && forall j | k < j <= |q| :: !RootAt(fs, q, j);
      assert r.value == p[..k];
      assert forall j | k < j <= |p| :: !RootAt(fs, p, j) by {
        forall j | k < j <= |p| ensures !RootAt(fs, p, j) {
          if j < |p| {
            assert !RootAt(fs, q, j);
          }
        }
      }
    }
  }

  /** `Git(cwd=cwd, detect_root=...)`: the working directory of the object.
      With root detection a path outside any work tree raises
      `NoGitRepoError`; without it the given path is kept. A missing `git`
      binary raises `GitBinNotFoundError`, after the root check. */
  function GitInit<C>(fs: FileSystem<C>, cwd: Path, detectRoot: bool, gitBinFound: bool): (r: Result<Path>)
    ensures detectRoot && GetGitRoot(fs, cwd).None? ==> r == Err(NoGitRepo)
    ensures !(detectRoot && GetGitRoot(fs, cwd).None?) && !gitBinFound ==> r == Err(GitBinNotFound)
    ensures r.Ok? <==> gitBinFound && (!detectRoot || GetGitRoot(fs, cwd).Some?)
    ensures r.Ok? && !detectRoot ==> r.value == cwd
    ensures r.Ok? && detectRoot ==> IsAncestorOrSelf(r.value, cwd) && IsDir(fs, r.value + [".git"])
  {
    var root :-
      if detectRoot then
        match GetGitRoot(fs, cwd)
        case None => Err(NoGitRepo)
        case Some(q) => Ok(q)
      else Ok(cwd);
    if !gitBinFound then Err(GitBinNotFound) else Ok(root)
  }

  /** `get_current_hash()`: the stripped output of `git rev-parse --short`;
      an output that is empty or only whitespace is an `AssertionError`. */
  function CurrentHash(output: string): (r: Result<string>)
    ensures r.Err? <==> AllSpace(output)
    ensures r.Err? ==> r.error == AssertionFailed
    ensures r.Ok? ==> |r.value| > 0 && !IsSpace(r.value[0]) && !IsSpace(r.value[|r.value| - 1])
    ensures r.Ok? ==> |r.value| <= |output|
    ensures r.Ok? ==> Trimmed(output, r.value)
  {
    var rev := Strip(output);
    if |rev| > 0 then Ok(rev) else Err(AssertionFailed)
  }

  /** What `git` prints, a hash followed by a newline, gives back exactly
      the hash. */
  lemma CurrentHashOfLine(hash: string)
    requires |hash| > 0 && !IsSpace(hash[0]) && !IsSpace(hash[|hash| - 1])
    ensures CurrentHash(hash + "\n") == Ok(hash)
  {
    var s := hash + "\n";
    assert s[0] == hash[0];
    assert LStrip(s) == s;
    assert s[|s| - 1] == '\n';
    assert s[..|s| - 1] == hash;
    RStripNewline(hash);
    assert Strip(s) == hash;
  }

  lemma RStripNewline(hash: string)
    requires |hash| > 0 && !IsSpace(hash[|hash| - 1])
    ensures RStrip(hash + "\n") == hash
  {
    var s := hash + "\n";
    assert IsSpace(s[|s| - 1]);
    assert s[..|s| - 1] == hash;
  }
}

=== FILE: overwrite.dfy ===
/** Updating a project by overwriting it with a fresh rendering of its
    template. Rendering and `git status` are left out: their results are
    parameters. Project and rendering are maps from paths relative to the
    project root (respectively the rendered root) to nodes. */
module Overwrite {
  import opened Wrappers
  import opened Paths
  import opened DataClasses
  import opened Git

  type Bytes = seq<bv8>

  /** The project tree, by path relative to the project root. */
  type Project = FileSystem<Bytes>

  /** One item of `rglob('*')` over the rendered tree, by relative path. */
  datatype Rendered = Rendered(path: Path, node: Node<Bytes>)

  /** One line of `git status`: flag and file path. */
  datatype StatusEntry = StatusEntry(flag: string, path: string)

  predicate DistinctPaths(rendered: seq<Rendered>) {
    forall i, j | 0 <= i < j < |rendered| :: rendered[i].path != rendered[j].path
  }

  /** `a` is a proper ancestor of `b`, below the root. */
  predicate ProperPrefix(a: Path, b: Path) {
    0 < |a| < |b| && b[..|a|] == a
  }

  /** The rendering is a real tree: no rendered file lies below another
      rendered file. */
  predicate TreeShaped(rendered: seq<Rendered>) {
    forall i, j | 0 <= i < |rendered| && 0 <= j < |rendered| ::
      rendered[i].node.File? && rendered[j].node.File? ==> !ProperPrefix(rendered[i].path, rendered[j].path)
  }

  /** The project is a real tree: every proper ancestor of an entry is a
      directory. */
  ghost predicate Consistent(project: Project) {
    forall p, k | p in project && 0 < k < |p| :: p[..k] in project && project[p[..k]].Dir?
  }

  /** `p` is the path of a rendered file. */
  ghost predicate RenderedFile(rendered: seq<Rendered>, p: Path) {
    exists i | 0 <= i < |rendered| :: rendered[i].path == p && rendered[i].node.File?
  }

  /** Some proper ancestor of `p` is in the project but is not a directory. */
  predicate UnderNonDir(p: Path, project: Project) {
    exists k | 0 < k < |p| :: p[..k] in project && !project[p[..k]].Dir?
  }

  /** What copying the rendered file `e` raises: `NotADirectoryError` below
      a non-directory (the existence test is false there, and `copyfile`
      fails), `IsADirectoryError` onto a directory. */
  function CopyFailure(e: Rendered, project: Project): Option<Failure> {
    if UnderNonDir(e.path, project) then Some(NotADirectory)
    else if e.path in project && project[e.path].Dir? then Some(IsADirectory)
    else None
  }

  /** The failure of the first rendered file that cannot be copied into
      `project` as it is before the loop. */
  ghost function FirstFailure(rendered: seq<Rendered>, project: Project): Option<Failure>
    decreases |rendered|
  {
    if |rendered| == 0 then None
    else if rendered[0].node.File? && CopyFailure(rendered[0], project).Some? then CopyFailure(rendered[0], project)
    else FirstFailure(rendered[1..], project)
  }

  /** The rendered files that are new or whose content differs. */
  ghost function Changed(rendered: seq<Rendered>, project: Project): set<Path> {
    set i | 0 <= i < |rendered| && rendered[i].node.File?
              && (rendered[i].path !in project || project[rendered[i].path] != rendered[i].node)
      :: rendered[i].path
  }

  /** A missing proper ancestor of some rendered file: `mkdir(parents=True)`
      creates it. */
  ghost predicate Created(rendered: seq<Rendered>, project: Project, p: Path) {
    p !in project && exists i | 0 <= i < |rendered| && rendered[i].node.File? :: ProperPrefix(p, rendered[i].path)
  }

  function Ancestors(p: Path): set<Path> {
    set k | 0 < k < |p| :: p[..k]
  }

  /** The directories `mkdir(parents=True)` creates below the project root
      for a file at `p`. */
  function MissingDirs(p: Path, project: Project): map<Path, Node<Bytes>> {
    map a | a in Ancestors(p) && a !in project :: Dir
  }

  /** One copy: the missing ancestors become directories and the file gets
      the rendered content. */
  function Copy(e: Rendered, project: Project): Project {
    (project + MissingDirs(e.path, project))[e.path := e.node]
  }

  /** The copy loop of `overwrite_project`: each rendered file that is
      missing from the project is copied in (its missing parent directories
      are created first), one that is byte-identical is skipped, one that
      differs overwrites the project file; non-files are ignored. The first
      file that cannot be copied raises its error. Returns the new project
      tree and the number of files copied. */
  function Merge(rendered: seq<Rendered>, project: Project): (r: Result<(Project, nat)>)
    requires DistinctPaths(rendered) && TreeShaped(rendered) && Consistent(project)
    ensures r.Err? <==> FirstFailure(rendered, project).Some?
    ensures r.Err? ==> r.error == FirstFailure(rendered, project).value
    ensures r.Ok? ==> Merged(rendered, project, r.value.0) && Consistent(r.value.0)
    ensures r.Ok? ==> r.value.1 == |Changed(rendered, project)|
    decreases |rendered|
  {
    if |rendered| == 0 then
      assert Changed(rendered, project) == {};
      Ok((project, 0))
    else
      var e := rendered[0];
      var rest := rendered[1..];
      TailFacts(rendered);
      if e.node.File? && CopyFailure(e, project).Some? then
        Err(CopyFailure(e, project).value)
      else if !e.node.File? || (e.path in project && project[e.path] == e.node) then
        var r := Merge(rest, project);
        MergeSkip(rendered, project);
        if r.Ok? then MergedSkip(rendered, project, r.value.0); r else r
      else
        var q := Copy(e, project);
        CopyConsistent(e, project);
        var r := Merge(rest, q);
        MergeCopy(rendered, project);
        match r
        case Err(err) => Err(err)
        case Ok(res) =>
          MergedCopy(rendered, project, res.0);
          Ok((res.0, res.1 + 1))
  }

  /** `out` is `project` with every rendered file copied in: each rendered
      file is there with the rendered content, the missing ancestors of the
      rendered files are new directories, nothing else is added, and every
      other project entry keeps its node. */
  ghost predicate Merged(rendered: seq<Rendered>, project: Project, out: Project) {
    && (forall i | 0 <= i < |rendered| && rendered[i].node.File? ::
          rendered[i].path in out && out[rendered[i].path] == rendered[i].node)
    && (forall p :: p in out <==> p in project || RenderedFile(rendered, p) || Created(rendered, project, p))
    && (forall p | Created(rendered, project, p) :: p in out && out[p].Dir?)
    && (forall p | p in project && !RenderedFile(rendered, p) :: p in out && out[p] == project[p])
  }

  /** The tail of a rendering is a rendering, and its entries lie apart
      from the head. */
  lemma TailFacts(rendered: seq<Rendered>)
    requires |rendered| > 0 && DistinctPaths(rendered) && TreeShaped(rendered)
    ensures DistinctPaths(rendered[1..]) && TreeShaped(rendered[1..])
    ensures forall j | 0 <= j < |rendered| - 1 :: rendered[1..][j] == rendered[j + 1]
    ensures forall j | 0 <= j < |rendered| - 1 :: rendered[1..][j].path != rendered[0].path
    ensures rendered[0].node.File? ==> forall j | 0 <= j < |rendered| - 1 && rendered[1..][j].node.File? ::
      !ProperPrefix(rendered[1..][j].path, rendered[0].path) && !ProperPrefix(rendered[0].path, rendered[1..][j].path)
  {
    var rest := rendered[1..];
    assert forall j | 0 <= j < |rest| :: rest[j] == rendered[j + 1];
  }

  /** Entries that are neither the copied file nor one of its ancestors
      are untouched by the copy. */
  lemma EntryKept(e: Rendered, project: Project, a: Path)
    requires a != e.path && !ProperPrefix(a, e.path)
    ensures a in Copy(e, project) <==> a in project
    ensures a in project ==> Copy(e, project)[a] == project[a]
  {
    AncestorsIff(e.path, a);
  }

  /** The ancestors of `p` are exactly its proper prefixes. */
  lemma AncestorsIff(p: Path, a: Path)
    ensures a in Ancestors(p) <==> ProperPrefix(a, p)
  {
    if ProperPrefix(a, p) {
      assert a == p[..|a|];
    }
  }

  /** The missing ancestors of the copied file become directories. */
  lemma AncestorMade(e: Rendered, project: Project, a: Path)
    requires ProperPrefix(a, e.path)
    ensures a in Copy(e, project)
    ensures a !in project ==> Copy(e, project)[a].Dir?
    ensures a in project ==> Copy(e, project)[a] == project[a]
  {
    AncestorsIff(e.path, a);
  }

  /** A copy that does not fail keeps the project a real tree. */
  lemma CopyConsistent(e: Rendered, project: Project)
    requires Consistent(project) && e.node.File? && CopyFailure(e, project).None?
    ensures Consistent(Copy(e, project))
  {
    var q := Copy(e, project);
    forall p, k | p in q && 0 < k < |p| ensures p[..k] in q && q[p[..k]].Dir? {
      var a := p[..k];
      if p == e.path || ProperPrefix(p, e.path) {
        assert ProperPrefix(a, e.path) by {
          assert e.path[..|a|] == a;
        }
        AncestorMade(e, project, a);
        if a in project {
          assert !project[a].Dir? ==> UnderNonDir(e.path, project) by {
            assert a == e.path[..|a|];
          }
        }
      } else {
        EntryKept(e, project, p);
        assert p in project;
        assert a in project && project[a].Dir?;
        if a == e.path {
          assert false;
        } else if ProperPrefix(a, e.path) {
          AncestorMade(e, project, a);
        } else {
          EntryKept(e, project, a);
        }
      }
    }
  }

  /** A copy leaves the failure of a file apart from it unchanged. */
  lemma CopyFailureKept(e: Rendered, project: Project, x: Rendered)
    requires x.path != e.path && !ProperPrefix(x.path, e.path) && !ProperPrefix(e.path, x.path)
    ensures CopyFailure(x, Copy(e, project)) == CopyFailure(x, project)
  {
    var q := Copy(e, project);
    EntryKept(e, project, x.path);
    forall k | 0 < k < |x.path|
      ensures (x.path[..k] in q && !q[x.path[..k]].Dir?) <==> (x.path[..k] in project && !project[x.path[..k]].Dir?)
    {
      var a := x.path[..k];
      if a == e.path {
        assert ProperPrefix(e.path, x.path);
      } else if ProperPrefix(a, e.path) {
        AncestorMade(e, project, a);
      } else {
        EntryKept(e, project, a);
      }
    }
    assert UnderNonDir(x.path, q) <==> UnderNonDir(x.path, project);
  }

  /** Failures judged against two projects agree when each file's failure does. */
  lemma {:induction false} FirstFailureSame(rendered: seq<Rendered>, p1: Project, p2: Project)
    requires forall j | 0 <= j < |rendered| && rendered[j].node.File? ::
      CopyFailure(rendered[j], p1) == CopyFailure(rendered[j], p2)
    ensures FirstFailure(rendered, p1) == FirstFailure(rendered, p2)
    decreases |rendered|
  {
    if |rendered| > 0 {
      var rest := rendered[1..];
      assert forall j | 0 <= j < |rest| :: rest[j] == rendered[j + 1];
      FirstFailureSame(rest, p1, p2);
    }
  }

  /** A rendering fails exactly when one of its files cannot be copied. */
  lemma {:induction false} FirstFailureIff(rendered: seq<Rendered>, project: Project)
    ensures FirstFailure(rendered, project).Some? <==>
      exists i | 0 <= i < |rendered| && rendered[i].node.File? :: CopyFailure(rendered[i], project).Some?
    decreases |rendered|
  {
    if |rendered| > 0 {
      var rest := rendered[1..];
      FirstFailureIff(rest, project);
      if exists i | 0 <= i < |rendered| && rendered[i].node.File? :: CopyFailure(rendered[i], project).Some? {
        var i :| 0 <= i < |rendered| && rendered[i].node.File? && CopyFailure(rendered[i], project).Some?;
        if i > 0 {
          assert rest[i - 1] == rendered[i];
        }
      }
      if exists i | 0 <= i < |rest| && rest[i].node.File? :: CopyFailure(rest[i], project).Some? {
        var i :| 0 <= i < |rest| && rest[i].node.File? && CopyFailure(rest[i], project).Some?;
        assert rendered[i + 1] == rest[i];
      }
    }
  }

  /** A file that is already in a real tree can be copied there. */
  lemma PresentNoFailure(x: Rendered, project: Project)
    requires Consistent(project) && x.path in project && !project[x.path].Dir?
    ensures CopyFailure(x, project).None?
  {
    if UnderNonDir(x.path, project) {
      assert false;
    }
  }

  /** A skipped head changes neither the failure nor the changed files. */
  lemma MergeSkip(rendered: seq<Rendered>, project: Project)
    requires |rendered| > 0 && Consistent(project)
    requires !rendered[0].node.File? || (rendered[0].path in project && project[rendered[0].path] == rendered[0].node)
    ensures FirstFailure(rendered, project) == FirstFailure(rendered[1..], project)
    ensures Changed(rendered, project) == Changed(rendered[1..], project)
  {
    var e := rendered[0];
    var rest := rendered[1..];
    if e.node.File? {
      PresentNoFailure(e, project);
    }
    assert forall i | 0 < i < |rendered| :: rendered[i] == rest[i - 1];
    forall p | p in Changed(rendered, project) ensures p in Changed(rest, project) {
      var i :| 0 <= i < |rendered| && rendered[i].node.File?
        && (rendered[i].path !in project || project[rendered[i].path] != rendered[i].node)
        && rendered[i].path == p;
      assert i > 0;
      assert rest[i - 1] == rendered[i];
    }
  }

  /** A copied head leaves the rest's failure as it was and is one more
      changed file. */
  lemma MergeCopy(rendered: seq<Rendered>, project: Project)
    requires |rendered| > 0 && DistinctPaths(rendered) && TreeShaped(rendered)
    requires rendered[0].node.File? && CopyFailure(rendered[0], project).None?
    requires !(rendered[0].path in project && project[rendered[0].path] == rendered[0].node)
    ensures var q := Copy(rendered[0], project);
      && FirstFailure(rendered, project) == FirstFailure(rendered[1..], q)
      && |Changed(rendered, project)| == |Changed(rendered[1..], q)| + 1
  {
    var e := rendered[0];
    var rest := rendered[1..];
    var q := Copy(e, project);
    TailFacts(rendered);
    forall j | 0 <= j < |rest| && rest[j].node.File?
      ensures CopyFailure(rest[j], project) == CopyFailure(rest[j], q)
    {
      CopyFailureKept(e, project, rest[j]);
    }
    FirstFailureSame(rest, project, q);
    ChangedRest(rendered, project);
    ChangedCopy(rendered, project);
    var changed := Changed(rest, project);
    assert e.path !in changed;
    assert |{e.path} + changed| == |changed| + 1;
  }

  /** The copy does not change which of the rest's files are changed, and
      the head is not among them. */
  lemma ChangedRest(rendered: seq<Rendered>, project: Project)
    requires |rendered| > 0 && DistinctPaths(rendered) && TreeShaped(rendered) && rendered[0].node.File?
    ensures Changed(rendered[1..], Copy(rendered[0], project)) == Changed(rendered[1..], project)
    ensures rendered[0].path !in Changed(rendered[1..], project)
  {
    var e := rendered[0];
    var rest := rendered[1..];
    TailFacts(rendered);
    forall j | 0 <= j < |rest| && rest[j].node.File?
      ensures rest[j].path in Copy(e, project) <==> rest[j].path in project
      ensures rest[j].path in project ==> Copy(e, project)[rest[j].path] == project[rest[j].path]
    {
      EntryKept(e, project, rest[j].path);
    }
  }

  /** The copied head is changed; the rest is changed as before. */
  lemma ChangedCopy(rendered: seq<Rendered>, project: Project)
    requires |rendered| > 0 && rendered[0].node.File?
    requires !(rendered[0].path in project && project[rendered[0].path] == rendered[0].node)
    ensures Changed(rendered, project) == {rendered[0].path} + Changed(rendered[1..], project)
  {
    var e := rendered[0];
    var rest := rendered[1..];
    assert forall i | 0 < i < |rendered| :: rendered[i] == rest[i - 1];
    forall p | p in Changed(rendered, project) ensures p in {e.path} + Changed(rest, project) {
      var i :| 0 <= i < |rendered| && rendered[i].node.File?
        && (rendered[i].path !in project || project[rendered[i].path] != rendered[i].node)
        && rendered[i].path == p;
      if i > 0 {
        assert rest[i - 1] == rendered[i];
      }
    }
    assert e.path in Changed(rendered, project);
  }

  /** Rendered files and created directories of a rendering, split into
      its head and tail. */
  lemma SplitFacts(rendered: seq<Rendered>, project: Project, p: Path)
    requires |rendered| > 0
    ensures RenderedFile(rendered, p) <==>
      (p == rendered[0].path && rendered[0].node.File?) || RenderedFile(rendered[1..], p)
    ensures Created(rendered, project, p) <==>
      p !in project && ((rendered[0].node.File? && ProperPrefix(p, rendered[0].path))
                        || exists i | 0 <= i < |rendered| - 1 && rendered[1..][i].node.File? ::
                             ProperPrefix(p, rendered[1..][i].path))
  {
    var rest := rendered[1..];
    assert forall i | 0 <= i < |rest| :: rest[i] == rendered[i + 1];
    if RenderedFile(rendered, p) {
      var i :| 0 <= i < |rendered| && rendered[i].path == p && rendered[i].node.File?;
      if i > 0 {
        assert rest[i - 1] == rendered[i];
      }
    }
    if Created(rendered, project, p) {
      var i :| 0 <= i < |rendered| && rendered[i].node.File? && ProperPrefix(p, rendered[i].path);
      if i > 0 {
        assert rest[i - 1] == rendered[i];
      }
    }
  }

  lemma MergedSkip(rendered: seq<Rendered>, project: Project, out: Project)
    requires |rendered| > 0 && DistinctPaths(rendered) && Consistent(project)
    requires !rendered[0].node.File? || (rendered[0].path in project && project[rendered[0].path] == rendered[0].node)
    requires Merged(rendered[1..], project, out)
    ensures Merged(rendered, project, out)
  {
    var e := rendered[0];
    var rest := rendered[1..];
    assert forall i | 0 < i < |rendered| :: rendered[i] == rest[i - 1];
    forall p
      ensures RenderedFile(rendered, p) <==> (p == e.path && e.node.File?) || RenderedFile(rest, p)
      ensures Created(rendered, project, p) <==> Created(rest, project, p)
    {
      SplitFacts(rendered, project, p);
      if e.node.File? && ProperPrefix(p, e.path) {
        assert p == e.path[..|p|];
      }
    }
    if e.node.File? {
      assert !RenderedFile(rest, e.path);
    }
  }

  lemma MergedCopy(rendered: seq<Rendered>, project: Project, out: Project)
    requires |rendered| > 0 && DistinctPaths(rendered) && TreeShaped(rendered) && rendered[0].node.File?
    requires Merged(rendered[1..], Copy(rendered[0], project), out)
    ensures Merged(rendered, project, out)
  {
    var e := rendered[0];
    var rest := rendered[1..];
    var q := Copy(e, project);
    TailFacts(rendered);
    assert forall i | 0 < i < |rendered| :: rendered[i] == rest[i - 1];
    assert !RenderedFile(rest, e.path);
    MergedCopyDomain(rendered, project, out);
    forall p | Created(rendered, project, p) ensures p in out && out[p].Dir? {
      SplitFacts(rendered, project, p);
      MadeDirKept(rendered, project, out, p);
    }
    forall p | p in project && !RenderedFile(rendered, p) ensures p in out && out[p] == project[p] {
      SplitFacts(rendered, project, p);
      if ProperPrefix(p, e.path) {
        AncestorMade(e, project, p);
        assert !RenderedFile(rest, p);
      } else {
        EntryKept(e, project, p);
      }
    }
  }

  /** The domain clause of `Merged` across a copied head. */
  lemma MergedCopyDomain(rendered: seq<Rendered>, project: Project, out: Project)
    requires |rendered| > 0 && DistinctPaths(rendered) && TreeShaped(rendered) && rendered[0].node.File?
    requires Merged(rendered[1..], Copy(rendered[0], project), out)
    ensures forall p :: p in out <==> p in project || RenderedFile(rendered, p) || Created(rendered, project, p)
  {
    var e := rendered[0];
    var rest := rendered[1..];
    var q := Copy(e, project);
    forall p ensures p in out <==> p in project || RenderedFile(rendered, p) || Created(rendered, project, p) {
      SplitFacts(rendered, project, p);
      SplitFacts(rendered, q, p);
      if p == e.path {
        assert p in q;
      } else if ProperPrefix(p, e.path) {
        AncestorMade(e, project, p);
      } else {
        EntryKept(e, project, p);
      }
    }
  }

  /** A directory the copy of the head or of a later file creates is still
      a directory at the end. */
  lemma MadeDirKept(rendered: seq<Rendered>, project: Project, out: Project, p: Path)
    requires |rendered| > 0 && DistinctPaths(rendered) && TreeShaped(rendered) && rendered[0].node.File?
    requires Merged(rendered[1..], Copy(rendered[0], project), out)
    requires Created(rendered, project, p)
    ensures p in out && out[p].Dir?
  {
    var e := rendered[0];
    var rest := rendered[1..];
    var q := Copy(e, project);
    TailFacts(rendered);
    SplitFacts(rendered, project, p);
    SplitFacts(rendered, q, p);
    assert !RenderedFile(rest, p) by {
      if RenderedFile(rest, p) {
        assert false;
      }
    }
    if ProperPrefix(p, e.path) {
      AncestorMade(e, project, p);
    } else if p in q {
      EntryKept(e, project, p);
      assert false;
    }
  }

  /** `overwrite_project(...)`: a non-empty `git status` exits with code 1
      before anything else. The rendered template repository must be a
      directory inside a git repository (the `git` binary must be found),
      and its current revision is read from `hashOutput`. The rendering is
      then merged, and the result is an `OverwriteResult` exactly when some
      file was copied. */
  function OverwriteProject(
    status: seq<StatusEntry>, fs: FileSystem<Bytes>, repoPath: Path, gitBinFound: bool,
    rendered: seq<Rendered>, project: Project, hashOutput: string, toCommitDate: DateTime)
    : (r: Result<(Option<SyncResult>, Project)>)
    requires DistinctPaths(rendered) && TreeShaped(rendered) && Consistent(project)
    ensures |status| > 0 ==> r == Err(SystemExit(1))
    ensures |status| == 0 && !IsDir(fs, repoPath) ==> r == Err(NotADirectory)
    ensures |status| == 0 && IsDir(fs, repoPath) && GitInit(fs, repoPath, true, gitBinFound).Err? ==>
      r == Err(GitInit(fs, repoPath, true, gitBinFound).error)
    ensures r.Ok? ==> GitInit(fs, repoPath, true, gitBinFound).Ok? && CurrentHash(hashOutput).Ok?
    ensures r.Ok? ==> Merge(rendered, project).Ok? && r.value.1 == Merge(rendered, project).value.0
    ensures r.Ok? ==> (r.value.0.Some? <==> |Changed(rendered, project)| > 0)
    ensures r.Ok? && r.value.0.Some? ==>
      r.value.0 == Some(OverwriteResult(CurrentHash(hashOutput).value, toCommitDate))
    ensures (|status| == 0 && IsDir(fs, repoPath) && GitInit(fs, repoPath, true, gitBinFound).Ok?
             && CurrentHash(hashOutput).Ok?) ==>
      && (r.Ok? <==> FirstFailure(rendered, project).None?)
      && (r.Err? ==> r.error == FirstFailure(rendered, project).value)
  {
    if |status| > 0 then Err(SystemExit(1))
    else if !IsDir(fs, repoPath) then Err(NotADirectory)
    else
      var _ :- GitInit(fs, repoPath, true, gitBinFound);
      var toRev :- CurrentHash(hashOutput);
      var merged :- Merge(rendered, project);
      var result := if merged.1 > 0 then Some(OverwriteResult(toRev, toCommitDate)) else None;
      Ok((result, merged.0))
  }

  /** Overwriting is idempotent: merging the same rendering into the merged
      tree copies nothing and changes nothing, so a second update reports
      no result. */
  lemma MergeIdempotent(rendered: seq<Rendered>, project: Project)
    requires DistinctPaths(rendered) && TreeShaped(rendered) && Consistent(project)
    requires Merge(rendered, project).Ok?
    ensures Merge(rendered, Merge(rendered, project).value.0) == Ok((Merge(rendered, project).value.0, 0))
  {
    var merged := Merge(rendered, project).value.0;
    forall j | 0 <= j < |rendered| && rendered[j].node.File?
      ensures CopyFailure(rendered[j], merged).None?
    {
      PresentNoFailure(rendered[j], merged);
    }
    FirstFailureIff(rendered, merged);
    var m := Merge(rendered, merged);
    assert m.Ok?;
    NothingChanged(rendered, merged);
    MergedSelf(rendered, merged, m.value.0);
  }

  /** A tree that already holds every rendered file has nothing to change. */
  lemma NothingChanged(rendered: seq<Rendered>, out: Project)
    requires forall i | 0 <= i < |rendered| && rendered[i].node.File? ::
      rendered[i].path in out && out[rendered[i].path] == rendered[i].node
    ensures Changed(rendered, out) == {}
  {
  }

  /** Merging into a tree that already holds the rendering gives that tree. */
  lemma MergedSelf(rendered: seq<Rendered>, merged: Project, again: Project)
    requires Consistent(merged) && Merged(rendered, merged, again)
    requires forall i | 0 <= i < |rendered| && rendered[i].node.File? ::
      rendered[i].path in merged && merged[rendered[i].path] == rendered[i].node
    ensures again == merged
  {
    forall p, i | 0 <= i < |rendered| && rendered[i].node.File? && ProperPrefix(p, rendered[i].path)
      ensures p in merged
    {
      assert p == rendered[i].path[..|p|];
    }
    forall p | p in merged ensures p in again && again[p] == merged[p] {
      if RenderedFile(rendered, p) {
        var i :| 0 <= i < |rendered| && rendered[i].path == p && rendered[i].node.File?;
      }
    }
    assert again.Keys == merged.Keys;
  }
}

=== FILE: patching.dfy ===
/** Synthesis of the update patch between two revisions of a template.
    Rendering a revision and diffing two rendered trees are left out: they
    are function parameters (`render`, `diff`), and git's answers are
    parameters too. */
module Patching {
  import opened Wrappers
  import opened PyStr
  import opened Paths
  import opened Context
  import opened DataClasses
  import opened Git

  /** A rendered template: relative path to node. */
  type Tree = FileSystem<string>

  /** `GenerateTemplatePatchResult` as `patching.py` defines it. */
  datatype PatchResult = PatchResult(
    patchFilePath: Path,
    fromRev: string,
    fromRevPath: Path,
    compiledFromPath: Path,
    toRev: string,
    toCommitDate: DateTime,
    toRevPath: Path,
    compiledToPath: Path)

  /** A generated patch: the result record and the text written to
      `patchFilePath`. */
  datatype Generated = Generated(result: PatchResult, patch: string)

  function PatchFileName(fromRev: string, toRev: string): string {
    fromRev + "_" + toRev + ".patch"
  }

  /** `repo_path / '.manageprojects' / 'patches' / '<from>_<to>.patch'`. */
  function PatchFilePath(repoPath: Path, fromRev: string, toRev: string): (p: Path)
    ensures IsAncestorOrSelf(repoPath, p) && |p| == |repoPath| + 3
  {
    var p := repoPath + [".manageprojects", "patches", PatchFileName(fromRev, toRev)];
    assert p[..|repoPath|] == repoPath;
    p
  }

  predicate NoUnderscore(s: string) {
    forall i | 0 <= i < |s| :: s[i] != '_'
  }

  /** Distinct revision pairs get distinct patch files, as long as the
      first revision has no `_` (git hashes have none). */
  lemma PatchFileNameInjective(f1: string, t1: string, f2: string, t2: string)
    requires NoUnderscore(f1) && NoUnderscore(f2)
    requires PatchFileName(f1, t1) == PatchFileName(f2, t2)
    ensures f1 == f2 && t1 == t2
  {
    var n := PatchFileName(f1, t1);
    assert n == f1 + ("_" + t1 + ".patch");
    assert n == f2 + ("_" + t2 + ".patch");
    assert n[|f1|] == '_' && n[|f2|] == '_';
    assert f1 == n[..|f1|] == f2;
    assert t1 == n[|f1| + 1..|n| - 6] == t2;
  }

  /** `path.name`; empty for the root. */
  function Name(p: Path): string {
    if |p| == 0 then "" else p[|p| - 1]
  }

  /** The two rewrites of the diff's file prefixes: every
      `a<compiled_from_path>/` becomes `a/`, then every
      `b<compiled_to_path>/` becomes `b/`; each prefix must occur (in the
      text as it is at that point), else an assertion fails. */
  function RewritePrefixes(diff: string, compiledFrom: Path, compiledTo: Path): (r: Result<string>)
    ensures var fromStr := "a" + PathStr(compiledFrom) + "/";
      var toStr := "b" + PathStr(compiledTo) + "/";
      && (r.Err? <==> !Contains(diff, fromStr) || !Contains(Join(Split(diff, fromStr), "a/"), toStr))
      && (r.Err? ==> r.error == AssertionFailed)
      && (r.Ok? ==> r.value == Join(Split(Join(Split(diff, fromStr), "a/"), toStr), "b/"))
  {
    var fromStr := "a" + PathStr(compiledFrom) + "/";
    var toStr := "b" + PathStr(compiledTo) + "/";
    ReplaceIsJoinOfSplit(diff, fromStr, "a/");
    if !Contains(diff, fromStr) then Err(AssertionFailed)
    else
      var patch := Replace(diff, fromStr, "a/");
      ReplaceIsJoinOfSplit(patch, toStr, "b/");
      if !Contains(patch, toStr) then Err(AssertionFailed)
      else Ok(Replace(patch, toStr, "b/"))
  }

  /** `generate_template_patch(project_path, repo_path, from_rev,
      replay_context)`. The template repository's root is detected (the
      `git` binary must be found), its current revision is read from
      `hashOutput`, and equal revisions end with `None`. Otherwise both
      revisions are rendered with the same context below `tempPath`, an
      empty diff ends with `None`, and a non-empty one is rewritten and
      becomes the patch. */
  function GenerateTemplatePatch(
    fs: FileSystem<string>, repoPath: Path, fromRev: string, replayContext: seq<Entry>,
    gitBinFound: bool, hashOutput: string, toCommitDate: DateTime, tempPath: Path,
    render: (string, seq<Entry>) -> Tree, diff: (Tree, Path, Tree, Path) -> string)
    : (r: Result<Option<Generated>>)
    ensures GitInit(fs, repoPath, true, gitBinFound).Err? ==> r == Err(GitInit(fs, repoPath, true, gitBinFound).error)
    ensures GitInit(fs, repoPath, true, gitBinFound).Ok? && AllSpace(hashOutput) ==> r == Err(AssertionFailed)
    ensures r.Ok? ==> CurrentHash(hashOutput).Ok?
    ensures r.Ok? && CurrentHash(hashOutput).value == fromRev ==> r.value.None?
    ensures r.Ok? && r.value.Some? ==>
      var toRev := CurrentHash(hashOutput).value;
      var g := r.value.value;
      var compiledFrom := tempPath + [fromRev + "_compiled"];
      var compiledTo := tempPath + [toRev + "_compiled"];
      var d := diff(render(fromRev, replayContext), compiledFrom, render(toRev, replayContext), compiledTo);
      && toRev != fromRev
      && |d| > 0
      && g.result == PatchResult(PatchFilePath(repoPath, fromRev, toRev), fromRev,
                                 tempPath + [fromRev, Name(repoPath)], compiledFrom,
                                 toRev, toCommitDate,
                                 tempPath + [toRev, Name(repoPath)], compiledTo)
      && RewritePrefixes(d, compiledFrom, compiledTo) == Ok(g.patch)
    ensures GitInit(fs, repoPath, true, gitBinFound).Ok? && CurrentHash(hashOutput).Ok? ==>
      var toRev := CurrentHash(hashOutput).value;
      var compiledFrom := tempPath + [fromRev + "_compiled"];
      var compiledTo := tempPath + [toRev + "_compiled"];
      var d := diff(render(fromRev, replayContext), compiledFrom, render(toRev, replayContext), compiledTo);
      && (toRev == fromRev || |d| == 0 ==> r == Ok(None))
      && (toRev != fromRev && |d| > 0 ==>
            && (r.Ok? <==> RewritePrefixes(d, compiledFrom, compiledTo).Ok?)
            && (r.Ok? ==> r.value.Some?)
            && (r.Err? ==> r.error == AssertionFailed))
  {
    var _ :- GitInit(fs, repoPath, true, gitBinFound);
    var toRev :- CurrentHash(hashOutput);
    if fromRev == toRev then Ok(None)
    else
      var patchFilePath := PatchFilePath(repoPath, fromRev, toRev);
      var templateName := Name(repoPath);
      var fromRevPath := tempPath + [fromRev, templateName];
      var toRevPath := tempPath + [toRev, templateName];
      var compiledFrom := tempPath + [fromRev + "_compiled"];
      var compiledTo := tempPath + [toRev + "_compiled"];
      var d := diff(render(fromRev, replayContext), compiledFrom, render(toRev, replayContext), compiledTo);
      if |d| == 0 then Ok(None)
      else
        var patch :- RewritePrefixes(d, compiledFrom, compiledTo);
        Ok(Some(Generated(
          PatchResult(patchFilePath, fromRev, fromRevPath, compiledFrom,
                      toRev, toCommitDate, toRevPath, compiledTo),
          patch)))
  }

  /** When both revisions render to the same tree and the diff of a tree
      with itself is empty, no patch is produced. */
  lemma SameRenderingNoPatch(
    fs: FileSystem<string>, repoPath: Path, fromRev: string, replayContext: seq<Entry>,
    gitBinFound: bool, hashOutput: string, toCommitDate: DateTime, tempPath: Path,
    render: (string, seq<Entry>) -> Tree, diff: (Tree, Path, Tree, Path) -> string)
    requires forall rev :: render(rev, replayContext) == render(fromRev, replayContext)
    requires forall t: Tree, p: Path, q: Path :: diff(t, p, t, q) == ""
    ensures var r := GenerateTemplatePatch(fs, repoPath, fromRev, replayContext, gitBinFound,
                                           hashOutput, toCommitDate, tempPath, render, diff);
      r.Ok? ==> r.value.None?
  {
    if GitInit(fs, repoPath, true, gitBinFound).Ok? && CurrentHash(hashOutput).Ok? {
      var toRev := CurrentHash(hashOutput).value;
      var tree := render(fromRev, replayContext);
      assert render(toRev, replayContext) == tree;
      var compiledFrom := tempPath + [fromRev + "_compiled"];
      var compiledTo := tempPath + [toRev + "_compiled"];
      DiffOfSameTree(diff, tree, compiledFrom, compiledTo);
    }
  }

  lemma DiffOfSameTree(diff: (Tree, Path, Tree, Path) -> string, t: Tree, p: Path, q: Path)
    requires forall t: Tree, p: Path, q: Path :: diff(t, p, t, q) == ""
    ensures diff(t, p, t, q) == ""
  {
  }
}

=== FILE: paths.dfy ===
/** Absolute file-system paths and an abstract file system.

    A path is the sequence of its components below the root: `/` is `[]`
    and `/a/b` is `["a", "b"]`, so Python's `len(path.parts)` is `|p| + 1`.
    The file system maps each existing path to its node; a file carries
    its content, whose type is a parameter (text or bytes). */
module Paths {

  type Path = seq<string>

  datatype Node<C> = File(content: C) | Dir | Other

  type FileSystem<C> = map<Path, Node<C>>

  /** `path.parent`; the root is its own parent. */
  function Parent(p: Path): (r: Path)
    ensures |p| > 0 ==> |r| == |p| - 1
    ensures |p| == 0 ==> r == p
  {
    if |p| == 0 then p else p[..|p| - 1]
  }

  /** `path / name`. */
  function Child(p: Path, name: string): Path {
    p + [name]
  }

  /** `a` is `b` or one of its ancestors. */
  predicate IsAncestorOrSelf(a: Path, b: Path) {
    |a| <= |b| && b[..|a|] == a
  }

  predicate Exists<C>(fs: FileSystem<C>, p: Path) {
    p in fs
  }

  predicate IsFile<C>(fs: FileSystem<C>, p: Path) {
    p in fs && fs[p].File?
  }

  predicate IsDir<C>(fs: FileSystem<C>, p: Path) {
    p in fs && fs[p].Dir?
  }

  /** `str(path)` of an absolute path. */
  function PathStr(p: Path): (r: string)
    ensures |r| >= 1 && r[0] == '/'
  {
    if |p| == 0 then "/" else ComponentsStr(p)
  }

  function ComponentsStr(p: Path): (r: string)
    requires |p| > 0
    ensures |r| >= 1 && r[0] == '/'
  {
    if |p| == 1 then "/" + p[0] else "/" + p[0] + ComponentsStr(p[1..])
  }
}

=== FILE: project_setup.dfy ===
/** The project-setup checks that the maximal line length agrees across
    `pyproject.toml`, `.editorconfig` and `.flake8`. The parsed files are
    parameters: the TOML document as a `Value`, the EditorConfig
    properties of a file as a map, the `.flake8` file as a map of
    sections. */
module ProjectSetup {
  import opened Wrappers
  import opened PyStr
  import opened Paths
  import opened Context
  import opened PyProjectToml
  import FormatFile

  // ---------------------------------------------------------------------------
  // deep_check_max_line_length

  predicate IsLengthKey(key: string) {
    key == "line_length" || key == "max_line_length"
  }

  /** Python's `value == n` for an integer `n`: `True` and `False` equal 1
      and 0, strings and dictionaries never equal a number. */
  predicate EqualsInt(v: Value, n: int) {
    match v
    case Int(i) => i == n
    case Bool(b) => (if b then 1 else 0) == n
    case Str(_) => false
    case Dict(_) => false
  }

  /** The value reached from `v` by following entry positions through
      nested dictionaries. */
  function Sub(v: Value, path: seq<nat>): (r: Option<Value>)
    decreases |path|
  {
    if |path| == 0 then Some(v)
    else match v
      case Dict(es) => if path[0] < |es| then Sub(es[path[0]].value, path[1..]) else None
      case _ => None
  }

  /** Every dictionary reachable from `data` holds `n` under each of its
      length keys. */
  ghost predicate LengthsAgree(data: Value, n: int) {
    forall path: seq<nat>, es: seq<Entry>, i: nat |
      Sub(data, path) == Some(Dict(es)) && i < |es| && IsLengthKey(es[i].key) ::
      EqualsInt(es[i].value, n)
  }

  /** A dictionary agrees exactly when each of its own length keys holds
      `n` and each dictionary value agrees. */
  lemma LengthsAgreeUnfold(es: seq<Entry>, n: int)
    ensures LengthsAgree(Dict(es), n) <==>
      forall j | 0 <= j < |es| ::
        (IsLengthKey(es[j].key) ==> EqualsInt(es[j].value, n))
        && (es[j].value.Dict? ==> LengthsAgree(es[j].value, n))
  {
    var d := Dict(es);
    forall j, p: seq<nat> | 0 <= j < |es| ensures Sub(d, [j] + p) == Sub(es[j].value, p) {
      assert ([j] + p)[1..] == p;
    }
    if LengthsAgree(d, n) {
      forall j | 0 <= j < |es| && es[j].value.Dict? ensures LengthsAgree(es[j].value, n) {
        forall p: seq<nat>, es2: seq<Entry>, i: nat |
          Sub(es[j].value, p) == Some(Dict(es2)) && i < |es2| && IsLengthKey(es2[i].key)
          ensures EqualsInt(es2[i].value, n)
        {
          assert Sub(d, [j] + p) == Some(Dict(es2));
        }
      }
      assert Sub(d, []) == Some(d);
    }
    if forall j | 0 <= j < |es| ::
        (IsLengthKey(es[j].key) ==> EqualsInt(es[j].value, n))
        && (es[j].value.Dict? ==> LengthsAgree(es[j].value, n))
    {
      forall p: seq<nat>, es2: seq<Entry>, i: nat |
        Sub(d, p) == Some(Dict(es2)) && i < |es2| && IsLengthKey(es2[i].key)
        ensures EqualsInt(es2[i].value, n)
      {
        if |p| > 0 {
          var j := p[0];
          assert p == [j] + p[1..];
          assert Sub(es[j].value, p[1..]) == Some(Dict(es2));
          if |p| == 1 {
            assert es[j].value == Dict(es2);
          }
          assert es[j].value.Dict?;
        }
      }
    }
  }

  /** `deep_check_max_line_length(data, n, path)`: `data` must be a
      dictionary; every `line_length` or `max_line_length` key, at any
      depth of nested dictionaries, must equal `n`. Fails with an
      assertion exactly when that does not hold. */
  method DeepCheckMaxLineLength(data: Value, n: int) returns (r: Result<()>)
    ensures r.Err? ==> r.error == AssertionFailed
    ensures r.Ok? <==> data.Dict? && LengthsAgree(data, n)
    decreases data
  {
    if !data.Dict? {
      return Err(AssertionFailed);
    }
    var es := data.entries;
    LengthsAgreeUnfold(es, n);
    var k := 0;
    while k < |es|
      invariant 0 <= k <= |es|
      invariant forall j | 0 <= j < k ::
        (IsLengthKey(es[j].key) ==> EqualsInt(es[j].value, n))
        && (es[j].value.Dict? ==> LengthsAgree(es[j].value, n))
    {
      var e := es[k];
      if IsLengthKey(e.key) && !EqualsInt(e.value, n) {
        return Err(AssertionFailed);
      }
      if e.value.Dict? {
        assert e in es;
        var sub := DeepCheckMaxLineLength(e.value, n);
        if sub.Err? {
          return sub;
        }
      }
      k := k + 1;
    }
    return Ok(());
  }

  // ---------------------------------------------------------------------------
  // check_project_max_line_length

  /** `check_project_max_line_length(package_root, n)`: the root must be a
      directory and `70 < n < 200`; a `pyproject.toml` file, when there is
      one, is parsed (`pyproject`) and deep-checked. */
  method CheckProjectMaxLineLength(fs: FileSystem<string>, packageRoot: Path, n: int, pyproject: Value)
    returns (r: Result<()>)
    requires pyproject.Dict?
    ensures !IsDir(fs, packageRoot) ==> r == Err(NotADirectory)
    ensures IsDir(fs, packageRoot) && !(70 < n < 200) ==> r == Err(AssertionFailed)
    ensures IsDir(fs, packageRoot) && 70 < n < 200 && !IsFile(fs, packageRoot + [PyProjectName]) ==> r == Ok(())
    ensures r.Ok? ==> IsDir(fs, packageRoot) && 70 < n < 200
    ensures IsDir(fs, packageRoot) && 70 < n < 200 && IsFile(fs, packageRoot + [PyProjectName]) ==>
      (r.Ok? <==> LengthsAgree(pyproject, n))
    ensures r.Err? ==> r.error == NotADirectory || r.error == AssertionFailed
  {
    if !IsDir(fs, packageRoot) {
      return Err(NotADirectory);
    }
    if !(70 < n < 200) {
      return Err(AssertionFailed);
    }
    if !IsFile(fs, packageRoot + [PyProjectName]) {
      return Ok(());
    }
    r := DeepCheckMaxLineLength(pyproject, n);
  }

  // ---------------------------------------------------------------------------
  // get_py_max_line_length, check_flake8_max_line_length

  /** `get_py_max_line_length(package_root)` on the EditorConfig
      properties of a Python file: `KeyError` without `max_line_length`,
      else `int()` of its value (`toInt`, `None` for a `ValueError`). */
  function GetPyMaxLineLength(options: map<string, string>, toInt: string -> Option<int>): (r: Result<int>)
    ensures "max_line_length" !in options <==> r == Err(KeyNotFound)
    ensures "max_line_length" in options ==>
      (r.Ok? <==> toInt(options["max_line_length"]).Some?)
      && (r.Ok? ==> Some(r.value) == toInt(options["max_line_length"]))
      && (r.Err? ==> r.error == ValueRejected)
  {
    if "max_line_length" !in options then Err(KeyNotFound)
    else
      match toInt(options["max_line_length"])
      case None => Err(ValueRejected)
      case Some(i) => Ok(i)
  }

  /** The two readers of the EditorConfig length agree on a non-empty
      value; a missing key is an error here and no length for the
      formatter. */
  lemma EditorconfigReadersAgree(options: map<string, string>, toInt: string -> Option<int>)
    ensures "max_line_length" in options && options["max_line_length"] != "" ==>
      && (GetPyMaxLineLength(options, toInt).Ok? <==> FormatFile.GetEditorconfigMaxLineLength(Some(options), toInt).Ok?)
      && (GetPyMaxLineLength(options, toInt).Ok? ==>
            FormatFile.GetEditorconfigMaxLineLength(Some(options), toInt) == Ok(Some(GetPyMaxLineLength(options, toInt).value)))
    ensures "max_line_length" !in options ==>
      GetPyMaxLineLength(options, toInt).Err? && FormatFile.GetEditorconfigMaxLineLength(Some(options), toInt) == Ok(None)
  {
  }

  /** `check_flake8_max_line_length(package_root, n)`: without a `.flake8`
      file nothing is checked; otherwise its `[flake8]` section must define
      `max-line-length` (`KeyError` if not), as the text `str(n)`. */
  function CheckFlake8MaxLineLength(
    fs: FileSystem<string>, packageRoot: Path, n: int, config: map<string, map<string, string>>)
    : (r: Result<()>)
    ensures !IsFile(fs, packageRoot + [".flake8"]) ==> r == Ok(())
    ensures IsFile(fs, packageRoot + [".flake8"]) ==>
      && (("flake8" !in config || "max-line-length" !in config["flake8"]) <==> r == Err(KeyNotFound))
      && ("flake8" in config && "max-line-length" in config["flake8"] ==>
            (r.Ok? <==> config["flake8"]["max-line-length"] == IntToString(n))
            && (r.Err? ==> r.error == AssertionFailed))
  {
    if !IsFile(fs, packageRoot + [".flake8"]) then Ok(())
    else if "flake8" !in config || "max-line-length" !in config["flake8"] then Err(KeyNotFound)
    else if config["flake8"]["max-line-length"] != IntToString(n) then Err(AssertionFailed)
    else Ok(())
  }

  /** A `.flake8` value that passes is read back by `int()` as `n`, and no
      two lengths pass with the same value. */
  lemma Flake8ValueDeterminesLength(
    fs: FileSystem<string>, packageRoot: Path, n: int, m: int, config: map<string, map<string, string>>)
    requires IsFile(fs, packageRoot + [".flake8"])
    requires CheckFlake8MaxLineLength(fs, packageRoot, n, config).Ok?
    ensures var v := config["flake8"]["max-line-length"];
      |v| >= 1 && (if v[0] == '-' then AllDigits(v[1..]) else AllDigits(v)) && ParseInt(v) == n
    ensures CheckFlake8MaxLineLength(fs, packageRoot, m, config).Ok? ==> m == n
  {
    ParseIntToString(n);
    if CheckFlake8MaxLineLength(fs, packageRoot, m, config).Ok? {
      IntToStringInjective(n, m);
    }
  }

  // ---------------------------------------------------------------------------
  // check_editor_config

  /** A `RuntimeWarning` of `check_editor_config`: a key the defaults
      expect is missing for a kind of file, or has another value. */
  datatype Warning = Missing(file: string, key: string) | Differs(file: string, key: string, expected: string, current: string)

  /** The warnings for one example file. */
  function OptionWarnings(file: string, defaults: seq<(string, string)>, options: map<string, string>)
    : (w: seq<Warning>)
    ensures |w| <= |defaults|
    ensures forall x | x in w :: x.file == file
    ensures forall i | 0 <= i < |defaults| && defaults[i].0 !in options :: Missing(file, defaults[i].0) in w
    ensures forall i | 0 <= i < |defaults| && defaults[i].0 in options && options[defaults[i].0] != defaults[i].1 ::
      Differs(file, defaults[i].0, defaults[i].1, options[defaults[i].0]) in w
    ensures forall x | x in w :: exists i | 0 <= i < |defaults| ::
      || (defaults[i].0 !in options && x == Missing(file, defaults[i].0))
      || (defaults[i].0 in options && options[defaults[i].0] != defaults[i].1
          && x == Differs(file, defaults[i].0, defaults[i].1, options[defaults[i].0]))
  {
    if |defaults| == 0 then []
    else
      var (key, value) := defaults[0];
      var here :=
        if key !in options then [Missing(file, key)]
        else if options[key] != value then [Differs(file, key, value, options[key])]
        else [];
      var rest := OptionWarnings(file, defaults[1..], options);
      assert forall i | 1 <= i < |defaults| :: defaults[i] == defaults[1..][i - 1];
      here + rest
  }

  /** The warnings for all example files, in order. */
  function EditorConfigWarnings(
    defaults: seq<(string, seq<(string, string)>)>, options: string -> map<string, string>)
    : (w: seq<Warning>)
    ensures forall x | x in w :: exists i | 0 <= i < |defaults| :: x.file == defaults[i].0
    ensures forall x :: x in w <==> exists i | 0 <= i < |defaults| ::
      x in OptionWarnings(defaults[i].0, defaults[i].1, options(defaults[i].0))
  {
    if |defaults| == 0 then []
    else
      var here := OptionWarnings(defaults[0].0, defaults[0].1, options(defaults[0].0));
      var rest := EditorConfigWarnings(defaults[1..], options);
      assert forall i | 1 <= i < |defaults| :: defaults[i] == defaults[1..][i - 1];
      here + rest
  }

  /** `check_editor_config(package_root, config_defaults)`: the root must be a
      directory holding an `.editorconfig` file; the defaults give the
      warnings; then the length from EditorConfig for Python files must
      pass the project and `.flake8` checks. `options(name)` are the
      EditorConfig properties of `package_root / name`. */
  method CheckEditorConfig(
    fs: FileSystem<string>, packageRoot: Path, defaults: seq<(string, seq<(string, string)>)>,
    options: string -> map<string, string>, toInt: string -> Option<int>,
    pyproject: Value, flake8: map<string, map<string, string>>)
    returns (r: Result<seq<Warning>>)
    requires pyproject.Dict?
    ensures !IsDir(fs, packageRoot) ==> r == Err(NotADirectory)
    ensures IsDir(fs, packageRoot) && !IsFile(fs, packageRoot + [".editorconfig"]) ==> r == Err(FileNotFound)
    ensures r.Ok? ==> r.value == EditorConfigWarnings(defaults, options)
    ensures r.Ok? ==>
      var n := GetPyMaxLineLength(options("foobar.py"), toInt);
      && n.Ok? && 70 < n.value < 200
      && (IsFile(fs, packageRoot + [PyProjectName]) ==> LengthsAgree(pyproject, n.value))
      && CheckFlake8MaxLineLength(fs, packageRoot, n.value, flake8).Ok?
    ensures IsDir(fs, packageRoot) && IsFile(fs, packageRoot + [".editorconfig"]) ==>
      var n := GetPyMaxLineLength(options("foobar.py"), toInt);
      && (n.Err? ==> r == Err(n.error))
      && (n.Ok? && !(70 < n.value < 200) ==> r == Err(AssertionFailed))
      && (n.Ok? && 70 < n.value < 200
          && (IsFile(fs, packageRoot + [PyProjectName]) ==> LengthsAgree(pyproject, n.value))
          && CheckFlake8MaxLineLength(fs, packageRoot, n.value, flake8).Ok?
          ==> r == Ok(EditorConfigWarnings(defaults, options)))
    ensures r.Err? ==> r.error in {NotADirectory, FileNotFound, KeyNotFound, ValueRejected, AssertionFailed}
  {
    if !IsDir(fs, packageRoot) {
      return Err(NotADirectory);
    }
    if !IsFile(fs, packageRoot + [".editorconfig"]) {
      return Err(FileNotFound);
    }
    var warnings := EditorConfigWarnings(defaults, options);
    var n := GetPyMaxLineLength(options("foobar.py"), toInt);
    if n.Err? {
      return Err(n.error);
    }
    var project := CheckProjectMaxLineLength(fs, packageRoot, n.value, pyproject);
    if project.Err? {
      return Err(project.error);
    }
    var flake := CheckFlake8MaxLineLength(fs, packageRoot, n.value, flake8);
    if flake.Err? {
      return Err(flake.error);
    }
    return Ok(warnings);
  }
}

=== FILE: pyproject_toml.dfy ===
/** The provenance record: the `[manageprojects]` table of a project's
    `pyproject.toml`, and the search for a `pyproject.toml` above a path.

    The table is an abstract record, one optional field per key. The rest of
    the document is an opaque map of the other top-level tables, which the
    operations here carry along untouched. */
module PyProjectToml {
  import opened Wrappers
  import opened PyStr
  import opened Paths
  import opened Context
  import opened DataClasses

  /** The `[manageprojects]` table; `None` means the key is absent. */
  datatype MpTable = MpTable(
    initialRevision: Option<string>,
    initialDate: Option<DateTime>,
    template: Option<string>,
    directory: Option<string>,
    context: Option<seq<Entry>>,
    migrations: Option<seq<string>>)

  const EmptyTable := MpTable(None, None, None, None, None, None)

  /** A parsed `pyproject.toml`: the `[manageprojects]` table, if present,
      and every other top-level table. */
  datatype Doc = Doc(others: map<string, Value>, mp: Option<MpTable>)

  /** A `PyProjectToml` object: the document with its table guaranteed. */
  datatype Store = Store(others: map<string, Value>, mp: MpTable)

  /** `PyProjectToml(project_path)`: reads the existing document (`file` is
      `None` when there is no `pyproject.toml`) and inserts a fresh empty
      `[manageprojects]` table when the table is absent or empty. */
  function Open(file: Option<Doc>): (s: Store)
    ensures file.None? ==> s == Store(map[], EmptyTable)
    ensures file.Some? ==> s.others == file.value.others
    ensures file.Some? && file.value.mp.Some? ==> s.mp == file.value.mp.value
    ensures file.Some? && file.value.mp.None? ==> s.mp == EmptyTable
  {
    match file
    case None => Store(map[], EmptyTable)
    case Some(d) =>
      match d.mp
      case Some(t) => Store(d.others, t)
      case None => Store(d.others, EmptyTable)
  }

  /** The constructor checks that the project path is a directory. */
  function OpenAt(fs: FileSystem<string>, projectPath: Path, file: Option<Doc>): (r: Result<Store>)
    ensures r.Err? <==> !IsDir(fs, projectPath)
    ensures r.Err? ==> r.error == NotADirectory
    ensures r.Ok? ==> r.value == Open(file)
  {
    if !IsDir(fs, projectPath) then Err(NotADirectory) else Ok(Open(file))
  }

  /** `save()`: the document written back; reading it again gives the same
      store, and the other tables are exactly those that were read. */
  function Save(s: Store): (d: Doc)
    ensures d.others == s.others
    ensures Open(Some(d)) == s
  {
    Doc(s.others, Some(s.mp))
  }

  // ---------------------------------------------------------------------------
  // init

  /** `init(revision, dt, template, directory)`: asserts that none of
      `initial_revision`, `initial_date`, `cookiecutter_template` is present
      yet and adds them; `cookiecutter_directory` is added only for a truthy
      `directory` (adding a key that exists already is refused). */
  function Init(s: Store, revision: string, dt: DateTime, template: string, directory: Option<string>)
    : (r: Result<Store>)
    ensures r == Err(AssertionFailed) <==>
      s.mp.initialRevision.Some? || s.mp.initialDate.Some? || s.mp.template.Some?
    ensures r == Err(KeyAlreadyPresent) <==>
      && s.mp.initialRevision.None? && s.mp.initialDate.None? && s.mp.template.None?
      && directory.Some? && |directory.value| > 0 && s.mp.directory.Some?
    ensures r.Err? ==> r == Err(AssertionFailed) || r == Err(KeyAlreadyPresent)
    ensures r.Ok? ==> r.value.others == s.others
    ensures r.Ok? ==>
      && r.value.mp.initialRevision == Some(revision)
      && r.value.mp.initialDate == Some(dt)
      && r.value.mp.template == Some(template)
      && r.value.mp.context == s.mp.context
      && r.value.mp.migrations == s.mp.migrations
    ensures r.Ok? && directory.Some? && |directory.value| > 0 ==> r.value.mp.directory == directory
    ensures r.Ok? && (directory.None? || |directory.value| == 0) ==> r.value.mp.directory == s.mp.directory
  {
    if s.mp.initialRevision.Some? || s.mp.initialDate.Some? || s.mp.template.Some? then
      Err(AssertionFailed)
    else
      var t := s.mp.(initialRevision := Some(revision), initialDate := Some(dt), template := Some(template));
      if directory.Some? && |directory.value| > 0 then
        if t.directory.Some? then Err(KeyAlreadyPresent)
        else Ok(s.(mp := t.(directory := directory)))
      else Ok(s.(mp := t))
  }

  /** `init` can run only once on a record. */
  lemma InitOnlyOnce(s: Store, rev1: string, dt1: DateTime, tpl1: string, dir1: Option<string>,
                     rev2: string, dt2: DateTime, tpl2: string, dir2: Option<string>)
    requires Init(s, rev1, dt1, tpl1, dir1).Ok?
    ensures Init(Init(s, rev1, dt1, tpl1, dir1).value, rev2, dt2, tpl2, dir2) == Err(AssertionFailed)
  {
  }

  // ---------------------------------------------------------------------------
  // create_or_update_cookiecutter_context

  /** Keys cookiecutter adds to its context that are not stored. */
  predicate Excluded(key: string) {
    key == "_output_dir" || key == "_repo_dir" || key == "_checkout"
  }

  /** The entries whose key is not excluded, in their order. */
  function DropExcluded(entries: seq<Entry>): (r: seq<Entry>)
    ensures |r| <= |entries|
    ensures forall e :: e in r <==> e in entries && !Excluded(e.key)
    decreases |entries|
  {
    if |entries| == 0 then []
    else
      var rest := DropExcluded(entries[1..]);
      assert forall e :: e in entries <==> e == entries[0] || e in entries[1..];
      if Excluded(entries[0].key) then rest else [entries[0]] + rest
  }

  /** Dropping the excluded keys a second time changes nothing. */
  lemma {:induction false} DropExcludedIdempotent(entries: seq<Entry>)
    ensures DropExcluded(DropExcluded(entries)) == DropExcluded(entries)
    decreases |entries|
  {
    if |entries| > 0 {
      DropExcludedIdempotent(entries[1..]);
      var rest := DropExcluded(entries[1..]);
      if !Excluded(entries[0].key) {
        assert ([entries[0]] + rest)[1..] == rest;
      }
    }
  }

  /** The context as it is stored: `{'cookiecutter': <filtered>}`. */
  function StoredContext(cc: seq<Entry>): seq<Entry> {
    [Entry("cookiecutter", Dict(DropExcluded(cc)))]
  }

  /** `create_or_update_cookiecutter_context(context)`: `context['cookiecutter']`
      (`KeyError` when missing, `AttributeError` when it is not a
      dictionary) without the excluded keys replaces the stored context. */
  function SetContext(s: Store, context: seq<Entry>): (r: Result<Store>)
    ensures r.Err? <==> Lookup(context, "cookiecutter").None? || !Lookup(context, "cookiecutter").value.Dict?
    ensures Lookup(context, "cookiecutter").None? ==> r == Err(KeyNotFound)
    ensures r.Err? && Lookup(context, "cookiecutter").Some? ==> r.error == AttributeMissing
    ensures r.Ok? ==> r.value == s.(mp := s.mp.(context := Some(StoredContext(Lookup(context, "cookiecutter").value.entries))))
  {
    match Lookup(context, "cookiecutter")
    case None => Err(KeyNotFound)
    case Some(v) =>
      if !v.Dict? then Err(AttributeMissing)
      else Ok(s.(mp := s.mp.(context := Some(StoredContext(v.entries)))))
  }

  /** The stored `cookiecutter` dictionary holds exactly the entries of the
      given one whose key is not excluded; other private keys such as
      `_template` stay. */
  lemma SetContextContents(s: Store, context: seq<Entry>, e: Entry)
    requires SetContext(s, context).Ok?
    ensures var stored := SetContext(s, context).value.mp.context.value[0].value.entries;
      e in stored <==> e in Lookup(context, "cookiecutter").value.entries && !Excluded(e.key)
  {
  }

  /** Setting the context replaces the previous one wholesale: the second
      call alone determines the result. */
  lemma SetContextReplaces(s: Store, c1: seq<Entry>, c2: seq<Entry>)
    requires SetContext(s, c1).Ok?
    ensures SetContext(SetContext(s, c1).value, c2) == SetContext(s, c2)
  {
  }

  /** Storing a context that was read back from a record stores it again
      unchanged. */
  lemma SetStoredContextAgain(s: Store, cc: seq<Entry>)
    ensures SetContext(s, StoredContext(cc)) == Ok(s.(mp := s.mp.(context := Some(StoredContext(cc)))))
  {
    DropExcludedIdempotent(cc);
  }

  // ---------------------------------------------------------------------------
  // add_applied_migrations

  /** `add_applied_migrations(git_hash, dt)`: creates the array when the key
      is absent and appends `git_hash`. An array that is present but empty
      is falsy, so the code tries to add the key again, which is refused. */
  function AddMigration(s: Store, hash: string): (r: Result<Store>)
    ensures r.Err? <==> s.mp.migrations == Some([])
    ensures r.Err? ==> r.error == KeyAlreadyPresent
    ensures r.Ok? ==> r.value.others == s.others
    ensures r.Ok? ==> r.value.mp == s.mp.(migrations := r.value.mp.migrations)
    ensures r.Ok? ==> r.value.mp.migrations == Some(s.mp.migrations.GetOr([]) + [hash])
  {
    match s.mp.migrations
    case None =>
      assert [] + [hash] == [hash];
      Ok(s.(mp := s.mp.(migrations := Some([hash]))))
    case Some(ms) =>
      if |ms| == 0 then Err(KeyAlreadyPresent)
      else Ok(s.(mp := s.mp.(migrations := Some(ms + [hash]))))
  }

  /** The migrations are append-only: one more entry, earlier ones kept. */
  lemma AddMigrationAppends(s: Store, hash: string)
    requires AddMigration(s, hash).Ok?
    ensures var before := GetMeta(s).appliedMigrations;
      var after := GetMeta(AddMigration(s, hash).value).appliedMigrations;
      |after| == |before| + 1 && after[..|before|] == before && after[|before|] == hash
  {
    var before := GetMeta(s).appliedMigrations;
    assert (before + [hash])[..|before|] == before;
  }

  // ---------------------------------------------------------------------------
  // get_mp_meta

  /** `get_mp_meta()`: the table as a `ManageProjectsMeta`. */
  function GetMeta(s: Store): (m: Meta)
    ensures s.mp.migrations.None? ==> m.appliedMigrations == []
    ensures s.mp.migrations.Some? ==> m.appliedMigrations == s.mp.migrations.value
    ensures m.initialRevision == s.mp.initialRevision && m.initialDate == s.mp.initialDate
    ensures m.template == s.mp.template && m.directory == s.mp.directory
    ensures m.context == s.mp.context
  {
    Meta(s.mp.initialRevision, s.mp.initialDate, s.mp.migrations.GetOr([]),
         s.mp.template, s.mp.directory, s.mp.context)
  }

  /** A fresh record has no revision at all. */
  lemma FreshRecordHasNoRevision()
    ensures LastGitHash(GetMeta(Open(None))) == None
    ensures GetMeta(Open(None)).appliedMigrations == []
  {
  }

  /** After `init` on a record without migrations, the current revision is
      the initial one; after adding a migration it is that migration. */
  lemma RevisionLifecycle(s: Store, rev: string, dt: DateTime, tpl: string, dir: Option<string>, hash: string)
    requires s.mp.migrations.None?
    requires Init(s, rev, dt, tpl, dir).Ok?
    ensures LastGitHash(GetMeta(Init(s, rev, dt, tpl, dir).value)) == Some(rev)
    ensures var s1 := Init(s, rev, dt, tpl, dir).value;
      AddMigration(s1, hash).Ok? && LastGitHash(GetMeta(AddMigration(s1, hash).value)) == Some(hash)
  {
    var s1 := Init(s, rev, dt, tpl, dir).value;
    var s2 := AddMigration(s1, hash).value;
    assert GetMeta(s2).appliedMigrations == [hash];
  }

  // ---------------------------------------------------------------------------
  // find_pyproject_toml / get_pyproject_toml

  const PyProjectName := "pyproject.toml"

  /** `dir / 'pyproject.toml'` is a file and is looked at, because `dir`
      itself is not a file. */
  predicate HasPyProject<C>(fs: FileSystem<C>, dir: Path) {
    !IsFile(fs, dir) && IsFile(fs, dir + [PyProjectName])
  }

  /** `find_pyproject_toml(file_path)`: walks up from `p` (a file is
      replaced by its parent first) to the first directory holding a
      `pyproject.toml` file; stops after the root. */
  function FindPyProjectToml<C>(fs: FileSystem<C>, p: Path): (r: Option<Path>)
    requires !IsFile(fs, [])
    ensures r.Some? ==> exists k | 0 <= k <= |p| ::
      r.value == p[..k] + [PyProjectName] && HasPyProject(fs, p[..k])
      && forall j | k < j <= |p| :: !HasPyProject(fs, p[..j])
    ensures r.None? <==> forall k | 0 <= k <= |p| :: !HasPyProject(fs, p[..k])
    decreases |p|
  {
    if IsFile(fs, p) then
      var r := FindPyProjectToml(fs, Parent(p));
      FindStep(fs, p, r);
      r
    else if IsFile(fs, p + [PyProjectName]) then
      assert p[..|p|] == p;
      Some(p + [PyProjectName])
    else if |p| > 0 then
      var r := FindPyProjectToml(fs, Parent(p));
      FindStep(fs, p, r);
      r
    else
      assert forall k | 0 <= k <= |p| :: p[..k] == p;
      None
  }

  /** The step from `p` to its parent when `p` itself has no
      `pyproject.toml` to offer. */
  lemma FindStep<C>(fs: FileSystem<C>, p: Path, r: Option<Path>)
    requires |p| > 0 && !HasPyProject(fs, p)
    requires var q := p[..|p| - 1];
      && (r.Some? ==> exists k | 0 <= k <= |q| ::
            r.value == q[..k] + [PyProjectName] && HasPyProject(fs, q[..k])
            && forall j | k < j <= |q| :: !HasPyProject(fs, q[..j]))
      && (r.None? <==> forall k | 0 <= k <= |q| :: !HasPyProject(fs, q[..k]))
    ensures r.Some? ==> exists k | 0 <= k <= |p| ::
      r.value == p[..k] + [PyProjectName] && HasPyProject(fs, p[..k])
      && forall j | k < j <= |p| :: !HasPyProject(fs, p[..j])
    ensures r.None? <==> forall k | 0 <= k <= |p| :: !HasPyProject(fs, p[..k])
  {
    var q := p[..|p| - 1];
    assert forall k | 0 <= k <= |q| :: q[..k] == p[..k];
    assert p[..|p|] == p;
    if r.Some? {
      var k :| 0 <= k <= |q| && r.value == q[..k] + [PyProjectName] && HasPyProject(fs, q[..k])
        && forall j | k < j <= |q| :: !HasPyProject(fs, q[..j]);
      assert forall j | k < j <= |p| :: !HasPyProject(fs, p[..j]) by {
        forall j | k < j <= |p| ensures !HasPyProject(fs, p[..j]) {
          if j < |p| {
            assert !HasPyProject(fs, q[..j]);
          }
        }
      }
    }
  }

  /** `get_pyproject_toml(file_path=...)`: searches from the given path, or
      from the working directory when none is given, and raises
      `NoPyProjectTomlFound` when the search finds nothing. */
  function GetPyProjectToml<C>(fs: FileSystem<C>, filePath: Option<Path>, cwd: Path): (r: Result<Path>)
    requires !IsFile(fs, [])
    ensures var start := filePath.GetOr(cwd);
      && (r.Ok? <==> FindPyProjectToml(fs, start).Some?)
      && (r.Ok? ==> Some(r.value) == FindPyProjectToml(fs, start) && IsFile(fs, r.value))
      && (r.Err? ==> r.error == NoPyProjectTomlFound)
  {
    var start := filePath.GetOr(cwd);
    match FindPyProjectToml(fs, start)
    case None => Err(NoPyProjectTomlFound)
    case Some(path) => Ok(path)
  }
}

=== FILE: pystr.dfy ===
/** The parts of Python's `str` semantics the modelled code relies on:
    `replace`, `split`/`join`, `in`, `startswith`, `strip`, `str(int)` and
    ASCII `lower`. Strings are `seq<char>`. */
module PyStr {

  /** Concatenation regroups freely. */
  lemma ConcatAssoc<T>(a: seq<T>, b: seq<T>, c: seq<T>)
    ensures a + (b + c) == (a + b) + c
  {
  }

  /** Dropping the first element of a concatenation drops it from the
      left part. */
  lemma TailOfConcat<T>(a: seq<T>, b: seq<T>)
    requires |a| > 0
    ensures (a + b)[1..] == a[1..] + b
  {
  }

  /** `prefix` is a prefix of `s` (`s.startswith(prefix)`). */
  predicate StartsWith(s: string, prefix: string) {
    |prefix| <= |s| && s[..|prefix|] == prefix
  }

  /** `sub in s`: `sub` occurs as a contiguous part of `s`. The empty string
      occurs in every string. */
  predicate Contains(s: string, sub: string)
    decreases |s|
  {
    StartsWith(s, sub) || (|s| > 0 && Contains(s[1..], sub))
  }

  lemma {:induction false} ContainsAt(s: string, sub: string, i: nat)
    requires i + |sub| <= |s| && s[i..i + |sub|] == sub
    ensures Contains(s, sub)
    decreases i
  {
    if i > 0 {
      assert s[1..][i - 1..i - 1 + |sub|] == s[i..i + |sub|];
      ContainsAt(s[1..], sub, i - 1);
    }
  }

  // ---------------------------------------------------------------------------
  // str.replace

  /** `s.replace("", new)`: Python inserts `new` before every character and
      once more at the end. */
  function ReplaceEmpty(s: string, repl: string): (r: string)
    ensures |r| == |s| + (|s| + 1) * |repl|
  {
    if |s| == 0 then repl else repl + [s[0]] + ReplaceEmpty(s[1..], repl)
  }

  /** `s.replace(old, new)` for a non-empty `old`: the occurrences of `old`
      are found left to right without overlapping and each is replaced. */
  function ReplaceNonEmpty(s: string, pat: string, repl: string): string
    requires |pat| > 0
    decreases |s|
  {
    if |s| < |pat| then s
    else if s[..|pat|] == pat then repl + ReplaceNonEmpty(s[|pat|..], pat, repl)
    else [s[0]] + ReplaceNonEmpty(s[1..], pat, repl)
  }

  /** Python's `s.replace(old, new)`. */
  function Replace(s: string, pat: string, repl: string): string {
    if |pat| == 0 then ReplaceEmpty(s, repl) else ReplaceNonEmpty(s, pat, repl)
  }

  /** `s.split(sep)` for a non-empty separator. */
  function Split(s: string, sep: string): (r: seq<string>)
    requires |sep| > 0
    ensures |r| >= 1
    decreases |s|
  {
    if |s| < |sep| then [s]
    else if s[..|sep|] == sep then [""] + Split(s[|sep|..], sep)
    else
      var rest := Split(s[1..], sep);
      [[s[0]] + rest[0]] + rest[1..]
  }

  /** `sep.join(parts)`. */
  function Join(parts: seq<string>, sep: string): string
    decreases |parts|
  {
    if |parts| == 0 then ""
    else if |parts| == 1 then parts[0]
    else parts[0] + sep + Join(parts[1..], sep)
  }

  lemma JoinConsHead(c: char, parts: seq<string>, sep: string)
    requires |parts| >= 1
    ensures Join([[c] + parts[0]] + parts[1..], sep) == [c] + Join(parts, sep)
  {
    var q := [[c] + parts[0]] + parts[1..];
    assert q[1..] == parts[1..];
  }

  /** Python documents `s.replace(old, new)` as `new.join(s.split(old))` for a
      non-empty `pat`; the scanning definition above agrees with it. */
  lemma {:induction false} ReplaceIsJoinOfSplit(s: string, pat: string, repl: string)
    requires |pat| > 0
    ensures Replace(s, pat, repl) == Join(Split(s, pat), repl)
    decreases |s|
  {
    if |s| < |pat| {
    } else if s[..|pat|] == pat {
      ReplaceIsJoinOfSplit(s[|pat|..], pat, repl);
      var rest := Split(s[|pat|..], pat);
      assert ([""] + rest)[1..] == rest;
    } else {
      ReplaceIsJoinOfSplit(s[1..], pat, repl);
      JoinConsHead(s[0], Split(s[1..], pat), repl);
    }
  }

  /** Replacing a string that does not occur leaves the text unchanged. */
  lemma {:induction false} ReplaceAbsent(s: string, pat: string, repl: string)
    requires !Contains(s, pat)
    ensures Replace(s, pat, repl) == s
    decreases |s|
  {
    if |s| >= |pat| {
      assert |pat| > 0 && s[..|pat|] != pat;
      ReplaceAbsent(s[1..], pat, repl);
      assert [s[0]] + s[1..] == s;
    }
  }

  /** Replacing a string by itself leaves the text unchanged. */
  lemma {:induction false} ReplaceSelf(s: string, x: string)
    ensures Replace(s, x, x) == s
    decreases |s|
  {
    if |x| == 0 {
      ReplaceEmptyNothing(s);
    } else if |s| >= |x| {
      if s[..|x|] == x {
        ReplaceSelf(s[|x|..], x);
        assert s[..|x|] + s[|x|..] == s;
      } else {
        ReplaceSelf(s[1..], x);
        assert [s[0]] + s[1..] == s;
      }
    }
  }

  lemma {:induction false} ReplaceEmptyNothing(s: string)
    ensures ReplaceEmpty(s, "") == s
    decreases |s|
  {
    if |s| > 0 {
      ReplaceEmptyNothing(s[1..]);
      assert [s[0]] + s[1..] == s;
    }
  }

  // ---------------------------------------------------------------------------
  // str.strip

  /** The characters for which Python's `str.isspace()` is true. */
  predicate IsSpace(c: char) {
    c == ' ' || ('\t' <= c <= '\r') || ('\U{1c}' <= c <= '\U{1f}')
    || c == '\U{85}' || c == '\U{a0}' || c == '\U{1680}'
    || ('\U{2000}' <= c <= '\U{200a}') || c == '\U{2028}' || c == '\U{2029}'
    || c == '\U{202f}' || c == '\U{205f}' || c == '\U{3000}'
  }

  predicate AllSpace(s: string) {
    forall k | 0 <= k < |s| :: IsSpace(s[k])
  }

  /** `s.lstrip()`: drops the leading whitespace. */
  function LStrip(s: string): (r: string)
    ensures |r| <= |s| && r == s[|s| - |r|..]
    ensures AllSpace(s[..|s| - |r|])
    ensures |r| > 0 ==> !IsSpace(r[0])
    decreases |s|
  {
    if |s| > 0 && IsSpace(s[0]) then LStrip(s[1..]) else s
  }

  /** `s.rstrip()`: drops the trailing whitespace. */
  function RStrip(s: string): (r: string)
    ensures |r| <= |s| && r == s[..|r|]
    ensures AllSpace(s[|r|..])
    ensures |r| > 0 ==> !IsSpace(r[|r| - 1])
    decreases |s|
  {
    if |s| > 0 && IsSpace(s[|s| - 1]) then RStrip(s[..|s| - 1]) else s
  }

  /** `r` is a slice of `s` with only whitespace around it. */
  predicate Trimmed(s: string, r: string) {
    exists i | 0 <= i <= |s| - |r| :: r == s[i..i + |r|] && AllSpace(s[..i]) && AllSpace(s[i + |r|..])
  }

  /** `s.strip()`: the text between the leading and the trailing whitespace;
      empty exactly when `s` is whitespace only. */
  function Strip(s: string): (r: string)
    ensures |r| <= |s|
    ensures r == [] <==> AllSpace(s)
    ensures |r| > 0 ==> !IsSpace(r[0]) && !IsSpace(r[|r| - 1])
    ensures Trimmed(s, r)
  {
    var l := LStrip(s);
    var r := RStrip(l);
    StripTrimmed(s, l, r);
    StripEmpty(s, l, r);
    assert |r| > 0 ==> r[0] == l[0];
    r
  }

  /** Cutting the leading, then the trailing whitespace leaves a slice with
      only whitespace around it. */
  lemma StripTrimmed(s: string, l: string, r: string)
    requires l == LStrip(s) && r == RStrip(l)
    ensures Trimmed(s, r)
  {
    var i := |s| - |l|;
    assert s[i..] == l;
    assert s[i..i + |r|] == l[..|r|];
    assert s[i + |r|..] == l[|r|..];
  }

  /** Stripping leaves nothing exactly when all is whitespace. */
  lemma StripEmpty(s: string, l: string, r: string)
    requires l == LStrip(s) && r == RStrip(l)
    ensures r == [] <==> AllSpace(s)
  {
    if r == [] {
      StripEmptyAllSpace(s, l);
    }
    if AllSpace(s) && l != [] {
      assert false;
    }
  }

  lemma StripEmptyAllSpace(s: string, l: string)
    requires l == LStrip(s) && AllSpace(l)
    ensures AllSpace(s)
  {
    var i := |s| - |l|;
    SpaceConcat(s[..i], l);
    assert s[..i] + l == s;
  }

  lemma SpaceConcat(a: string, b: string)
    requires AllSpace(a) && AllSpace(b)
    ensures AllSpace(a + b)
  {
    forall k | 0 <= k < |a + b| ensures IsSpace((a + b)[k]) {
      if k < |a| {
        assert (a + b)[k] == a[k];
      } else {
        assert (a + b)[k] == b[k - |a|];
      }
    }
  }

  // ---------------------------------------------------------------------------
  // str(int)

  function DigitChar(d: nat): (c: char)
    requires d < 10
    ensures '0' <= c <= '9'
  {
    "0123456789"[d]
  }

  function DigitValue(c: char): nat
    requires '0' <= c <= '9'
  {
    (c as int - '0' as int) as nat
  }

  predicate AllDigits(s: string) {
    forall k | 0 <= k < |s| :: '0' <= s[k] <= '9'
  }

  /** `str(n)` for a natural number: decimal digits without leading zeros. */
  function NatToString(n: nat): (r: string)
    ensures |r| >= 1 && AllDigits(r)
    ensures r[0] == '0' ==> n == 0
    decreases n
  {
    if n < 10 then [DigitChar(n)] else NatToString(n / 10) + [DigitChar(n % 10)]
  }

  /** Reads a string of decimal digits as a number. */
  function ParseNat(s: string): nat
    requires AllDigits(s)
    decreases |s|
  {
    if |s| == 0 then 0 else ParseNat(s[..|s| - 1]) * 10 + DigitValue(s[|s| - 1])
  }

  lemma {:induction false} ParseNatToString(n: nat)
    ensures ParseNat(NatToString(n)) == n
    decreases n
  {
    var s := NatToString(n);
    if n < 10 {
      assert DigitValue(DigitChar(n)) == n;
    } else {
      ParseNatToString(n / 10);
      assert s[..|s| - 1] == NatToString(n / 10);
      assert DigitValue(DigitChar(n % 10)) == n % 10;
    }
  }

  /** `str(i)` for any integer. */
  function IntToString(i: int): (r: string)
    ensures |r| >= 1
    ensures i < 0 <==> r[0] == '-'
  {
    if i < 0 then "-" + NatToString(-i) else NatToString(i)
  }

  /** `int(s)` for the strings `str` produces. */
  function ParseInt(s: string): int
    requires |s| >= 1
    requires if s[0] == '-' then AllDigits(s[1..]) else AllDigits(s)
  {
    if s[0] == '-' then -(ParseNat(s[1..]) as int) else ParseNat(s)
  }

  /** `int(str(i)) == i`: printing loses nothing. */
  lemma ParseIntToString(i: int)
    ensures var s := IntToString(i);
      (if s[0] == '-' then AllDigits(s[1..]) else AllDigits(s)) && ParseInt(s) == i
  {
    var s := IntToString(i);
    if i < 0 {
      assert s == "-" + NatToString(-i);
      ParseNegative(-i);
    } else {
      assert s == NatToString(i);
      ParseNonNegative(i);
    }
  }

  lemma ParseNegative(n: nat)
    ensures var s := "-" + NatToString(n);
      AllDigits(s[1..]) && ParseInt(s) == -(n as int)
  {
    var digits := NatToString(n);
    var s := "-" + digits;
    assert s[0] == '-' && s[1..] == digits;
    ParseNatToString(n);
  }

  lemma ParseNonNegative(n: nat)
    ensures var s := NatToString(n);
      s[0] != '-' && AllDigits(s) && ParseInt(s) == n
  {
    ParseNatToString(n);
  }

  /** Distinct integers print differently. */
  lemma IntToStringInjective(i: int, j: int)
    requires IntToString(i) == IntToString(j)
    ensures i == j
  {
    ParseIntToString(i);
    ParseIntToString(j);
  }

  // ---------------------------------------------------------------------------
  // str.lower on ASCII text

  function LowerChar(c: char): char {
    if 'A' <= c <= 'Z' then (c as int + 32) as char else c
  }

  /** `s.lower()` restricted to the ASCII letters. */
  function LowerAscii(s: string): (r: string)
    ensures |r| == |s|
    ensures forall k | 0 <= k < |s| :: r[k] == LowerChar(s[k])
  {
    seq(|s|, k requires 0 <= k < |s| => LowerChar(s[k]))
  }
}

=== FILE: subprocess_utils.dfy ===
/** `argv2str`: how a command line is shown before it runs. Each argument
    is written as is when it consists of "plain" characters and is quoted
    the way `shlex.quote` does it otherwise; the pieces are joined by single
    spaces. The promise is that a POSIX shell would split the text back
    into the same arguments; `Lex` below is that shell word splitting, for
    the part of the shell language the quoting produces. */
module SubprocessUtils {
  import opened Wrappers
  import opened PyStr
  import opened Paths

  /** An item of `argv`: a string, or a `Path` (shown as `str(path)`). */
  datatype Arg = StrArg(s: string) | PathArg(p: Path)

  function ArgStr(a: Arg): string {
    match a
    case StrArg(s) => s
    case PathArg(p) => PathStr(p)
  }

  // ---------------------------------------------------------------------------
  // Classification

  /** The character class `[-0-9a-zA-Z_.=]`. */
  predicate PlainChar(c: char) {
    ('a' <= c <= 'z') || ('A' <= c <= 'Z') || ('0' <= c <= '9') || c == '-' || c == '_' || c == '.' || c == '='
  }

  /** `s` is one or more plain characters: a full match of
      `^[-0-9a-zA-Z_.=]+$`. */
  predicate Plain(s: string) {
    |s| > 0 && forall i | 0 <= i < |s| :: PlainChar(s[i])
  }

  /** What `re.match(r'^[-0-9a-zA-Z_.=]+$', s)` accepts: Python's `$` also
      matches just before a final newline, so a plain string followed by
      one `\n` is accepted too. */
  predicate PlainAsWritten(s: string) {
    Plain(s) || (|s| >= 2 && s[|s| - 1] == '\n' && Plain(s[..|s| - 1]))
  }

  /** The characters `shlex.quote` leaves unquoted: `[A-Za-z0-9_@%+=:,./-]`. */
  predicate SafeChar(c: char) {
    ('a' <= c <= 'z') || ('A' <= c <= 'Z') || ('0' <= c <= '9')
      || c == '_' || c == '@' || c == '%' || c == '+' || c == '='
      || c == ':' || c == ',' || c == '.' || c == '/' || c == '-'
  }

  predicate AllSafe(s: string) {
    forall i | 0 <= i < |s| :: SafeChar(s[i])
  }

  /** How a single quote is written inside single quotes: close the quoted
      part, a double-quoted `'`, open again. */
  const QuotedQuote := "'\"'\"'"

  /** `shlex.quote(s)`: `''` for the empty string, `s` itself when every
      character is safe, else `s` in single quotes with each `'` written as
      `QuotedQuote`. */
  function ShlexQuote(s: string): (r: string)
    ensures |r| >= 1 && !Blank(r[0])
    ensures AllSafe(s) && |s| > 0 ==> r == s
  {
    if |s| == 0 then "''"
    else if AllSafe(s) then s
    else "'" + Replace(s, "'", QuotedQuote) + "'"
  }

  /** One argument as shown, with the full-match classification. */
  function Render(s: string): (r: string)
    ensures Plain(s) ==> r == s
    ensures !Plain(s) ==> r == ShlexQuote(s)
  {
    if Plain(s) then s else ShlexQuote(s)
  }

  /** One argument as shown by the code as written. */
  function RenderAsWritten(s: string): (r: string)
    ensures PlainAsWritten(s) ==> r == s
    ensures !PlainAsWritten(s) ==> r == ShlexQuote(s)
  {
    if PlainAsWritten(s) then s else ShlexQuote(s)
  }

  function RenderAll(items: seq<string>): (r: seq<string>)
    ensures |r| == |items|
    ensures forall i | 0 <= i < |items| :: r[i] == Render(items[i])
  {
    if |items| == 0 then [] else [Render(items[0])] + RenderAll(items[1..])
  }

  function RenderAllAsWritten(items: seq<string>): (r: seq<string>)
    ensures |r| == |items|
    ensures forall i | 0 <= i < |items| :: r[i] == RenderAsWritten(items[i])
  {
    if |items| == 0 then [] else [RenderAsWritten(items[0])] + RenderAllAsWritten(items[1..])
  }

  function ArgStrs(argv: seq<Arg>): (r: seq<string>)
    ensures |r| == |argv|
    ensures forall i | 0 <= i < |argv| :: r[i] == ArgStr(argv[i])
  {
    if |argv| == 0 then [] else [ArgStr(argv[0])] + ArgStrs(argv[1..])
  }

  /** `argv2str(argv)` with the full-match classification. */
  function Argv2Str(argv: seq<Arg>): string {
    Join(RenderAll(ArgStrs(argv)), " ")
  }

  /** `argv2str(argv)` as written. */
  function Argv2StrAsWritten(argv: seq<Arg>): string {
    Join(RenderAllAsWritten(ArgStrs(argv)), " ")
  }

  /** The two classifications differ only on strings ending in a newline. */
  lemma RenderAgreesWithoutNewline(s: string)
    requires |s| == 0 || s[|s| - 1] != '\n'
    ensures RenderAsWritten(s) == Render(s)
  {
  }

  // ---------------------------------------------------------------------------
  // Shell word splitting

  /** Word separators inside one command line. */
  predicate Blank(c: char) {
    c == ' ' || c == '\t'
  }

  /** Characters with a meaning to the shell beyond plain text when they
      are not quoted (a newline ends the command); `Lex` does not model
      what they do and refuses them. */
  predicate Meta(c: char) {
    c == '\\' || c == '$' || c == '`' || c == '|' || c == '&' || c == ';' || c == '<' || c == '>'
      || c == '(' || c == ')' || c == '*' || c == '?' || c == '[' || c == ']' || c == '#'
      || c == '~' || c == '{' || c == '}' || c == '!' || c == '\n'
  }

  /** Characters that stand for themselves outside quotes. */
  predicate Ordinary(c: char) {
    !Blank(c) && c != '\'' && c != '"' && !Meta(c)
  }

  /** Between words, inside an unquoted part of a word, inside single
      quotes, inside double quotes; `acc` is the word read so far. */
  datatype Mode = Between | Unquoted(acc: string) | Single(acc: string) | Double(acc: string)

  function Rank(m: Mode): nat {
    if m.Between? then 1 else 0
  }

  /** The words a POSIX shell reads from `s` when started in mode `m`;
      `None` for an unterminated quote and for text outside the modelled
      part of the language. */
  function Lex(s: string, m: Mode): (r: Option<seq<string>>)
    decreases |s|, Rank(m)
  {
    if |s| == 0 then
      match m
      case Between => Some([])
      case Unquoted(acc) => Some([acc])
      case _ => None
    else
      var c := s[0];
      var rest := s[1..];
      match m
      case Between =>
        if Blank(c) then Lex(rest, Between) else Lex(s, Unquoted(""))
      case Unquoted(acc) =>
        if Blank(c) then
          match Lex(rest, Between)
          case None => None
          case Some(words) => Some([acc] + words)
        else if c == '\'' then Lex(rest, Single(acc))
        else if c == '"' then Lex(rest, Double(acc))
        else if Meta(c) then None
        else Lex(rest, Unquoted(acc + [c]))
      case Single(acc) =>
        if c == '\'' then Lex(rest, Unquoted(acc)) else Lex(rest, Single(acc + [c]))
      case Double(acc) =>
        if c == '"' then Lex(rest, Unquoted(acc))
        else if c == '\\' || c == '$' || c == '`' then None
        else Lex(rest, Double(acc + [c]))
  }

  // ---------------------------------------------------------------------------
  // The round trip

  /** Ordinary characters are copied into the word. */
  lemma {:induction false} LexOrdinary(t: string, s: string, acc: string)
    requires forall i | 0 <= i < |t| :: Ordinary(t[i])
    ensures Lex(t + s, Unquoted(acc)) == Lex(s, Unquoted(acc + t))
    decreases |t|
  {
    if |t| > 0 {
      assert (t + s)[0] == t[0];
      assert (t + s)[1..] == t[1..] + s;
      assert Ordinary(t[0]);
      assert Lex(t + s, Unquoted(acc)) == Lex(t[1..] + s, Unquoted(acc + [t[0]]));
      LexOrdinary(t[1..], s, acc + [t[0]]);
      assert acc + [t[0]] + t[1..] == acc + t;
    } else {
      assert t + s == s && acc + t == acc;
    }
  }

  /** The escaped text of a single-quoted argument, up to and including the
      closing quote, adds the argument to the word. */
  lemma {:induction false} LexEscaped(x: string, s: string, acc: string)
    ensures Lex(Replace(x, "'", QuotedQuote) + "'" + s, Single(acc)) == Lex(s, Unquoted(acc + x))
    decreases |x|
  {
    if |x| == 0 {
      LexClosingQuote(s, acc);
      assert acc + x == acc;
    } else {
      var u := Replace(x[1..], "'", QuotedQuote) + "'" + s;
      LexEscaped(x[1..], s, acc + [x[0]]);
      assert acc + [x[0]] + x[1..] == acc + x;
      EscapedHead(x, s);
      if x[0] == '\'' {
        LexQuotedQuote(u, acc);
        assert acc + "'" == acc + [x[0]];
      } else {
        LexSingleChar(x[0], u, acc);
      }
    }
  }

  /** With nothing left to escape, the closing quote ends the quoted part. */
  lemma LexClosingQuote(s: string, acc: string)
    ensures Lex(Replace("", "'", QuotedQuote) + "'" + s, Single(acc)) == Lex(s, Unquoted(acc))
  {
    var t := Replace("", "'", QuotedQuote) + "'" + s;
    assert t == "'" + s;
    assert t[0] == '\'' && t[1..] == s;
  }

  /** Escaping works character by character from the front. */
  lemma EscapedHead(x: string, s: string)
    requires |x| > 0
    ensures Replace(x, "'", QuotedQuote) + "'" + s ==
      (if x[0] == '\'' then QuotedQuote else [x[0]]) + (Replace(x[1..], "'", QuotedQuote) + "'" + s)
  {
    var head := if x[0] == '\'' then QuotedQuote else [x[0]];
    var e1 := Replace(x[1..], "'", QuotedQuote);
    if x[0] == '\'' {
      assert x[..1] == "'";
    } else {
      assert x[..1] != "'";
    }
    assert Replace(x, "'", QuotedQuote) == head + e1;
    ConcatAssoc(head, e1, "'");
    ConcatAssoc(head, e1 + "'", s);
  }

  /** Inside single quotes, a character other than `'` joins the word. */
  lemma LexSingleChar(c: char, u: string, acc: string)
    requires c != '\''
    ensures Lex([c] + u, Single(acc)) == Lex(u, Single(acc + [c]))
  {
    var t := [c] + u;
    assert t[0] == c && t[1..] == u;
  }

  /** `QuotedQuote` inside single quotes adds one `'` to the word and
      reopens the single quotes. */
  lemma LexQuotedQuote(u: string, acc: string)
    ensures Lex(QuotedQuote + u, Single(acc)) == Lex(u, Single(acc + "'"))
  {
    var t := QuotedQuote + u;
    assert t[0] == '\'' && t[1..] == "\"'\"'" + u;
    assert ("\"'\"'" + u)[0] == '"' && ("\"'\"'" + u)[1..] == "'\"'" + u;
    assert ("'\"'" + u)[0] == '\'' && ("'\"'" + u)[1..] == "\"'" + u;
    assert ("\"'" + u)[0] == '"' && ("\"'" + u)[1..] == "'" + u;
    assert ("'" + u)[0] == '\'' && ("'" + u)[1..] == u;
    calc {
      Lex(t, Single(acc));
      Lex("\"'\"'" + u, Unquoted(acc));
      Lex("'\"'" + u, Double(acc));
      Lex("\"'" + u, Double(acc + "'"));
      Lex("'" + u, Unquoted(acc + "'"));
      Lex(u, Single(acc + "'"));
    }
  }

  /** Every shown argument, followed by the end of the text or a blank,
      adds exactly the argument to the word being read. */
  lemma RenderLex(x: string, s: string, acc: string)
    ensures Lex(Render(x) + s, Unquoted(acc)) == Lex(s, Unquoted(acc + x))
  {
    if Plain(x) {
      LexOrdinary(x, s, acc);
    } else if |x| == 0 {
      var t := "''" + s;
      assert t[0] == '\'' && t[1..] == "'" + s;
      assert ("'" + s)[0] == '\'' && ("'" + s)[1..] == s;
      assert acc + x == acc;
    } else if AllSafe(x) {
      LexOrdinary(x, s, acc);
    } else {
      var e := Replace(x, "'", QuotedQuote);
      var t := "'" + e + "'" + s;
      assert t[0] == '\'' && t[1..] == e + "'" + s;
      LexEscaped(x, s, acc);
    }
  }

  /** The shell reads the joined rendering back into the original words. */
  lemma {:induction false} LexRenderAll(items: seq<string>)
    ensures Lex(Join(RenderAll(items), " "), Between) == Some(items)
    decreases |items|
  {
    if |items| > 0 {
      var x := items[0];
      var r := Render(x);
      var rs := RenderAll(items);
      assert rs[1..] == RenderAll(items[1..]);
      var tail := if |items| == 1 then "" else " " + Join(rs[1..], " ");
      assert Join(rs, " ") == r + tail;
      assert (r + tail)[0] == r[0];
      RenderLex(x, tail, "");
      assert "" + x == x;
      if |items| == 1 {
        assert items == [x];
      } else {
        assert tail[0] == ' ' && tail[1..] == Join(rs[1..], " ");
        LexRenderAll(items[1..]);
        assert items == [x] + items[1..];
      }
    }
  }

  /** `argv2str` round trip: the shown command line splits back into the
      arguments, `Path` items as their string form. */
  lemma Argv2StrRoundTrip(argv: seq<Arg>)
    ensures Lex(Argv2Str(argv), Between) == Some(ArgStrs(argv))
  {
    LexRenderAll(ArgStrs(argv));
  }

  /** The code as written shows `"a\n"` unquoted; the newline then ends the
      command instead of belonging to the argument. */
  lemma Argv2StrAsWrittenBreaksLine()
    ensures Argv2StrAsWritten([StrArg("a\n")]) == "a\n"
    ensures Lex(Argv2StrAsWritten([StrArg("a\n")]), Between) == None
    ensures Lex(Argv2Str([StrArg("a\n")]), Between) == Some(["a\n"])
  {
    var s := "a\n";
    assert s[..|s| - 1] == "a";
    assert PlainAsWritten(s);
    assert RenderAllAsWritten([s]) == [s];
    assert ArgStrs([StrArg(s)]) == [s];
    var t := s[1..];
    assert t == "\n";
    assert Lex(s, Between) == Lex(s, Unquoted(""));
    assert Lex(s, Unquoted("")) == Lex(t, Unquoted("a"));
    Argv2StrRoundTrip([StrArg(s)]);
  }

  /** The documented example: `argv2str(['foo', '--bar=123'])` is
      `'foo --bar=123'`. */
  lemma Argv2StrExample()
    ensures Argv2Str([StrArg("foo"), StrArg("--bar=123")]) == "foo --bar=123"
    ensures Argv2StrAsWritten([StrArg("foo"), StrArg("--bar=123")]) == "foo --bar=123"
  {
    var argv := [StrArg("foo"), StrArg("--bar=123")];
    var items := ArgStrs(argv);
    assert items[0] == "foo" && items[1] == "--bar=123";
    assert Plain(items[0]) && Plain(items[1]);
    var shown := RenderAll(items);
    assert shown[0] == "foo" && shown[1] == "--bar=123";
    assert shown == ["foo", "--bar=123"];
    assert Join(shown, " ") == "foo" + " " + Join(["--bar=123"], " ");
    RenderAgreesWithoutNewline(items[0]);
    RenderAgreesWithoutNewline(items[1]);
    var written := RenderAllAsWritten(items);
    assert written == shown;
  }
}

=== FILE: wrappers.dfy ===
/** Option and Result types shared by the whole model, and the kinds of
    failure the modelled Python code can raise. */
module Wrappers {

  datatype Option<+T> = None | Some(value: T) {

    function GetOr(default: T): T {
      match this
      case Some(v) => v
      case None => default
    }
  }

  /** The exceptions (and `sys.exit` calls) of the modelled code that the
      model distinguishes. */
  datatype Failure =
    | AssertionFailed          // a failing `assert` statement
    | KeyNotFound              // `KeyError`
    | TypeMismatch             // `TypeError` (e.g. `str.replace` given a non-str)
    | AttributeMissing         // `AttributeError` (e.g. `.items()` on a non-dict)
    | ValueRejected            // `ValueError` (e.g. `Path.relative_to` outside the base)
    | KeyAlreadyPresent        // tomlkit refusing to `add` an existing key
    | NoGitRepo                // `NoGitRepoError`
    | GitBinNotFound           // `GitBinNotFoundError`
    | NoPyProjectTomlFound     // `NoPyProjectTomlFound`
    | NotADirectory            // `NotADirectoryError` (e.g. from `assert_is_dir`)
    | FileNotFound             // `FileNotFoundError` (e.g. from `assert_is_file`)
    | IsADirectory             // `IsADirectoryError` (writing a file over a directory)
    | SystemExit(code: int)    // `sys.exit(code)`

  datatype Result<+T> = Ok(value: T) | Err(error: Failure) {

    predicate IsFailure() {
      Err?
    }

    function PropagateFailure<U>(): Result<U>
      requires Err?
    {
      Err(error)
    }

    function Extract(): T
      requires Ok?
    {
      value
    }
  }
}
